=== FILE: README.md ===
# H4I-ExtTest harness core, modelled in Dafny

H4I-ExtTest checks GPU BLAS and LAPACK libraries (hipBLAS, hipSOLVER) from the host.
Each tester owns host/device memory regions, seeds them with a fixed pattern or with
generated values, queues copies to the device on a HIP stream, calls one library routine
through a library context (a handle bound to the stream), copies the result back and
judges it on the host against a closed form or a host recomputation. The older
stand-alone drivers under `src/` do the same with raw pointers and self-owning matrices.

This project models that harness:

- The runtime pieces. `Runtime` holds the stream table and the library's handle table
  and call log. `Hip` holds the buffers with their host and device regions, and the
  streams. A stream's queue of pending copies is drained by `Synchronize`. `Views` holds
  the column-major matrix, strided vector and scalar views. `Contexts` holds the library
  contexts.
- Every tester class: AXPY, DOT, COPY, I_AMAX, I_AMIN, GEMV, the two GEMM testers of the
  test suite, GESV, the SGEMM/GEMM-Ex testers of the older drivers and their hipBLAS
  variant, and the Level-1 drivers `amax.cpp`, `amin.cpp` and `copy.cpp`.
- The library routines, modelled as methods. Each reads its inputs as they are once
  every copy queued before it has run, and (on success) writes the reference BLAS or
  LAPACK result (`Reference`). Their status codes are parameters, and so are those of
  creating, binding and destroying a library context, so each of those failures is
  followed to the verdict it gives.

For each tester class of the test suite (`tests/include`) the model proves three things:

- What `Init` leaves in host and device memory.
- What `DoOperation` does to the device and host regions and to the library's call log.
- That `Check` passes exactly when the closed form the tester writes holds. For AXPY,
  DOT, COPY, I_AMAX, I_AMIN, GEMV and the hipBLAS GEMM tester, a library that computes
  the routine therefore passes the test section exactly when the library context is
  built and destroyed without error and the call reports success.

The other testers do not have that verdict:

- The Level-3 GEMM tester reads C back without waiting for the copy, so with the copy
  landing late it fails even with a correct library (first row of "## Findings").
- The GESV section passes with `info` 0 when the solver solves the system; with a
  non-zero `info` it passes exactly when B is zero (see the GESV note below).
- The `amax.cpp` and `amin.cpp` drivers have no Init, DoOperation or Check, and their
  comparison fails with a correct library (the second and third rows of "## Findings").
- The SGEMM drivers under `src/` return an exit code and a mismatch count, not a
  section verdict: 0 exactly when every call succeeds, and no mismatches then.

Where the comment in a header and its code disagree, the model follows the code:

- `IXaminTester.h` says "largest" but computes the smallest magnitude.
- `GemvTester.h` says the untransposed sum runs over m; the code uses the length of x,
  which is n.

GESV note: when `info` is non-zero, `GesvTester.h` leaves only the comment
`// TODO how do we indicate that the operation failed?` (tests/include/HipSOLVER/LinearSolve/GesvTester.h:176)
and nothing marks the failure. Check does not look at `info` and still runs the
residual check, against an X that was never copied back and is still zero.

## Model

| member | source | states |
|---|---|---|
| Runtime.HipRuntime.StreamCreate | tests/include/HipStream.h:16-23 | a successful hipStreamCreate adds a new id to the live streams; a failure adds nothing and returns its code |
| Runtime.HipRuntime.StreamDestroy | tests/include/HipStream.h:25-31 | destroying a live stream removes exactly that id |
| Runtime.Library.Create | tests/include/HipBLAS/HipblasContext.h:18 | a successful create returns a handle that was not live, now live and bound to the default stream; a failure changes nothing and returns its code |
| Runtime.Library.SetStream | tests/include/HipBLAS/HipblasContext.h:22 | on success the handle is bound to the given stream, otherwise the binding is unchanged |
| Runtime.Library.Destroy | tests/include/HipBLAS/HipblasContext.h:28 | on success exactly that handle stops being live; on failure the table is unchanged |
| Hip.Buffer.constructor | tests/include/Buffer.h:24-34 | both regions are freshly allocated with `size` slots and zero-filled |
| Hip.Buffer.Release | tests/include/Buffer.h:36-48 | each region is freed only while non-null and then nulled, so it is freed at most once |
| Hip.Buffer.CopyHostToDevice | tests/include/Buffer.h:52-58 | the device region equals the host region |
| Hip.Buffer.CopyHostToDeviceAsync | tests/include/Buffer.h:60-67 | the upload joins the end of the stream's queue and nothing is copied yet |
| Hip.Buffer.CopyDeviceToHost | tests/include/Buffer.h:69-75 | the host region equals the device region |
| Hip.Buffer.CopyDeviceToHostAsync | tests/include/Buffer.h:77-84 | the download joins the end of the stream's queue |
| Hip.HipStream.Create | tests/include/HipStream.h:16-23 | the default stream unless a custom one is asked for; a custom stream is a new live runtime stream, or the creation error is raised |
| Hip.HipStream.Destroy | tests/include/HipStream.h:25-31 | only a custom stream is destroyed; the default stream is left alone |
| Hip.HipStream.Synchronize | tests/include/HipStream.h:35 | every queued copy has run in order: each region holds what the queue said it would, and the queue is empty |
| Hip.HipStream.Enqueue | tests/include/Buffer.h:60-67 | an asynchronous copy is appended to the queue; nothing else changes |
| Hip.SynchronizeUploads | tests/include/HipBLAS/Level1/AxpyTester.h:76-87 | draining three queued uploads leaves every device region equal to its host region |
| Hip.SynchronizeUpload | tests/include/HipBLAS/Level1/CopyTester.h:100-102 | draining one queued upload leaves the device region equal to the host region |
| Hip.SynchronizeUploads2 | tests/include/HipSOLVER/LinearSolve/GesvTester.h:114-120 | draining two queued uploads of separate buffers leaves both device regions equal to their host regions |
| Hip.SynchronizeDownload | tests/include/HipBLAS/Level1/AxpyTester.h:115-117 | draining one queued download leaves the host region equal to the device region |
| Hip.DownloadBothAndWait | tests/include/HipSOLVER/LinearSolve/GesvTester.h:165-179 | two downloads queued and drained give both host regions their device contents |
| Views.Matrix.El | tests/include/Matrix.h:46-54 | element (r, c) is host slot c nRows + r |
| Views.Matrix.Set | tests/include/Matrix.h:46-49 | writing (r, c) changes only slot c nRows + r; every other element keeps its value |
| Views.Vector.El | tests/include/Vector.h:32-40 | element i is host slot stride i |
| Views.NewMatrix | tests/include/Matrix.h:25-29 | an m x n matrix over a fresh zero-filled buffer of m n slots |
| Views.NewMatrixOfShape | tests/include/Matrix.h:31-35 | the same from a (rows, cols) pair |
| Views.NewVector | tests/include/Vector.h:19-23 | n elements at the given stride over a fresh zero-filled buffer |
| Views.NewScalar | tests/include/Scalar.h:13-17 | the host slot holds the initial value and the device slot zero |
| Views.FillScaled | tests/include/HipBLAS/Level1/CopyTester.h:94-99 | logical element i becomes scale i; slots between the strided elements keep their values |
| Views.FillFrom | tests/include/HipBLAS/Level1/IXamaxTester.h:63-74 | logical element i becomes the i-th generated value, and the slots between the strided elements keep their contents |
| Views.CopyInto | tests/include/HipSOLVER/LinearSolve/GesvTester.h:99-121 | the whole host region becomes the generated values |
| Contexts.LibraryContext.Create | tests/include/HipBLAS/HipblasContext.h:16-24 | a handle is created and bound to the stream only when the stream is custom; a failed create raises its code; a failed bind raises its code and leaves the created handle live on the default stream, with every handle live before keeping its stream |
| Contexts.LibraryContext.Destroy | tests/include/HipBLAS/HipblasContext.h:26-30 | on success the handle is no longer live and is nulled; a failure raises its code |
| Contexts.LibraryContext.CreateBound | src/HipBLAS/Sgemm/Common/HipblasContext.h:16-20 | the older drivers' context binds the stream whatever it is; a failed create raises its code and changes nothing; a failed bind raises its code and leaves the created handle live |
| Contexts.CreateThenDestroy | tests/include/HipSOLVER/HipsolverContext.h:16-30 | creating and destroying a context leaves the handle table as it was |
| HipTester.RelativeError | tests/include/HipTester.h:19-26 | the error times the magnitude of the expected value is the magnitude of the difference; with a zero expected value it is the difference itself; never negative |
| HipTester.RelativeErrorZeroIff | tests/include/HipTester.h:19-26 | the relative error is zero exactly when the computed value equals the expected one |
| HipTester.WithinRelOfEqual | tests/include/HipBLAS/Level1/CopyTester.h:124 | a value is within any non-negative tolerance of itself |
| HipTester.WithinRelZeroTarget | tests/include/HipBLAS/Level1/AxpyTester.h:126 | against a zero target only zero matches, for tolerances below one |
| HipTester.RelativeErrorImpliesWithinRel | tests/include/HipBLAS/Level3/GemmTester.h:158-161 | within a tolerance by RelativeError implies within it by the WithinRel matcher |
| Vendor.Axpy | tests/include/HipBLAS/Level1/AxpyTester.h:107-113 | logs the call, runs the earlier queued copies, and on success leaves alpha x + y in y |
| Vendor.Copy | tests/include/HipBLAS/Level1/CopyTester.h:109-114 | on success the logical elements of y become those of x |
| Vendor.Dot | tests/include/HipBLAS/Level1/DotTester.h:109-115 | on success the result slot holds the dot product of the logical elements |
| Vendor.Iamax | tests/include/HipBLAS/Level1/IXamaxTester.h:84-88 | on success the index is the 1-based position of the first element of largest magnitude |
| Vendor.Iamin | tests/include/HipBLAS/Level1/IXaminTester.h:84-88 | on success the index is the 1-based position of the first element of smallest magnitude |
| Vendor.Gemv | tests/include/HipBLAS/Level2/GemvTester.h:135-146 | on success y becomes alpha op(A) x + beta y |
| Vendor.Gemm | tests/include/HipBLAS/Level3/GemmTester.h:120-133 | on success C becomes alpha op(A) op(B) + beta C |
| Vendor.GesvBufferSize | tests/include/HipSOLVER/LinearSolve/GesvTester.h:127-138 | the workspace size on success, or the status code |
| Vendor.Gesv | tests/include/HipSOLVER/LinearSolve/GesvTester.h:147-160 | on success X, the pivots and the info code hold the solver's answer |
| Extrema.FirstMax | tests/include/HipBLAS/Level1/IXamaxTester.h:95-106 | the index lies in range, no element exceeds the one there, and every earlier element is strictly smaller |
| Extrema.FirstMin | tests/include/HipBLAS/Level1/IXaminTester.h:95-106 | the index lies in range, no element is below the one there, and every earlier element is strictly larger |
| Extrema.FirstMaxUnique | tests/include/HipBLAS/Level1/IXamaxTester.h:98-106 | those two properties single out the index |
| Extrema.FirstMinUnique | tests/include/HipBLAS/Level1/IXaminTester.h:98-106 | those two properties single out the index |
| Extrema.ExtremaOfNonNegative | src/HipBLAS/Common/Util.h:10-20 | on the non-negative generated data, scanning magnitudes and signed values picks the same positions |
| AxpyTester.AxpyOfRamps | tests/include/HipBLAS/Level1/AxpyTester.h:20-22 | on x[i] = i and y[i] = 2i, AXPY leaves (alpha + 2) i at every logical element |
| AxpyTester.AxpyTester.constructor | tests/include/HipBLAS/Level1/AxpyTester.h:55-65 | alpha holds its value on the host, and x and y are zero vectors at the given strides |
| AxpyTester.AxpyTester.Init | tests/include/HipBLAS/Level1/AxpyTester.h:70-88 | x holds i, y holds 2i, and the device copies of x, y and alpha equal the host copies |
| AxpyTester.AxpyTester.DoOperation | tests/include/HipBLAS/Level1/AxpyTester.h:91-118 | on success y on the host is AXPY of the device operands; a failing call raises its status |
| AxpyTester.AxpyTester.Check | tests/include/HipBLAS/Level1/AxpyTester.h:120-128 | passes exactly when every y[i] is within the tolerance of (alpha + 2) i |
| AxpyTester.TestSection | tests/include/HipBLAS/Level1/AxpyTester.h:131-154 | the tester builds the library context on the stream and destroys it at the end; with a correct library the section passes exactly when the create, the bind (custom stream only), the call and the destroy all succeed |
| CopyTester.CopyRefItems | tests/include/HipBLAS/Level1/CopyTester.h:120-126 | after COPY the logical elements of y are those of x |
| CopyTester.CopyTester.constructor | tests/include/HipBLAS/Level1/CopyTester.h:79-89 | x and y are zero vectors at the given strides |
| CopyTester.CopyTester.Init | tests/include/HipBLAS/Level1/CopyTester.h:94-103 | x holds factor i on host and device; y is untouched |
| CopyTester.CopyTester.DoOperation | tests/include/HipBLAS/Level1/CopyTester.h:106-118 | on success y on the host is COPY of x; a failing call raises |
| CopyTester.CopyTester.Check | tests/include/HipBLAS/Level1/CopyTester.h:120-126 | passes exactly when every y[i] is within the tolerance of x[i] |
| CopyTester.TestSection | tests/include/HipBLAS/Level1/CopyTester.h:129-153 | the tester builds the library context on the stream and destroys it at the end; with a correct library the section passes exactly when the create, the bind (custom stream only), the call and the destroy all succeed |
| DotTester.DotOfRamps | tests/include/HipBLAS/Level1/DotTester.h:16-26 | the dot product of i and 2i over i < n is (n - 1) n (2n - 1) / 3 |
| DotTester.DotTester.constructor | tests/include/HipBLAS/Level1/DotTester.h:59-67 | x and y at the given strides and a zero result |
| DotTester.DotTester.Init | tests/include/HipBLAS/Level1/DotTester.h:72-90 | x holds i, y holds 2i, the result 0, each equal on host and device |
| DotTester.DotTester.QueueOperands | tests/include/HipBLAS/Level1/DotTester.h:72-88 | x holds i, y holds 2i and the result 0 on the host, and the uploads of x, y and the result are queued in that order |
| DotTester.DotTester.DoOperation | tests/include/HipBLAS/Level1/DotTester.h:93-120 | on success the host result is the dot product; a failing call raises |
| DotTester.DotTester.Check | tests/include/HipBLAS/Level1/DotTester.h:122-126 | passes exactly when the result is within the tolerance of the closed form |
| DotTester.TestSection | tests/include/HipBLAS/Level1/DotTester.h:129-150 | the tester builds the library context on the stream and destroys it at the end; with a correct library the section passes exactly when the create, the bind (custom stream only), the call and the destroy all succeed |
| IXamaxTester.IXamaxTester.constructor | tests/include/HipBLAS/Level1/IXamaxTester.h:51-58 | x at the given stride and result -1 |
| IXamaxTester.IXamaxTester.Init | tests/include/HipBLAS/Level1/IXamaxTester.h:63-78 | x holds the generated values, equal on host and device; the slots between its strided elements keep their contents |
| IXamaxTester.IXamaxTester.DoOperation | tests/include/HipBLAS/Level1/IXamaxTester.h:81-91 | on success result is I_AMAX of the device x; a failing call raises and leaves result alone |
| IXamaxTester.IXamaxTester.Check | tests/include/HipBLAS/Level1/IXamaxTester.h:93-113 | the host scan finds the first largest magnitude, and the check passes exactly when result is that index plus one |
| IXamaxTester.TestSection | tests/include/HipBLAS/Level1/IXamaxTester.h:116-138 | the tester builds the library context on the stream and destroys it at the end; with a correct library the section passes exactly when the create, the bind (custom stream only), the call and the destroy all succeed |
| IXaminTester.IXaminTester.constructor | tests/include/HipBLAS/Level1/IXaminTester.h:51-58 | x at the given stride and result -1 |
| IXaminTester.IXaminTester.Init | tests/include/HipBLAS/Level1/IXaminTester.h:63-78 | x holds the generated values, equal on host and device; the slots between its strided elements keep their contents |
| IXaminTester.IXaminTester.DoOperation | tests/include/HipBLAS/Level1/IXaminTester.h:81-91 | on success result is I_AMIN of the device x; a failing call raises |
| IXaminTester.IXaminTester.Check | tests/include/HipBLAS/Level1/IXaminTester.h:93-113 | the host scan finds the first smallest magnitude, and the check passes exactly when result is that index plus one |
| IXaminTester.TestSection | tests/include/HipBLAS/Level1/IXaminTester.h:116-136 | the tester builds the library context on the stream and destroys it at the end; with a correct library the section passes exactly when the create, the bind (custom stream only), the call and the destroy all succeed |
| GemvTester.TriangleClosedForm | tests/include/HipBLAS/Level2/GemvTester.h:164 | 0 + 1 + ... + (L - 1) is L (L - 1) / 2 |
| GemvTester.ExpectedAsWritten | tests/include/HipBLAS/Level2/GemvTester.h:164 | the value Check forms, with the product taken in integers, is alpha L (L - 1) / 2 + 2 beta i |
| GemvTester.OpAtOfOnes | tests/include/HipBLAS/Level2/GemvTester.h:17 | every element of op(A) of the all-ones A is one |
| GemvTester.GemvSumOfOnes | tests/include/HipBLAS/Level2/GemvTester.h:26-37 | a row of op(A) times 0, 1, ..., L - 1 is the triangle number |
| GemvTester.GemvOfSeeds | tests/include/HipBLAS/Level2/GemvTester.h:26-37 | on the seeds GEMV leaves the expected value at every logical element of y |
| GemvTester.FillOnes | tests/include/HipBLAS/Level2/GemvTester.h:93-99 | every element of A becomes one |
| GemvTester.GemvTester.constructor | tests/include/HipBLAS/Level2/GemvTester.h:72-87 | A is m x n whatever transA is; x has n elements (m when transposed) and y has m (n when transposed) |
| GemvTester.GemvTester.Init | tests/include/HipBLAS/Level2/GemvTester.h:90-115 | A all ones, x holds i, y holds 2i, each equal on host and device |
| GemvTester.GemvTester.DoOperation | tests/include/HipBLAS/Level2/GemvTester.h:118-152 | one GEMV call is logged with A's row count as leading dimension; on success y on the host is GEMV of the device operands |
| GemvTester.GemvTester.Check | tests/include/HipBLAS/Level2/GemvTester.h:154-167 | passes exactly when the lengths match transA and every y[i] is within the tolerance |
| GemvTester.TestSection | tests/include/HipBLAS/Level2/GemvTester.h:170-196 | the tester builds the library context on the stream and destroys it at the end; with a correct library the section passes exactly when the create, the bind (custom stream only), the call and the destroy all succeed |
| GemmSeeds.FillSeedA | tests/include/HipBLAS/Level3/GemmTester.h:72-75 | column 0 of A becomes ones; every other element keeps its value |
| GemmSeeds.FillSeedB | tests/include/HipBLAS/Level3/GemmTester.h:78-89 | logical row 0 of op(B) becomes ones; every other element keeps its value |
| GemmSeeds.FillSeedC | tests/include/HipBLAS/Level3/GemmTester.h:92-98 | C(r, c) becomes r c |
| GemmSeeds.GemmSumOfSeeds | tests/include/HipBLAS/Level3/GemmTester.h:158 | on the seeds every entry of op(A) op(B) is one |
| GemmSeeds.GemmOfSeeds | tests/include/HipBLAS/Level3/GemmTester.h:158 | with k >= 1, GEMM on the seeds leaves alpha + beta r c at every (r, c) |
| GemmSeeds.MismatchExact | src/HipBLAS/Common/SgemmTester.h:116-118 | at tolerance zero a mismatch is a value different from the expected one |
| GemmSeeds.MismatchesZeroIff | src/HipBLAS/Common/SgemmTester.h:111-127 | no mismatch is counted exactly when every element is within the tolerance |
| GemmSeeds.MismatchesBound | tests/include/HipBLAS/Level3/GemmTester.h:173-178 | at most every element is a mismatch |
| GemmSeeds.CountExact | tests/include/HipBLAS/GemmTester.h:152-173 | the loop's count is the number of elements of C that differ from alpha + beta r c; the same loop serves src/HipBLAS/Common/SgemmTester.h:111-127 |
| Level3GemmTester.RelativeErrorOfZero | tests/include/HipBLAS/Level3/GemmTester.h:158-160 | a zero where a non-zero value is expected has relative error exactly one |
| Level3GemmTester.GemmTester.constructor | tests/include/HipBLAS/Level3/GemmTester.h:47-61 | A is m x k, B is k x n (n x k when transB), C is m x n, all zero |
| Level3GemmTester.GemmTester.Init | tests/include/HipBLAS/Level3/GemmTester.h:70-100 | the three matrices hold the seeds and their uploads are queued in order; nothing waits |
| Level3GemmTester.GemmTester.DoOperation | tests/include/HipBLAS/Level3/GemmTester.h:103-138 | one GEMM call is logged with row counts as leading dimensions; on success the device C is GEMM of the operands after the queued uploads; the download of C is queued, so the host copy of C is unchanged |
| Level3GemmTester.GemmTester.DoOperationSynced | tests/include/HipBLAS/Level3/GemmTester.h:103-138 | with a wait after the download, the host copy of C is the GEMM result |
| Level3GemmTester.GemmTester.Check | tests/include/HipBLAS/Level3/GemmTester.h:140-180 | passes exactly when C has the shape of op(A) op(B) and every element is within the tolerance of alpha + beta r c |
| Level3GemmTester.RunAsWritten | tests/include/HipBLAS/Level3/GemmTester.h:134-137 | the tester builds the library context, runs the section and destroys the context; with the copy of C landing after Check reads it, and m, n >= 1, alpha non-zero and a tolerance below one, the run as written fails even when the library succeeds |
| Level3GemmTester.SectionAsWritten | tests/include/HipBLAS/Level3/GemmTester.h:134-137 | on a context bound to the stream, Check reads C as Init left it, so with m, n >= 1, alpha non-zero and a tolerance below one the section fails even when the call succeeds; the context stays valid |
| Level3GemmTester.SeededGemmWithin | tests/include/HipBLAS/Level3/GemmTester.h:154-171 | GEMM of the seeds, read back exactly, is within any non-negative tolerance everywhere |
| Level3GemmTester.RunSynced | tests/include/HipBLAS/Level3/GemmTester.h:70-180 | with the wait added, a correct library passes exactly when the context is built, the call succeeds and the context is destroyed |
| Level3GemmTester.SectionSynced | tests/include/HipBLAS/Level3/GemmTester.h:70-180 | on a context bound to the stream, with the wait added, a correct library passes exactly when the call succeeds; the context stays valid |
| HipblasGemmTester.GemmTester.constructor | tests/include/HipBLAS/GemmTester.h:92-108 | the matrices have the GEMM shapes, hold the seeds, and their three uploads are queued |
| HipblasGemmTester.GemmTester.InitMatrices | tests/include/HipBLAS/GemmTester.h:39-69 | the seeds are written and each upload queued right after its matrix |
| HipblasGemmTester.GemmTester.DoOperation | tests/include/HipBLAS/GemmTester.h:111-150 | a context on the tester's stream whose failures raise and leave memory and the queue untouched; one logged GEMM call, a wait, the download of C queued, and GEMM's own status returned, unless destroying the context fails, which raises its code |
| HipblasGemmTester.GemmTester.GemmThenReadBack | tests/include/HipBLAS/GemmTester.h:130-147 | the device C is GEMM of the operands after the uploads, and only the download of C is left queued |
| HipblasGemmTester.GemmTester.Check | tests/include/HipBLAS/GemmTester.h:152-173 | the count of elements of C that differ from alpha + beta r c; zero exactly when every element matches |
| HipblasGemmTester.RunSection | tests/HipBLAS/level3.cpp:31-52 | with a correct library and k >= 1 the section passes exactly when the context is built, the call succeeds and the context is destroyed |
| HipblasGemmTester.GemmTestSection | tests/HipBLAS/level3.cpp:10-55 | the same for the 100 x 50 x 150 problem with alpha 0.5 and beta 0.75 |
| HipblasGemmTester.GemmTestCase | tests/HipBLAS/level3.cpp:57-63 | on the default stream both sections pass exactly when the create, the call and the destroy succeed |
| GesvTester.ProductOfZeros | tests/include/HipSOLVER/LinearSolve/GesvTester.h:187-199 | A times an all-zero X is zero |
| GesvTester.SolutionPasses | tests/include/HipSOLVER/LinearSolve/GesvTester.h:202-210 | a true solution of A X = B passes the residual check at any tolerance |
| GesvTester.ZeroSolutionPasses | tests/include/HipSOLVER/LinearSolve/GesvTester.h:202-210 | with X still zero, the residual check (tolerance below one) passes exactly when B is zero |
| GesvTester.GesvTester.constructor | tests/include/HipSOLVER/LinearSolve/GesvTester.h:84-94 | A is n x n, the pivots n long, B and X n x nrhs, all zero |
| GesvTester.GesvTester.Init | tests/include/HipSOLVER/LinearSolve/GesvTester.h:99-121 | A and B hold the generated values on host and device; X is untouched |
| GesvTester.GesvTester.DoOperation | tests/include/HipSOLVER/LinearSolve/GesvTester.h:124-180 | a failed size query or solve raises its status; otherwise the info code comes back, and X and the pivots come back only when it is 0 |
| GesvTester.GesvTester.SolveOnDevice | tests/include/HipSOLVER/LinearSolve/GesvTester.h:127-160 | the size query, the workspace and the solve, with every leading dimension n, logged in order |
| GesvTester.GesvTester.FetchResults | tests/include/HipSOLVER/LinearSolve/GesvTester.h:163-179 | info is copied back; X and the pivots are copied back exactly when info is 0 |
| GesvTester.GesvTester.Check | tests/include/HipSOLVER/LinearSolve/GesvTester.h:182-211 | passes exactly when every element of A X is within the tolerance of B |
| GesvTester.GesvTester.MultiplyOnHost | tests/include/HipSOLVER/LinearSolve/GesvTester.h:187-199 | the triple loop leaves A X in a fresh matrix |
| GesvTester.GesvTester.RowTimesColumn | tests/include/HipSOLVER/LinearSolve/GesvTester.h:191-197 | the inner loop's sum is element (r, c) of A X |
| GesvTester.ProductUpToStep | tests/include/HipSOLVER/LinearSolve/GesvTester.h:196-197 | storing one element keeps the computed part of A X correct |
| GesvTester.TestSection | tests/include/HipSOLVER/LinearSolve/GesvTester.h:214-234 | a failed context create, bind or destroy, or a failed call, fails the section; otherwise info 0 with a true solution passes, and a non-zero info passes exactly when B is zero |
| GesvTester.RunOnContext | tests/include/HipSOLVER/LinearSolve/GesvTester.h:224-232 | Init, DoOperation and Check on a context bound to the stream: a failed call fails; info 0 with a true solution passes; a non-zero info passes exactly when B is zero |
| CommonMatrix.Matrix.constructor | src/Common/Matrix.h:34-45 | both regions are freshly allocated, rows times columns long, and zero |
| CommonMatrix.Matrix.Release | src/Common/Matrix.h:47-59 | each region is freed at most once and nulled |
| CommonMatrix.Matrix.El | src/Common/Matrix.h:70-78 | element (r, c) is host slot c nRows + r |
| CommonMatrix.Matrix.SetEl | src/Common/Matrix.h:70-74 | writing (r, c) changes only that element of the host region; the device region is unchanged |
| CommonMatrix.Matrix.CopyHostToDevice | src/Common/Matrix.h:80-86 | the device region equals the host region |
| CommonMatrix.Matrix.CopyHostToDeviceAsync | src/Common/Matrix.h:88-95 | the upload is queued on the stream |
| CommonMatrix.Matrix.CopyDeviceToHost | src/Common/Matrix.h:97-103 | the host region equals the device region |
| CommonMatrix.Matrix.CopyDeviceToHostAsync | src/Common/Matrix.h:105-112 | the download is queued on the stream |
| CommonMatrix.Matrix.RoundTrip | src/Common/Matrix.h:80-103 | an upload then a download gives the host back its contents and the device a copy of them |
| CommonMatrix.Matrix.DeviceSnapshot | src/Common/Matrix.h:132-150 | the printed values are exactly the device region |
| SgemmTester.WriteSeedA | src/HipBLAS/Common/SgemmTester.h:34-37 | the zero A holds ones in column 0 and zeros elsewhere; the device region is unchanged |
| SgemmTester.WriteSeedB | src/HipBLAS/Common/SgemmTester.h:40-51 | the zero B holds ones in logical row 0 of op(B) and zeros elsewhere |
| SgemmTester.WriteSeedC | src/HipBLAS/Common/SgemmTester.h:54-60 | C(r, c) becomes r c |
| SgemmTester.SgemmTester.constructor | src/HipBLAS/Common/SgemmTester.h:71-86 | the four matrices have the GEMM shapes, A, B and C hold the seeds with their uploads queued, and D stays zero |
| SgemmTester.SgemmTester.InitMatrices | src/HipBLAS/Common/SgemmTester.h:32-66 | A, B, C seeded and uploaded in that order; D untouched |
| SgemmTester.SgemmTester.Output | src/HipBLAS/Common/SgemmTester.h:108 | D when the library writes a separate output, else C |
| SgemmTester.SgemmTester.CheckComputation | src/HipBLAS/Common/SgemmTester.h:106-129 | the mismatch count is at most the element count and is zero exactly when every output element is alpha + beta r c |
| SgemmTester.SgemmTester.DoSgemm | src/HipBLAS/Sgemm/Common/HipblasSgemmTester.h:34-72 | create or bind failures raise with C and the queue untouched; otherwise one GEMM call is logged with A untransposed and B transposed as the tester is; on success the device C is GEMM of the uploaded operands and only its download is queued; a failed call raises; a failed destroy terminates the process |
| SgemmTester.SgemmTester.SgemmOnDevice | src/HipBLAS/Sgemm/Common/HipblasSgemmTester.h:54-71 | one GEMM call logged; a failed call raises with the device C unchanged; on success the device C is GEMM of the operands after the queued uploads |
| SgemmTester.WaitForUploads | src/HipBLAS/Sgemm/Common/DoSgemmMain.h:54 | draining the three uploads leaves the device copies of A, B and C equal to their host copies |
| SgemmTester.WaitForResult | src/HipBLAS/Sgemm/Common/DoSgemmMain.h:64 | draining the queued download leaves the host C equal to the device C |
| SgemmTester.NewHipblasSgemmTester | src/HipBLAS/Sgemm/Common/HipblasSgemmTester.h:19 | the hipBLAS tester checks C, not D |
| SgemmTester.RunHipblasSgemm | src/HipBLAS/Sgemm/Common/DoSgemmMain.h:16-96 | the run aborts exactly when the context is built and its destroy fails; otherwise the exit code is 0 exactly when every status succeeds and 1 otherwise; with exit code 0 and k >= 1 the mismatch count is 0 |
| SgemmTester.CheckAfterWait | src/HipBLAS/Sgemm/Common/DoSgemmMain.h:64-73 | after the wait, a computed GEMM of the seeds has no mismatch |
| Level1Drivers.FindIdxMaxElement | src/HipBLAS/Level-1/amax.cpp:6-10 | the first position of the largest signed value, 0 for an empty range |
| Level1Drivers.FindIdxMinElement | src/HipBLAS/Level-1/amin.cpp:6-10 | the first position of the smallest signed value, 0 for an empty range |
| Level1Drivers.HipblasAmax | src/HipBLAS/Level-1/amax.cpp:12-18 | the library is called with stride 1 whatever incx; result is written only on success |
| Level1Drivers.HipblasAmin | src/HipBLAS/Level-1/amin.cpp:12-18 | the same for I_AMIN |
| Level1Drivers.HipblasCopy | src/HipBLAS/Level-1/copy.cpp:6-12 | the library is called with strides 1 and 1 whatever incx and incy |
| Level1Drivers.Memcpy | src/HipBLAS/Level-1/copy.cpp:33 | a blocking copy makes the destination equal to the source |
| Level1Drivers.LibraryIndex | src/HipBLAS/Level-1/amax.cpp:33-42 | the library's answer on the uploaded values, or the initial 0 when the call fails |
| Level1Drivers.AmaxTest | src/HipBLAS/Level-1/amax.cpp:20-63 | a failed create fails at once; otherwise one I_AMAX call with stride 1 is logged, and the test passes exactly when the destroy succeeds and the host's 0-based signed index equals the library's result |
| Level1Drivers.AminTest | src/HipBLAS/Level-1/amin.cpp:20-63 | the same for the smallest element |
| Level1Drivers.AmaxRejectsCorrectLibrary | src/HipBLAS/Level-1/amax.cpp:45-51 | on non-empty non-negative data the host index is one less than a correct library's, so the comparison always fails |
| Level1Drivers.AminRejectsCorrectLibrary | src/HipBLAS/Level-1/amin.cpp:44-51 | the same for I_AMIN |
| Level1Drivers.SignedScanDiffers | src/HipBLAS/Level-1/amax.cpp:6-10 | on [-2, 1] the signed scan plus one still differs from the largest magnitude's position |
| Level1Drivers.ExpectedAmaxIndex | src/HipBLAS/Level-1/amax.cpp:45-51 | the 1-based position of the first largest magnitude, 0 for an empty range |
| Level1Drivers.ExpectedAminIndex | src/HipBLAS/Level-1/amin.cpp:44-51 | the 1-based position of the first smallest magnitude, 0 for an empty range |
| Level1Drivers.ExpectedIndicesMatchLibrary | src/HipBLAS/Level-1/amax.cpp:42-45 | those indices are what a correct library returns |
| Level1Drivers.AmaxTestCorrected | src/HipBLAS/Level-1/amax.cpp:20-63 | with the intended comparison, a correct library passes exactly when every call succeeds (or the range is empty) |
| Level1Drivers.AminTestCorrected | src/HipBLAS/Level-1/amin.cpp:20-63 | the same for I_AMIN |
| Level1Drivers.CopyWholeRegion | src/HipBLAS/Level-1/copy.cpp:35 | a unit-stride COPY of a whole region makes the destination equal to the source |
| Level1Drivers.SameElements | src/HipBLAS/Level-1/copy.cpp:42-47 | the loop that stops at the first difference reports equality exactly when the arrays are equal |
| Level1Drivers.CopyOnDevice | src/HipBLAS/Level-1/copy.cpp:26-47 | one COPY call with strides 1 is logged, and the arrays compare equal exactly when the call succeeds or y already held x |
| Level1Drivers.CopyTest | src/HipBLAS/Level-1/copy.cpp:14-62 | a failed create fails at once; otherwise the test passes exactly when the destroy succeeds and (the copy succeeds or y already held x) |

## Left out

- Floating point: every scalar type (float, double, the int pivot and info views) is `real`. Rounding is not modelled, so the exact comparisons of the older GEMM testers and the tolerance comparisons are judged over reals.
- Buffer sizes are counted in elements, not bytes. Integer dimensions are `nat`, so negative sizes and `int`/`uint32_t` overflow of counts and indices are not modelled.
- Allocation failures (`hipMalloc`, `hipHostMalloc`, `malloc` returning null) and failures of copies, memsets and stream synchronisation are not modelled; those calls are taken to succeed.
- The GPU runs concurrently with the host. Here the device does nothing between calls: queued copies run when the stream is drained or when a later library call on the stream starts.
- Library routines are foreign calls. On success each writes the reference BLAS/LAPACK result; the GESV solver's answer is a parameter, constrained to solve A X = B when it reports info 0.
- Pointer mode (the `#if READY` blocks) is compiled out in the source and left out here; scalars are read from where the testers put them.
- Catch2: `GENERATE`, `random` and `take` become parameters. `REQUIRE`/`REQUIRE_THAT` become a boolean verdict, and `REQUIRE_NOTHROW` becomes an `Outcome`. The threshold option of the test session is the `tol` parameter.
- `src/HipBLAS/Common/Util.h` fills arrays from `rand()`; the values are parameters. The findings use only the fact that they are never negative.
- Printing (`operator<<`, `DumpTo`, mismatch messages) and command-line parsing (`DoSgemmMain.h`, `main.cpp`) are not modelled; only the data `operator<<` reads is (`DeviceSnapshot`).
- `amax()`, `amin()` and `copy()` run their test for float and for double, print the verdicts and return 0 whatever they are. Printing is not modelled, and the two runs are the same on reals.
- Contexts.LibraryContext.Destroy: a failing destroy is modelled as an exception the caller sees (`Threw`). That holds only if the destructor of `HipstarLibraryContext` is declared `noexcept(false)`; that header is not part of this model. If it is not, the process terminates instead. Either way the test section that owns the context does not pass, which is all the section verdicts state.
- `src/HipBLAS/Sgemm/Common/HipblasContext.h` has no base class, so its destructor may not throw; a failing destroy there is modelled as termination (`Terminated`, `Aborted`).
- `src/Common/HipStream.h` ignores its create status. It is modelled through the same stream members as the test suite, with the status as a parameter.
- The `result` arguments of the older GEMM tester's `DoOperation` and `Check` are never read, so they are not modelled.
- AXPY is compiled out of the test registration (tests/HipBLAS/level1.cpp:5-21); `AxpyTester` is modelled as written.
- Hip.HipStream.Enqueue: the copy must not touch a region an earlier queued copy writes, nor write one it reads. Overlapping queued copies are left out.
- AxpyTester.AxpyTester.Init: stated for an idle stream; every test section builds its tester on a stream with nothing queued.
- CopyTester.CopyTester.Init: stated for an idle stream, as above.
- DotTester.DotTester.Init: stated for an idle stream, as above.
- GemvTester.GemvTester.Init: stated for an idle stream, as above.
- IXamaxTester.IXamaxTester.Init: stated for an idle stream, as above.
- IXaminTester.IXaminTester.Init: stated for an idle stream, as above.
- GesvTester.GesvTester.Init: stated for an idle stream, as above.
- GesvTester.GesvTester.DoOperation: stated for an idle stream, which is what Init leaves.
- AxpyTester.TestSection: stated for an idle stream, which is the state of the stream a test case creates before its sections run.
- CopyTester.TestSection: stated for an idle stream, as above.
- DotTester.TestSection: stated for an idle stream, as above.
- GemvTester.TestSection: stated for an idle stream, as above.
- IXamaxTester.TestSection: stated for an idle stream, as above.
- IXaminTester.TestSection: stated for an idle stream, as above.
- GesvTester.TestSection: stated for an idle stream, as above.
- Level3GemmTester.GemmTester.Init: stated for an idle stream. It requires k >= 1 whenever A or op(B) has a row to seed; with k = 0 the source writes column 0 of an empty matrix.
- HipblasGemmTester.GemmTester.constructor: stated for an idle stream and for k >= 1 whenever m or n is positive, for the same reason.
- SgemmTester.SgemmTester.constructor: stated for an idle stream and for k >= 1 whenever m or n is positive, for the same reason. The driver builds it on a fresh stream.
- SgemmTester.RunHipblasSgemm: stated for an idle stream and for k >= 1 whenever m or n is positive, as the constructor. The command-line parse (src/HipBLAS/Sgemm/Common/DoSgemmMain.h:36-43) may give k = 0, and then the seeding writes column 0 of an empty A.
- SgemmTester.SgemmTester.DoSgemm: stated for an idle stream; the driver drains the stream before calling it (src/HipBLAS/Sgemm/Common/DoSgemmMain.h:54).
- HipblasGemmTester.RunSection: stated for k >= 1; with k = 0 GEMM leaves beta C, which the check does not expect.
- Level3GemmTester.RunAsWritten: stated for an idle stream and for k >= 1 whenever m or n is positive, as Init requires.
- Level3GemmTester.SectionAsWritten: stated for an idle stream and for k >= 1 whenever m or n is positive, as Init requires.
- Level3GemmTester.RunSynced: stated for an idle stream, for k >= 1 (with k = 0 GEMM leaves beta C, which the check does not expect) and for a non-negative tolerance.
- Level3GemmTester.SectionSynced: stated for an idle stream, for k >= 1 and for a non-negative tolerance, as RunSynced.
- Level1Drivers.CopyTest: the uninitialised device region for y is a parameter, since its contents are unknown.

## Findings

| source | as written | input that shows it | evidently intended | confidence | as-written member | corrected member |
|---|---|---|---|---|---|---|
| tests/include/HipBLAS/Level3/GemmTester.h:134-137 | DoOperation waits on the stream before queueing the copy of C to the host, and nothing waits after it, so the copy races with Check's reads of host C, which is pinned memory from `hipHostMalloc` (tests/include/Buffer.h:29). The stale read modelled is one interleaving of that race: when Check reads first it sees C as Init left it (r c); other interleavings may read part or all of the result. The class is dead code: no test includes the header, and line 120 names a `blasContext` member the base class does not have, so it does not compile as written | m = n = k = 1, alpha = 1, beta = 0, a library that computes GEMM, Check reading before the copy lands: host C(0, 0) is still 0 against an expected 1 | wait on the stream after queueing the copy of C back | not executed | Level3GemmTester.RunAsWritten | Level3GemmTester.RunSynced |
| src/HipBLAS/Level-1/amax.cpp:45-51 | the host's 0-based index of the largest signed value is compared with the library's 1-based index of the largest magnitude | x = [1.0]: the host index is 0, a correct library returns 1, and the test fails | compare the library's result with the 1-based position of the largest magnitude | not executed | Level1Drivers.AmaxRejectsCorrectLibrary | Level1Drivers.AmaxTestCorrected |
| src/HipBLAS/Level-1/amin.cpp:44-51 | the host's 0-based index of the smallest signed value is compared with the library's 1-based index of the smallest magnitude | x = [1.0]: the host index is 0, a correct library returns 1, and the test fails | compare the library's result with the 1-based position of the smallest magnitude | not executed | Level1Drivers.AminRejectsCorrectLibrary | Level1Drivers.AminTestCorrected |

=== FILE: axpy_tester.dfy ===
/** The AXPY tester (tests/include/HipBLAS/Level1/AxpyTester.h): x[i] = i and y[i] = 2i,
 *  so after y := alpha * x + y every y[i] should be (alpha + 2) * i. */
module AxpyTester {
  import opened Runtime
  import opened Hip
  import opened Views
  import opened HipTester
  import opened Reference
  import opened Contexts
  import Vendor

  /** What the tester expects at logical element i. */
  function Expected(a: real, i: nat): real
  {
    (a + 2.0) * (i as real)
  }

  /** On the seeded inputs x[i] = i and y[i] = 2i, AXPY leaves (alpha + 2) * i at every
   *  logical element of y. */
  lemma AxpyOfRamps(n: nat, a: real, xs: seq<real>, incx: nat, ys: seq<real>, incy: nat)
    requires incy >= 1 && n * incy <= |ys|
    requires Gather(xs, incx, n) == Ramp(n, 1.0) && Gather(ys, incy, n) == Ramp(n, 2.0)
    ensures forall i | 0 <= i < n :: Gather(AxpyRef(n, a, xs, incx, ys, incy), incy, n)[i] == Expected(a, i)
  {
    var gx, gy := Gather(xs, incx, n), Gather(ys, incy, n);
    var v := seq(n, i requires 0 <= i < n => a * gx[i] + gy[i]);
    GatherScatter(ys, incy, n, v);
    forall i | 0 <= i < n
      ensures v[i] == Expected(a, i)
    {
      assert gx[i] == 1.0 * (i as real) && gy[i] == 2.0 * (i as real);
    }
  }

  class AxpyTester {
    const ctx: LibraryContext
    const stream: HipStream
    const n: nat
    const alpha: Scalar
    const x: Vector
    const y: Vector

    ghost predicate Valid()
      reads this, ctx, ctx.lib, stream, alpha.buf, x.buf, y.buf
    {
      && ctx.Valid() && Vendor.Bound(ctx.lib, ctx.handle.id, stream)
      && alpha.Valid() && x.Valid() && y.Valid() && x.n == n && y.n == n
      && Apart(alpha.buf, x.buf) && Apart(alpha.buf, y.buf) && Apart(x.buf, y.buf)
    }

    /** The constructor: alpha holds its value on the host; x and y are zero-filled. */
    constructor (ctx: LibraryContext, stream: HipStream, n: nat, alphaVal: real, incx: nat, incy: nat)
      requires ctx.Valid() && Vendor.Bound(ctx.lib, ctx.handle.id, stream) && incx >= 1 && incy >= 1
      ensures Valid() && this.ctx == ctx && this.stream == stream && this.n == n
      ensures alpha.El() == alphaVal && x.stride == incx && y.stride == incy
      ensures fresh(alpha.buf) && fresh(alpha.buf.hostData) && fresh(alpha.buf.devData)
      ensures fresh(x.buf) && fresh(x.buf.hostData) && fresh(x.buf.devData)
      ensures fresh(y.buf) && fresh(y.buf.hostData) && fresh(y.buf.devData)
    {
      this.ctx := ctx;
      this.stream := stream;
      this.n := n;
      var a := NewScalar(alphaVal);
      var xv := NewVector(n, incx);
      var yv := NewVector(n, incy);
      alpha, x, y := a, xv, yv;
    }

    /** Init: seeds x and y on the host, queues the three copies to the device and waits
     *  for them. */
    method Init()
      requires Valid() && stream.Idle()
      modifies x.buf.hostData, x.buf.devData, y.buf.hostData, y.buf.devData, alpha.buf.devData, stream
      ensures Valid() && stream.Idle() && alpha.El() == old(alpha.El())
      ensures x.Items() == Ramp(n, 1.0) && y.Items() == Ramp(n, 2.0)
      ensures x.Device() == x.Host() && y.Device() == y.Host() && alpha.DeviceEl() == alpha.El()
    {
      FillScaled(x, 1.0);
      ghost var xi := x.Items();
      x.buf.CopyHostToDeviceAsync(stream);
      FillScaled(y, 2.0);
      ghost var yi := y.Items();
      y.buf.CopyHostToDeviceAsync(stream);
      alpha.buf.CopyHostToDeviceAsync(stream);
      assert x.Items() == xi;
      SynchronizeUploads(stream, x.buf, y.buf, alpha.buf);
      assert x.Items() == xi && y.Items() == yi;
    }

    /** DoOperation: AXPY on the device, then y is copied back and the stream drained. A
     *  failing AXPY raises its status before anything is copied back. */
    method DoOperation(status: Status) returns (o: Outcome)
      requires Valid()
      modifies ctx.lib, stream, stream.Targets(), y.buf.devData, y.buf.hostData
      ensures Valid() && stream.Idle()
      ensures status.Success? ==>
        && o == Done && y.Device() == y.Host()
        && y.Host() == AxpyRef(n, At(old(stream.After(alpha.buf.devData)), 0),
                               old(stream.After(x.buf.devData)), x.stride,
                               old(stream.After(y.buf.devData)), y.stride)
      ensures status.Error? ==> o == Threw(status.code)
    {
      var st := Vendor.Axpy(ctx.lib, ctx.handle.id, stream, n, alpha.buf.devData,
                            x.buf.devData, x.stride, y.buf.devData, y.stride, status);
      if st.Error? {
        return Threw(st.code);
      }
      y.buf.CopyDeviceToHostAsync(stream);
      ghost var q := stream.pending;
      stream.Synchronize();
      assert q[0].dst[..] == y.Host();
      o := Done;
    }

    /** Check: every y[i] is within the relative tolerance of (alpha + 2) * i; the first
     *  element that is not ends the check. */
    method Check(tol: real) returns (ok: bool)
      requires Valid()
      ensures ok <==> forall i | 0 <= i < n :: WithinRel(y.El(i), Expected(alpha.El(), i), tol)
    {
      var a := alpha.El();
      var i := 0;
      while i < n
        invariant 0 <= i <= n
        invariant forall k | 0 <= k < i :: WithinRel(y.El(k), Expected(a, k), tol)
      {
        if !WithinRel(y.El(i), Expected(a, i), tol) {
          return false;
        }
        i := i + 1;
      }
      return true;
    }
  }

  /** One section of the AXPY test case: build the tester, Init, DoOperation, Check with
   *  tolerance 0.0001. With a library that computes AXPY, the section passes exactly
   *  when the context is built, the call reports success and the context is destroyed.
   *  The tester's base constructor builds the library context on the stream, and its
   *  destructor destroys it at the end of the section; a failure of either fails the
   *  section. */
  method TestSection(lib: Library, stream: HipStream, createStatus: Status, setStatus: Status,
                     n: nat, alphaVal: real,
                     incx: nat, incy: nat, status: Status, destroyStatus: Status)
    returns (passed: bool)
    requires lib.Valid() && stream.Valid() && stream.Idle()
    requires incx >= 1 && incy >= 1
    modifies lib, stream
    ensures passed <==>
      Builds(stream.handle, createStatus, setStatus) && status.Success? && destroyStatus.Success?
  {
    var made := LibraryContext.Create(lib, stream, createStatus, setStatus);
    if made.Raised? {
      return false;
    }
    var ctx := made.value;
    var tester := new AxpyTester(ctx, stream, n, alphaVal, incx, incy);
    tester.Init();
    ghost var xs, ys := tester.x.Device(), tester.y.Device();
    assert Gather(xs, incx, n) == Ramp(n, 1.0) && Gather(ys, incy, n) == Ramp(n, 2.0);
    assert At(tester.alpha.buf.devData[..], 0) == alphaVal;
    var o := tester.DoOperation(status);
    if o.Threw? {
      passed := false;
    } else {
      AxpyOfRamps(n, alphaVal, xs, incx, ys, incy);
      passed := tester.Check(0.0001);
      forall i | 0 <= i < n
        ensures WithinRel(tester.y.El(i), Expected(alphaVal, i), 0.0001)
      {
        assert tester.y.El(i) == Expected(alphaVal, i);
        WithinRelOfEqual(Expected(alphaVal, i), 0.0001);
      }
    }
    var gone := ctx.Destroy(destroyStatus);
    passed := passed && gone.Done?;
  }
}

=== FILE: common_matrix.dfy ===
/** The stand-alone matrix of the older drivers (src/Common/Matrix.h): unlike the views of
 *  the test suite it owns its host and device regions itself, without a Buffer. Elements
 *  are stored column-major. */
module CommonMatrix {
  import opened Hip
  import Views

  class Matrix {
    const nRows: nat
    const nCols: nat
    var hostData: array?<real>
    var devData: array?<real>
    /** How often each region has been handed back to the runtime. */
    ghost var hostReleases: nat
    ghost var devReleases: nat

    /** A region is released at most once, and exactly when its pointer is null. */
    ghost predicate Owned()
      reads this
    {
      && (hostData == null <==> hostReleases == 1) && hostReleases <= 1
      && (devData == null <==> devReleases == 1) && devReleases <= 1
    }

    ghost predicate Valid()
      reads this
    {
      && Owned() && hostData != null && devData != null && hostData != devData
      && hostData.Length == NumItems() && devData.Length == NumItems()
    }

    function NumItems(): nat
    {
      nRows * nCols
    }

    /** Both regions are allocated with nRows * nCols slots and zero-filled. */
    constructor (nRows: nat, nCols: nat)
      ensures Valid() && this.nRows == nRows && this.nCols == nCols
      ensures fresh(hostData) && fresh(devData)
      ensures Views.IsZeros(Host()) && Views.IsZeros(Device())
    {
      this.nRows := nRows;
      this.nCols := nCols;
      hostData := new real[nRows * nCols](_ => 0.0);
      devData := new real[nRows * nCols](_ => 0.0);
      hostReleases := 0;
      devReleases := 0;
    }

    /** The destructor: each region is freed only while its pointer is non-null, and the
     *  pointer is then nulled, so running it again frees nothing. */
    method Release()
      requires Owned()
      modifies this
      ensures Owned() && hostData == null && devData == null
      ensures hostReleases == old(hostReleases) + (if old(hostData) != null then 1 else 0)
      ensures devReleases == old(devReleases) + (if old(devData) != null then 1 else 0)
    {
      if hostData != null {
        hostReleases := hostReleases + 1;
        hostData := null;
      }
      if devData != null {
        devReleases := devReleases + 1;
        devData := null;
      }
    }

    function Host(): seq<real>
      reads this, hostData
      requires Valid()
    {
      hostData[..]
    }

    function Device(): seq<real>
      reads this, devData
      requires Valid()
    {
      devData[..]
    }

    /** Element (r, c) of the host region, at slot c nRows + r. */
    function El(r: nat, c: nat): (v: real)
      reads this, hostData
      requires Valid() && r < nRows && c < nCols
      ensures v == Views.MatAt(Host(), nRows, r, c)
    {
      Views.MatrixOffsetInBounds(nRows, nCols, r, c);
      hostData[Views.MatrixOffset(nRows, r, c)]
    }

    /** Writing through El: the one host slot of (r, c) changes, every other element and
     *  the whole device region keep their values. */
    method SetEl(r: nat, c: nat, v: real)
      requires Valid() && r < nRows && c < nCols
      modifies hostData
      ensures Valid() && Views.MatrixOffset(nRows, r, c) < NumItems()
      ensures Host() == old(Host())[Views.MatrixOffset(nRows, r, c) := v] && Device() == old(Device())
      ensures El(r, c) == v
      ensures forall r', c' | 0 <= r' < nRows && 0 <= c' < nCols && (r' != r || c' != c) ::
        El(r', c') == old(El(r', c'))
    {
      Views.MatrixOffsetInBounds(nRows, nCols, r, c);
      hostData[Views.MatrixOffset(nRows, r, c)] := v;
      forall r', c' | 0 <= r' < nRows && 0 <= c' < nCols && (r' != r || c' != c)
        ensures El(r', c') == old(El(r', c'))
      {
        Views.MatrixOffsetDistinct(nRows, r', c', r, c);
      }
    }

    method CopyHostToDevice()
      requires Valid()
      modifies devData
      ensures devData[..] == hostData[..]
    {
      forall i | 0 <= i < NumItems() {
        devData[i] := hostData[i];
      }
    }

    method CopyDeviceToHost()
      requires Valid()
      modifies hostData
      ensures hostData[..] == devData[..]
    {
      forall i | 0 <= i < NumItems() {
        hostData[i] := devData[i];
      }
    }

    method CopyHostToDeviceAsync(stream: HipStream)
      requires Valid() && stream.Valid() && stream.Accepts(Transfer(hostData, devData))
      modifies stream
      ensures stream.Valid() && stream.pending == old(stream.pending) + [Transfer(hostData, devData)]
    {
      stream.Enqueue(Transfer(hostData, devData));
    }

    method CopyDeviceToHostAsync(stream: HipStream)
      requires Valid() && stream.Valid() && stream.Accepts(Transfer(devData, hostData))
      modifies stream
      ensures stream.Valid() && stream.pending == old(stream.pending) + [Transfer(devData, hostData)]
    {
      stream.Enqueue(Transfer(devData, hostData));
    }

    /** An upload followed by a download gives the host back what it held, and leaves the
     *  device holding the same. */
    method RoundTrip()
      requires Valid()
      modifies hostData, devData
      ensures hostData[..] == old(hostData[..]) && devData[..] == old(hostData[..])
    {
      CopyHostToDevice();
      CopyDeviceToHost();
    }

    /** The data half of the stream-output operator: the whole device region is copied
     *  into a temporary whose items are then printed; the host region is not touched. */
    method DeviceSnapshot() returns (vals: seq<real>)
      requires Valid()
      ensures |vals| == NumItems() && forall i | 0 <= i < NumItems() :: vals[i] == devData[i]
    {
      vals := devData[..];
    }
  }

  /** The regions of two matrices are all different. */
  ghost predicate Apart(m1: Matrix, m2: Matrix)
    reads m1, m2
  {
    && m1.hostData != m2.hostData && m1.hostData != m2.devData
    && m1.devData != m2.hostData && m1.devData != m2.devData
  }
}

=== FILE: contexts.dfy ===
/** The library contexts (tests/include/HipBLAS/HipblasContext.h and
 *  tests/include/HipSOLVER/HipsolverContext.h, the same code over two libraries): a
 *  library handle that is created on construction, bound to the tester's stream unless
 *  that is the default stream, and destroyed on destruction. */
module Contexts {
  import opened Runtime
  import opened Hip

  /** Whether the context's constructor returns normally: the create succeeds, and so
   *  does binding the stream when it is a custom one. */
  predicate Builds(stream: Handle, createStatus: Status, setStatus: Status)
  {
    createStatus.Success? && (stream.Null? || setStatus.Success?)
  }

  class LibraryContext {
    const lib: Library
    var handle: Handle

    /** The context owns a live handle of its library. */
    ghost predicate Valid()
      reads this, lib
    {
      lib.Valid() && handle.Ref? && handle.id in lib.live
    }

    constructor Wrap(lib: Library, id: nat)
      ensures this.lib == lib && handle == Ref(id)
    {
      this.lib := lib;
      handle := Ref(id);
    }

    /** The constructor. A failing create raises its code and leaves the handle table as
     *  it was. The stream is set only for a custom stream; if that fails the code is
     *  raised too, and since a constructor that throws runs no destructor, the handle
     *  created a moment before stays live. */
    static method Create(lib: Library, stream: HipStream, createStatus: Status, setStatus: Status)
      returns (r: Result<LibraryContext>)
      requires lib.Valid()
      modifies lib
      ensures lib.Valid() && lib.calls == old(lib.calls)
      ensures createStatus.Error? ==>
        r == Raised(createStatus.code) && lib.live == old(lib.live) && lib.streamOf == old(lib.streamOf)
      ensures createStatus.Success? && (stream.handle.Null? || setStatus.Success?) ==>
        && r.Ok? && fresh(r.value) && r.value.lib == lib && r.value.Valid()
        && r.value.handle.id !in old(lib.live)
        && lib.live == old(lib.live) + {r.value.handle.id}
        && lib.streamOf == old(lib.streamOf)[r.value.handle.id := stream.handle]
      ensures createStatus.Success? && stream.handle.Ref? && setStatus.Error? ==>
        && r == Raised(setStatus.code)
        && old(lib.live) < lib.live && |lib.live| == |old(lib.live)| + 1
        && (forall h | h in old(lib.live) :: lib.streamOf[h] == old(lib.streamOf)[h])
        && (forall h | h in lib.live - old(lib.live) :: lib.streamOf[h] == Null)
    {
      var created := lib.Create(createStatus);
      if created.Raised? {
        return Raised(created.code);
      }
      var id := created.value;
      if stream.handle.Ref? {
        var st := lib.SetStream(id, stream.handle, setStatus);
        if st.Error? {
          assert lib.live == old(lib.live) + {id} && id !in old(lib.live);
          return Raised(st.code);
        }
      }
      var ctx := new LibraryContext.Wrap(lib, id);
      r := Ok(ctx);
    }

    /** The constructor of the older drivers' context (src/HipBLAS/Sgemm/Common/HipblasContext.h):
     *  the handle is bound to the stream whatever the stream, the default one included.
     *  Each failure raises its code; after a failed bind the created handle stays live. */
    static method CreateBound(lib: Library, stream: HipStream, createStatus: Status, setStatus: Status)
      returns (r: Result<LibraryContext>)
      requires lib.Valid()
      modifies lib
      ensures lib.Valid() && lib.calls == old(lib.calls)
      ensures createStatus.Error? ==>
        r == Raised(createStatus.code) && lib.live == old(lib.live) && lib.streamOf == old(lib.streamOf)
      ensures createStatus.Success? && setStatus.Success? ==>
        && r.Ok? && fresh(r.value) && r.value.lib == lib && r.value.Valid()
        && r.value.handle.id !in old(lib.live)
        && lib.live == old(lib.live) + {r.value.handle.id}
        && lib.streamOf == old(lib.streamOf)[r.value.handle.id := stream.handle]
      ensures createStatus.Success? && setStatus.Error? ==>
        && r == Raised(setStatus.code)
        && old(lib.live) < lib.live && |lib.live| == |old(lib.live)| + 1
        && (forall h | h in old(lib.live) :: lib.streamOf[h] == old(lib.streamOf)[h])
        && (forall h | h in lib.live - old(lib.live) :: lib.streamOf[h] == Null)
    {
      var created := lib.Create(createStatus);
      if created.Raised? {
        return Raised(created.code);
      }
      var id := created.value;
      var st := lib.SetStream(id, stream.handle, setStatus);
      if st.Error? {
        assert lib.live == old(lib.live) + {id} && id !in old(lib.live);
        return Raised(st.code);
      }
      var ctx := new LibraryContext.Wrap(lib, id);
      r := Ok(ctx);
    }

    /** The destructor: the handle is destroyed and nulled; a failing destroy raises its
     *  code before the handle is nulled. */
    method Destroy(status: Status) returns (o: Outcome)
      requires Valid()
      modifies this, lib
      ensures lib.Valid() && lib.calls == old(lib.calls) && lib.streamOf == old(lib.streamOf)
      ensures status.Success? ==>
        o == Done && handle == Null && lib.live == old(lib.live) - {old(handle).id}
      ensures status.Error? ==>
        o == Threw(status.code) && handle == old(handle) && lib.live == old(lib.live)
    {
      var st := lib.Destroy(handle.id, status);
      if st.Error? {
        return Threw(st.code);
      }
      handle := Null;
      o := Done;
    }
  }

  /** Creating a context and destroying it again leaves the handle table as it was. */
  method CreateThenDestroy(lib: Library, stream: HipStream)
    requires lib.Valid()
    modifies lib
    ensures lib.live == old(lib.live)
  {
    var r := LibraryContext.Create(lib, stream, Success, Success);
    var ctx := r.value;
    var o := ctx.Destroy(Success);
  }
}

=== FILE: copy_tester.dfy ===
/** The COPY tester (tests/include/HipBLAS/Level1/CopyTester.h): x[i] = factor * i, y is
 *  left as constructed, and after the copy every y[i] should match x[i]. */
module CopyTester {
  import opened Runtime
  import opened Hip
  import opened Views
  import opened HipTester
  import opened Reference
  import opened Contexts
  import Vendor

  /** COPY of x into y makes the logical elements of y those of x. */
  lemma CopyRefItems(n: nat, xs: seq<real>, incx: nat, ys: seq<real>, incy: nat)
    requires incy >= 1 && n * incy <= |ys|
    ensures Gather(CopyRef(n, xs, incx, ys, incy), incy, n) == Gather(xs, incx, n)
  {
    GatherScatter(ys, incy, n, Gather(xs, incx, n));
  }

  class CopyTester {
    const ctx: LibraryContext
    const stream: HipStream
    const n: nat
    const x: Vector
    const y: Vector
    const scalingFactor: real

    ghost predicate Valid()
      reads this, ctx, ctx.lib, stream, x.buf, y.buf
    {
      && ctx.Valid() && Vendor.Bound(ctx.lib, ctx.handle.id, stream)
      && x.Valid() && y.Valid() && x.n == n && y.n == n && Apart(x.buf, y.buf)
    }

    constructor (ctx: LibraryContext, stream: HipStream, n: nat, incx: nat, incy: nat, factor: real)
      requires ctx.Valid() && Vendor.Bound(ctx.lib, ctx.handle.id, stream) && incx >= 1 && incy >= 1
      ensures Valid() && this.ctx == ctx && this.stream == stream && this.n == n
      ensures x.stride == incx && y.stride == incy && scalingFactor == factor
      ensures IsZeros(y.Host()) && IsZeros(y.Device())
      ensures fresh(x.buf) && fresh(x.buf.hostData) && fresh(x.buf.devData)
      ensures fresh(y.buf) && fresh(y.buf.hostData) && fresh(y.buf.devData)
    {
      this.ctx := ctx;
      this.stream := stream;
      this.n := n;
      var xv := NewVector(n, incx);
      var yv := NewVector(n, incy);
      x, y := xv, yv;
      scalingFactor := factor;
    }

    /** Init: x[i] = factor * i on the host, queued to the device, stream drained; y is
     *  not written. */
    method Init()
      requires Valid() && stream.Idle()
      modifies x.buf.hostData, x.buf.devData, stream
      ensures Valid() && stream.Idle()
      ensures x.Items() == Ramp(n, scalingFactor) && x.Device() == x.Host()
      ensures y.Host() == old(y.Host()) && y.Device() == old(y.Device())
    {
      FillScaled(x, scalingFactor);
      x.buf.CopyHostToDeviceAsync(stream);
      SynchronizeUpload(stream, x.buf);
    }

    /** DoOperation: COPY on the device, then y is copied back and the stream drained. */
    method DoOperation(status: Status) returns (o: Outcome)
      requires Valid()
      modifies ctx.lib, stream, stream.Targets(), y.buf.devData, y.buf.hostData
      ensures Valid() && stream.Idle()
      ensures status.Success? ==>
        && o == Done && y.Device() == y.Host()
        && y.Host() == CopyRef(n, old(stream.After(x.buf.devData)), x.stride,
                               old(stream.After(y.buf.devData)), y.stride)
      ensures status.Error? ==> o == Threw(status.code)
    {
      var st := Vendor.Copy(ctx.lib, ctx.handle.id, stream, n, x.buf.devData, x.stride,
                            y.buf.devData, y.stride, status);
      if st.Error? {
        return Threw(st.code);
      }
      y.buf.CopyDeviceToHostAsync(stream);
      ghost var q := stream.pending;
      stream.Synchronize();
      assert q[0].dst[..] == y.Host();
      o := Done;
    }

    /** Check: every y[i] is within the relative tolerance of x[i]; the first element that
     *  is not ends the check. */
    method Check(tol: real) returns (ok: bool)
      requires Valid()
      ensures ok <==> forall i | 0 <= i < n :: WithinRel(y.El(i), x.El(i), tol)
    {
      var i := 0;
      while i < n
        invariant 0 <= i <= n
        invariant forall k | 0 <= k < i :: WithinRel(y.El(k), x.El(k), tol)
      {
        if !WithinRel(y.El(i), x.El(i), tol) {
          return false;
        }
        i := i + 1;
      }
      return true;
    }
  }

  /** One section of the COPY test case (TestSection and TestSectionAux draw the same
   *  parameters). With a library that computes COPY, the section passes exactly when the
   *  context is built, the call reports success and the context is destroyed.
   *  The tester's base constructor builds the library context on the stream, and its
   *  destructor destroys it at the end of the section; a failure of either fails the
   *  section. */
  method TestSection(lib: Library, stream: HipStream, createStatus: Status, setStatus: Status,
                     n: nat, incx: nat, incy: nat,
                     factor: real, tol: real, status: Status, destroyStatus: Status)
    returns (passed: bool)
    requires lib.Valid() && stream.Valid() && stream.Idle()
    requires incx >= 1 && incy >= 1 && tol >= 0.0
    modifies lib, stream
    ensures passed <==>
      Builds(stream.handle, createStatus, setStatus) && status.Success? && destroyStatus.Success?
  {
    var made := LibraryContext.Create(lib, stream, createStatus, setStatus);
    if made.Raised? {
      return false;
    }
    var ctx := made.value;
    var tester := new CopyTester(ctx, stream, n, incx, incy, factor);
    tester.Init();
    ghost var xs, ys := tester.x.Device(), tester.y.Device();
    var o := tester.DoOperation(status);
    if o.Threw? {
      passed := false;
    } else {
      CopyRefItems(n, xs, incx, ys, incy);
      assert tester.y.Items() == tester.x.Items();
      passed := tester.Check(tol);
      forall i | 0 <= i < n
        ensures WithinRel(tester.y.El(i), tester.x.El(i), tol)
      {
        WithinRelOfEqual(tester.x.El(i), tol);
      }
    }
    var gone := ctx.Destroy(destroyStatus);
    passed := passed && gone.Done?;
  }
}

=== FILE: dot_tester.dfy ===
/** The DOT tester (tests/include/HipBLAS/Level1/DotTester.h): x[i] = i and y[i] = 2i, so
 *  the dot product is the sum of 2i^2 over i < n, which is (n - 1) n (2n - 1) / 3. */
module DotTester {
  import opened Runtime
  import opened Hip
  import opened Views
  import opened HipTester
  import opened Reference
  import opened Contexts
  import Vendor

  /** The value Check expects: one third of (n - 1) n (2n - 1). */
  function Expected(n: nat): real
  {
    (1.0 / 3.0) * ((n as real) - 1.0) * (n as real) * (2.0 * (n as real) - 1.0)
  }

  lemma RampPrefix(n: nat, scale: real)
    requires n >= 1
    ensures Ramp(n, scale)[..n - 1] == Ramp(n - 1, scale)
  {
  }

  /** The sum over i < n of i * 2i is the closed form. */
  lemma {:induction false} DotOfRamps(n: nat)
    ensures Dot(Ramp(n, 1.0), Ramp(n, 2.0)) == Expected(n)
  {
    if n > 0 {
      RampPrefix(n, 1.0);
      RampPrefix(n, 2.0);
      DotOfRamps(n - 1);
      var m := n as real;
      assert Ramp(n, 1.0)[n - 1] * Ramp(n, 2.0)[n - 1] == 2.0 * (m - 1.0) * (m - 1.0);
      calc {
        Expected(n - 1) + 2.0 * (m - 1.0) * (m - 1.0);
        (1.0 / 3.0) * (m - 2.0) * (m - 1.0) * (2.0 * m - 3.0) + 2.0 * (m - 1.0) * (m - 1.0);
        (1.0 / 3.0) * (m - 1.0) * ((m - 2.0) * (2.0 * m - 3.0) + 6.0 * (m - 1.0));
        (1.0 / 3.0) * (m - 1.0) * (m * (2.0 * m - 1.0));
        Expected(n);
      }
    }
  }

  class DotTester {
    const ctx: LibraryContext
    const stream: HipStream
    const n: nat
    const x: Vector
    const y: Vector
    const result: Scalar

    ghost predicate Valid()
      reads this, ctx, ctx.lib, stream, x.buf, y.buf, result.buf
    {
      && ctx.Valid() && Vendor.Bound(ctx.lib, ctx.handle.id, stream)
      && x.Valid() && y.Valid() && result.Valid() && x.n == n && y.n == n
      && Apart(x.buf, y.buf) && Apart(x.buf, result.buf) && Apart(y.buf, result.buf)
    }

    /** The constructor: x and y hold n elements at strides incx and incy; result is a
     *  default-constructed scalar. */
    constructor (ctx: LibraryContext, stream: HipStream, n: nat, incx: nat, incy: nat)
      requires ctx.Valid() && Vendor.Bound(ctx.lib, ctx.handle.id, stream) && incx >= 1 && incy >= 1
      ensures Valid() && this.ctx == ctx && this.stream == stream && this.n == n
      ensures x.stride == incx && y.stride == incy
      ensures fresh(x.buf) && fresh(x.buf.hostData) && fresh(x.buf.devData)
      ensures fresh(y.buf) && fresh(y.buf.hostData) && fresh(y.buf.devData)
      ensures fresh(result.buf) && fresh(result.buf.hostData) && fresh(result.buf.devData)
    {
      this.ctx := ctx;
      this.stream := stream;
      this.n := n;
      var xv := NewVector(n, incx);
      var yv := NewVector(n, incy);
      var r := NewScalar();
      x, y, result := xv, yv, r;
    }

    /** Init: x[i] = i and y[i] = 2i, result = 0 on the host, all three queued to the
     *  device, then the stream is drained. */
    method Init()
      requires Valid() && stream.Idle()
      modifies x.buf.hostData, x.buf.devData, y.buf.hostData, y.buf.devData
      modifies result.buf.hostData, result.buf.devData, stream
      ensures Valid() && stream.Idle()
      ensures x.Items() == Ramp(n, 1.0) && y.Items() == Ramp(n, 2.0) && result.El() == 0.0
      ensures x.Device() == x.Host() && y.Device() == y.Host() && result.DeviceEl() == result.El()
    {
      QueueOperands();
      ghost var xi, yi := x.Items(), y.Items();
      SynchronizeUploads(stream, x.buf, y.buf, result.buf);
      assert x.Items() == xi && y.Items() == yi;
    }

    /** The host half of Init: x, y and result are written on the host and their uploads
     *  queued in that order. */
    method QueueOperands()
      requires Valid() && stream.Idle()
      modifies x.buf.hostData, y.buf.hostData, result.buf.hostData, stream
      ensures Valid()
      ensures x.Items() == Ramp(n, 1.0) && y.Items() == Ramp(n, 2.0) && result.El() == 0.0
      ensures stream.pending == [Transfer(x.buf.hostData, x.buf.devData), Transfer(y.buf.hostData, y.buf.devData),
                                 Transfer(result.buf.hostData, result.buf.devData)]
    {
      FillScaled(x, 1.0);
      ghost var xi := x.Items();
      x.buf.CopyHostToDeviceAsync(stream);
      FillScaled(y, 2.0);
      assert x.Items() == xi;
      ghost var yi := y.Items();
      y.buf.CopyHostToDeviceAsync(stream);
      result.buf.hostData[0] := 0.0;
      assert x.Items() == xi && y.Items() == yi;
      result.buf.CopyHostToDeviceAsync(stream);
    }

    /** DoOperation: DOT on the device into result, then result is copied back and the
     *  stream drained. A failing DOT raises its status. */
    method DoOperation(status: Status) returns (o: Outcome)
      requires Valid()
      modifies ctx.lib, stream, stream.Targets(), result.buf.devData, result.buf.hostData
      ensures Valid() && stream.Idle()
      ensures status.Success? ==>
        && o == Done && result.DeviceEl() == result.El()
        && result.El() == DotRef(n, old(stream.After(x.buf.devData)), x.stride,
                                 old(stream.After(y.buf.devData)), y.stride)
      ensures status.Error? ==> o == Threw(status.code)
    {
      var st := Vendor.Dot(ctx.lib, ctx.handle.id, stream, n, x.buf.devData, x.stride,
                           y.buf.devData, y.stride, result.buf.devData, status);
      if st.Error? {
        return Threw(st.code);
      }
      result.buf.CopyDeviceToHostAsync(stream);
      ghost var q := stream.pending;
      stream.Synchronize();
      assert q[0].dst[..] == result.buf.hostData[..];
      o := Done;
    }

    /** Check: the result is within the relative tolerance of the closed form. */
    method Check(tol: real) returns (ok: bool)
      requires Valid()
      ensures ok <==> WithinRel(result.El(), Expected(n), tol)
    {
      ok := WithinRel(result.El(), Expected(n), tol);
    }
  }

  /** One section of the DOT test case. With a library that computes DOT, the section
   *  passes exactly when the context is built, the call reports success and the context
   *  is destroyed.
   *  The tester's base constructor builds the library context on the stream, and its
   *  destructor destroys it at the end of the section; a failure of either fails the
   *  section. */
  method TestSection(lib: Library, stream: HipStream, createStatus: Status, setStatus: Status,
                     n: nat, incx: nat, incy: nat,
                     tol: real, status: Status, destroyStatus: Status)
    returns (passed: bool)
    requires lib.Valid() && stream.Valid() && stream.Idle()
    requires incx >= 1 && incy >= 1 && tol >= 0.0
    modifies lib, stream
    ensures passed <==>
      Builds(stream.handle, createStatus, setStatus) && status.Success? && destroyStatus.Success?
  {
    var made := LibraryContext.Create(lib, stream, createStatus, setStatus);
    if made.Raised? {
      return false;
    }
    var ctx := made.value;
    var tester := new DotTester(ctx, stream, n, incx, incy);
    tester.Init();
    ghost var xs, ys := tester.x.Device(), tester.y.Device();
    assert Gather(xs, incx, n) == Ramp(n, 1.0) && Gather(ys, incy, n) == Ramp(n, 2.0);
    var o := tester.DoOperation(status);
    if o.Threw? {
      passed := false;
    } else {
      DotOfRamps(n);
      assert tester.result.El() == Expected(n);
      passed := tester.Check(tol);
      WithinRelOfEqual(Expected(n), tol);
    }
    var gone := ctx.Destroy(destroyStatus);
    passed := passed && gone.Done?;
  }
}

=== FILE: extrema.dfy ===
/** Index of an extreme element, as the harness and the library compute it: the first
 *  position holding the largest (or smallest) value. IXamaxTester and IXaminTester scan
 *  magnitudes; std::max_element and std::min_element in the older drivers scan signed
 *  values; the library's I_AMAX / I_AMIN is defined on magnitudes. */
module Extrema {
  import opened HipTester

  function Magnitudes(s: seq<real>): (m: seq<real>)
    ensures |m| == |s|
    ensures forall i | 0 <= i < |s| :: m[i] == Abs(s[i])
  {
    seq(|s|, i requires 0 <= i < |s| => Abs(s[i]))
  }

  /** The first index of a largest element: a later element replaces the current
   *  candidate only when it is strictly larger. */
  function FirstMax(s: seq<real>): (k: nat)
    requires |s| >= 1
    ensures k < |s|
    ensures forall j | 0 <= j < |s| :: s[j] <= s[k]
    ensures forall j | 0 <= j < k :: s[j] < s[k]
    decreases |s|
  {
    if |s| == 1 then 0
    else
      var k := FirstMax(s[..|s| - 1]);
      assert forall j | 0 <= j < |s| - 1 :: s[..|s| - 1][j] == s[j];
      if s[|s| - 1] > s[k] then |s| - 1 else k
  }

  /** The first index of a smallest element. */
  function FirstMin(s: seq<real>): (k: nat)
    requires |s| >= 1
    ensures k < |s|
    ensures forall j | 0 <= j < |s| :: s[k] <= s[j]
    ensures forall j | 0 <= j < k :: s[k] < s[j]
    decreases |s|
  {
    if |s| == 1 then 0
    else
      var k := FirstMin(s[..|s| - 1]);
      assert forall j | 0 <= j < |s| - 1 :: s[..|s| - 1][j] == s[j];
      if s[|s| - 1] < s[k] then |s| - 1 else k
  }

  /** The two properties of FirstMax single out one index. */
  lemma FirstMaxUnique(s: seq<real>, k: nat)
    requires k < |s|
    requires forall j | 0 <= j < |s| :: s[j] <= s[k]
    requires forall j | 0 <= j < k :: s[j] < s[k]
    ensures k == FirstMax(s)
  {
    var f := FirstMax(s);
    assert s[f] <= s[k] && s[k] <= s[f];
  }

  lemma FirstMinUnique(s: seq<real>, k: nat)
    requires k < |s|
    requires forall j | 0 <= j < |s| :: s[k] <= s[j]
    requires forall j | 0 <= j < k :: s[k] < s[j]
    ensures k == FirstMin(s)
  {
    var f := FirstMin(s);
    assert s[f] <= s[k] && s[k] <= s[f];
  }

  /** On non-negative data, magnitudes and signed values have the same extreme positions. */
  lemma ExtremaOfNonNegative(s: seq<real>)
    requires |s| >= 1 && forall i | 0 <= i < |s| :: s[i] >= 0.0
    ensures FirstMax(Magnitudes(s)) == FirstMax(s)
    ensures FirstMin(Magnitudes(s)) == FirstMin(s)
  {
    assert Magnitudes(s) == s;
  }
}

=== FILE: gemm_seeds.dfy ===
/** The operands every GEMM tester seeds and the comparison they all make
 *  (tests/include/HipBLAS/Level3/GemmTester.h, tests/include/HipBLAS/GemmTester.h,
 *  src/HipBLAS/Common/SgemmTester.h, src/HipBLAS/Common/GemmExTester.h): column 0 of A
 *  is all ones, logical row 0 of op(B) is all ones, C(r, c) = r c, so alpha op(A) op(B)
 *  + beta C is alpha + beta r c at every (r, c) of the m x n result. */
module GemmSeeds {
  import opened Hip
  import opened Views
  import opened HipTester
  import opened Reference

  /** The value the testers expect at (r, c). */
  function Expected(alpha: real, beta: real, r: nat, c: nat): real
  {
    alpha + beta * (r as real) * (c as real)
  }

  /** The value the seeding writes into C at (r, c), r c formed in integers. */
  function SeedC(r: nat, c: nat): real
  {
    (r * c) as real
  }

  /** Whether (r, c) of B's storage lies in logical row 0 of op(B). */
  predicate InRowZeroOfOp(transB: bool, r: nat, c: nat)
  {
    if transB then c == 0 else r == 0
  }

  /** A (m x k) holds the seed: ones in column 0, zeros elsewhere. */
  ghost predicate IsSeedA(s: seq<real>, m: nat, k: nat)
  {
    forall r, c | 0 <= r < m && 0 <= c < k :: MatAt(s, m, r, c) == (if c == 0 then 1.0 else 0.0)
  }

  /** B (rows x cols, stored transposed when transB) holds the seed: ones in logical row 0
   *  of op(B), zeros elsewhere. */
  ghost predicate IsSeedB(s: seq<real>, transB: bool, rows: nat, cols: nat)
  {
    forall r, c | 0 <= r < rows && 0 <= c < cols ::
      MatAt(s, rows, r, c) == (if InRowZeroOfOp(transB, r, c) then 1.0 else 0.0)
  }

  /** C (m x n) holds the seed r c. */
  ghost predicate IsSeedC(s: seq<real>, m: nat, n: nat)
  {
    forall r, c | 0 <= r < m && 0 <= c < n :: MatAt(s, m, r, c) == SeedC(r, c)
  }

  /** Writes one to every element of column 0 of A; everything else keeps its value. */
  method FillSeedA(a: Matrix)
    requires a.Valid() && (a.nRows == 0 || a.nCols >= 1)
    modifies a.buf.hostData
    ensures a.Valid()
    ensures forall r, c | 0 <= r < a.nRows && 0 <= c < a.nCols ::
      MatAt(a.Host(), a.nRows, r, c) == if c == 0 then 1.0 else MatAt(old(a.Host()), a.nRows, r, c)
  {
    var r := 0;
    while r < a.nRows
      invariant 0 <= r <= a.nRows && a.Valid()
      invariant forall r', c | 0 <= r' < a.nRows && 0 <= c < a.nCols ::
        MatAt(a.Host(), a.nRows, r', c) == if c == 0 && r' < r then 1.0 else MatAt(old(a.Host()), a.nRows, r', c)
    {
      ghost var before := a.Host();
      a.Set(r, 0, 1.0);
      forall r', c | 0 <= r' < a.nRows && 0 <= c < a.nCols && (r' != r || c != 0)
        ensures MatAt(a.Host(), a.nRows, r', c) == MatAt(before, a.nRows, r', c)
      {
        MatAtUpdateOther(before, a.nRows, r, 0, 1.0, r', c);
      }
      r := r + 1;
    }
  }

  /** Writes one to every element of logical row 0 of op(B): B(c, 0) when B is stored
   *  transposed, B(0, c) otherwise; everything else keeps its value. */
  method FillSeedB(b: Matrix, transB: bool)
    requires b.Valid()
    requires (if transB then b.nRows == 0 || b.nCols >= 1 else b.nCols == 0 || b.nRows >= 1)
    modifies b.buf.hostData
    ensures b.Valid()
    ensures forall r, c | 0 <= r < b.nRows && 0 <= c < b.nCols ::
      MatAt(b.Host(), b.nRows, r, c)
      == if InRowZeroOfOp(transB, r, c) then 1.0 else MatAt(old(b.Host()), b.nRows, r, c)
  {
    var len := if transB then b.nRows else b.nCols;
    var c := 0;
    while c < len
      invariant 0 <= c <= len && b.Valid()
      invariant forall r', c' | 0 <= r' < b.nRows && 0 <= c' < b.nCols ::
        MatAt(b.Host(), b.nRows, r', c')
        == if InRowZeroOfOp(transB, r', c') && (if transB then r' else c') < c then 1.0
           else MatAt(old(b.Host()), b.nRows, r', c')
    {
      ghost var before := b.Host();
      var r0, c0 := if transB then c else 0, if transB then 0 else c;
      b.Set(r0, c0, 1.0);
      forall r', c' | 0 <= r' < b.nRows && 0 <= c' < b.nCols && (r' != r0 || c' != c0)
        ensures MatAt(b.Host(), b.nRows, r', c') == MatAt(before, b.nRows, r', c')
      {
        MatAtUpdateOther(before, b.nRows, r0, c0, 1.0, r', c');
      }
      c := c + 1;
    }
  }

  /** Writes r c to every element (r, c) of C, column by column. */
  method FillSeedC(cm: Matrix)
    requires cm.Valid()
    modifies cm.buf.hostData
    ensures cm.Valid() && IsSeedC(cm.Host(), cm.nRows, cm.nCols)
  {
    var c := 0;
    while c < cm.nCols
      invariant 0 <= c <= cm.nCols && cm.Valid()
      invariant forall r', c' | 0 <= r' < cm.nRows && 0 <= c' < c :: MatAt(cm.Host(), cm.nRows, r', c') == SeedC(r', c')
    {
      var r := 0;
      while r < cm.nRows
        invariant 0 <= r <= cm.nRows && cm.Valid()
        invariant forall r', c' | 0 <= r' < cm.nRows && 0 <= c' < c :: MatAt(cm.Host(), cm.nRows, r', c') == SeedC(r', c')
        invariant forall r' | 0 <= r' < r :: MatAt(cm.Host(), cm.nRows, r', c) == SeedC(r', c)
      {
        ghost var before := cm.Host();
        cm.Set(r, c, SeedC(r, c));
        forall r', c' | 0 <= r' < cm.nRows && 0 <= c' < cm.nCols && (r' != r || c' != c)
          ensures MatAt(cm.Host(), cm.nRows, r', c') == MatAt(before, cm.nRows, r', c')
        {
          MatAtUpdateOther(before, cm.nRows, r, c, SeedC(r, c), r', c');
        }
        r := r + 1;
      }
      c := c + 1;
    }
  }

  /** Row i of op(A) times column j of op(B), over the first len terms, is one: only the
   *  l = 0 term is non-zero, and it is 1 * 1. */
  lemma {:induction false} GemmSumOfSeeds(a: seq<real>, m: nat, transB: bool, b: seq<real>, ldb: nat,
                                          i: nat, j: nat, len: nat)
    requires len >= 1
    requires OpAt(a, m, false, i, 0) == 1.0 && OpAt(b, ldb, transB, 0, j) == 1.0
    requires forall l | 1 <= l < len :: OpAt(a, m, false, i, l) == 0.0
    ensures GemmSum(false, a, m, transB, b, ldb, i, j, len) == 1.0
    decreases len
  {
    if len > 1 {
      GemmSumOfSeeds(a, m, transB, b, ldb, i, j, len - 1);
      assert OpAt(a, m, false, i, len - 1) == 0.0;
    }
  }

  /** The value a correct GEMM leaves at (r, c) of the seeded C is the expected one. */
  lemma SeedValue(alpha: real, beta: real, r: nat, c: nat)
    ensures alpha * 1.0 + beta * SeedC(r, c) == Expected(alpha, beta, r, c)
  {
    assert SeedC(r, c) == (r as real) * (c as real);
  }

  /** One element of the seeded GEMM: with row i of op(A) and column j of op(B) as
   *  seeded, and C(i, j) = i j, GEMM leaves alpha + beta i j at (i, j). */
  lemma GemmSeedAt(transB: bool, m: nat, n: nat, k: nat, alpha: real, a: seq<real>,
                   b: seq<real>, ldb: nat, beta: real, c: seq<real>, i: nat, j: nat)
    requires k >= 1 && i < m && j < n && |c| == m * n && MatAt(c, m, i, j) == SeedC(i, j)
    requires OpAt(a, m, false, i, 0) == 1.0 && OpAt(b, ldb, transB, 0, j) == 1.0
    requires forall l | 1 <= l < k :: OpAt(a, m, false, i, l) == 0.0
    ensures MatAt(GemmRef(false, transB, m, n, k, alpha, a, m, b, ldb, beta, c, m), m, i, j)
            == Expected(alpha, beta, i, j)
  {
    GemmSumOfSeeds(a, m, transB, b, ldb, i, j, k);
    MatrixOffsetInBounds(m, n, i, j);
    GemmRefAt(false, transB, m, n, k, alpha, a, m, b, ldb, beta, c, m, i, j);
    GemmSlotOf(false, transB, m, n, k, alpha, a, m, b, ldb, beta, MatAt(c, m, i, j), m, i, j, 1.0);
    SeedValue(alpha, beta, i, j);
  }

  /** On the seeded operands, with k >= 1, GEMM leaves alpha + beta r c at every (r, c)
   *  of C. */
  lemma GemmOfSeeds(transB: bool, m: nat, n: nat, k: nat, alpha: real, a: seq<real>,
                    b: seq<real>, beta: real, c: seq<real>)
    requires k >= 1
    requires IsSeedA(a, m, k)
    requires var rows, cols := if transB then n else k, if transB then k else n;
      IsSeedB(b, transB, rows, cols)
    requires |c| == m * n && IsSeedC(c, m, n)
    ensures forall i, j | 0 <= i < m && 0 <= j < n ::
      MatAt(GemmRef(false, transB, m, n, k, alpha, a, m, b, if transB then n else k, beta, c, m), m, i, j)
      == Expected(alpha, beta, i, j)
  {
    var ldb := if transB then n else k;
    forall i, j | 0 <= i < m && 0 <= j < n
      ensures MatAt(GemmRef(false, transB, m, n, k, alpha, a, m, b, ldb, beta, c, m), m, i, j)
              == Expected(alpha, beta, i, j)
    {
      assert OpAt(a, m, false, i, 0) == 1.0;
      assert OpAt(b, ldb, transB, 0, j) == 1.0 by {
        if transB {
          assert InRowZeroOfOp(transB, j, 0);
        } else {
          assert InRowZeroOfOp(transB, 0, j);
        }
      }
      assert forall l | 1 <= l < k :: OpAt(a, m, false, i, l) == 0.0;
      GemmSeedAt(transB, m, n, k, alpha, a, b, ldb, beta, c, i, j);
    }
  }

  /** Element (r, c) of the result stored in `s` is a mismatch: its relative error against
   *  the expected value exceeds `tol`. */
  predicate Mismatch(s: seq<real>, ld: nat, alpha: real, beta: real, tol: real, r: nat, c: nat)
  {
    RelativeError(Expected(alpha, beta, r, c), MatAt(s, ld, r, c)) > tol
  }

  /** With tolerance zero, a mismatch is a value different from the expected one. */
  lemma MismatchExact(s: seq<real>, ld: nat, alpha: real, beta: real, r: nat, c: nat)
    ensures Mismatch(s, ld, alpha, beta, 0.0, r, c) <==> MatAt(s, ld, r, c) != Expected(alpha, beta, r, c)
  {
    RelativeErrorZeroIff(Expected(alpha, beta, r, c), MatAt(s, ld, r, c));
  }

  /** The number of mismatches among rows 0 .. rows - 1 of column c. */
  function ColumnMismatches(s: seq<real>, ld: nat, alpha: real, beta: real, tol: real, c: nat, rows: nat): nat
    decreases rows
  {
    if rows == 0 then 0
    else ColumnMismatches(s, ld, alpha, beta, tol, c, rows - 1)
         + (if Mismatch(s, ld, alpha, beta, tol, rows - 1, c) then 1 else 0)
  }

  /** The number of mismatches in columns 0 .. cols - 1 of an nRows-row result. */
  function Mismatches(s: seq<real>, nRows: nat, alpha: real, beta: real, tol: real, cols: nat): nat
    decreases cols
  {
    if cols == 0 then 0
    else Mismatches(s, nRows, alpha, beta, tol, cols - 1) + ColumnMismatches(s, nRows, alpha, beta, tol, cols - 1, nRows)
  }

  lemma {:induction false} ColumnMismatchesZeroIff(s: seq<real>, ld: nat, alpha: real, beta: real, tol: real,
                                                   c: nat, rows: nat)
    ensures ColumnMismatches(s, ld, alpha, beta, tol, c, rows) == 0
            <==> forall r | 0 <= r < rows :: !Mismatch(s, ld, alpha, beta, tol, r, c)
    decreases rows
  {
    if rows > 0 {
      ColumnMismatchesZeroIff(s, ld, alpha, beta, tol, c, rows - 1);
    }
  }

  /** No mismatch is counted exactly when every element is within the tolerance. */
  lemma {:induction false} MismatchesZeroIff(s: seq<real>, nRows: nat, alpha: real, beta: real, tol: real, cols: nat)
    ensures Mismatches(s, nRows, alpha, beta, tol, cols) == 0
            <==> forall r, c | 0 <= r < nRows && 0 <= c < cols :: !Mismatch(s, nRows, alpha, beta, tol, r, c)
    decreases cols
  {
    if cols > 0 {
      MismatchesZeroIff(s, nRows, alpha, beta, tol, cols - 1);
      ColumnMismatchesZeroIff(s, nRows, alpha, beta, tol, cols - 1, nRows);
    }
  }

  lemma {:induction false} ColumnMismatchesBound(s: seq<real>, ld: nat, alpha: real, beta: real, tol: real,
                                                 c: nat, rows: nat)
    ensures ColumnMismatches(s, ld, alpha, beta, tol, c, rows) <= rows
    decreases rows
  {
    if rows > 0 {
      ColumnMismatchesBound(s, ld, alpha, beta, tol, c, rows - 1);
    }
  }

  /** At most every element is a mismatch. */
  lemma {:induction false} MismatchesBound(s: seq<real>, nRows: nat, alpha: real, beta: real, tol: real, cols: nat)
    ensures Mismatches(s, nRows, alpha, beta, tol, cols) <= nRows * cols
    decreases cols
  {
    if cols > 0 {
      MismatchesBound(s, nRows, alpha, beta, tol, cols - 1);
      ColumnMismatchesBound(s, nRows, alpha, beta, tol, cols - 1, nRows);
      assert nRows * (cols - 1) + nRows == nRows * cols;
    }
  }

  /** The counting loop of both older GEMM testers' checks (tests/include/HipBLAS/GemmTester.h
   *  and src/HipBLAS/Common/SgemmTester.h), over the host values `s` of an nRows x nCols
   *  result: the elements that differ from alpha + beta r c, column by column. */
  method CountExact(s: seq<real>, nRows: nat, nCols: nat, alpha: real, beta: real) returns (nMismatches: nat)
    ensures nMismatches == Mismatches(s, nRows, alpha, beta, 0.0, nCols)
  {
    nMismatches := 0;
    var c := 0;
    while c < nCols
      invariant 0 <= c <= nCols
      invariant nMismatches == Mismatches(s, nRows, alpha, beta, 0.0, c)
    {
      var r := 0;
      while r < nRows
        invariant 0 <= r <= nRows
        invariant nMismatches == Mismatches(s, nRows, alpha, beta, 0.0, c)
                                 + ColumnMismatches(s, nRows, alpha, beta, 0.0, c, r)
      {
        var expVal := Expected(alpha, beta, r, c);
        var compVal := MatAt(s, nRows, r, c);
        MismatchExact(s, nRows, alpha, beta, r, c);
        if compVal != expVal {
          nMismatches := nMismatches + 1;
        }
        r := r + 1;
      }
      c := c + 1;
    }
  }
}

=== FILE: gemv_tester.dfy ===
/** The GEMV tester (tests/include/HipBLAS/Level2/GemvTester.h): A is m x n and all ones,
 *  x[i] = i and y[i] = 2i. Transposing A swaps the lengths of x and y but not the shape
 *  of A. With L the length of x, every y[i] should become alpha L (L - 1) / 2 + 2 beta i. */
module GemvTester {
  import opened Runtime
  import opened Hip
  import opened Views
  import opened HipTester
  import opened Reference
  import opened Contexts
  import Vendor

  /** The value Check expects at element i of y, for an x of length xlen:
   *  alpha xlen (xlen - 1) / 2 + 2 beta i (TriangleClosedForm). */
  function Expected(alpha: real, beta: real, xlen: nat, i: nat): real
  {
    alpha * Triangle(xlen) + beta * (2.0 * (i as real))
  }

  ghost predicate IsOnes(s: seq<real>)
  {
    forall k | 0 <= k < |s| :: s[k] == 1.0
  }

  /** Every element of op(A) is one when A is an all-ones m x n matrix. */
  lemma OpAtOfOnes(a: seq<real>, m: nat, n: nat, trans: bool, r: nat, c: nat)
    requires IsOnes(a) && |a| == m * n
    requires if trans then r < n && c < m else r < m && c < n
    ensures OpAt(a, m, trans, r, c) == 1.0
  {
    if trans {
      MatrixOffsetInBounds(m, n, c, r);
    } else {
      MatrixOffsetInBounds(m, n, r, c);
    }
  }

  /** 0 + 1 + ... + (len - 1). */
  function Triangle(len: nat): real
  {
    if len == 0 then 0.0 else Triangle(len - 1) + ((len - 1) as real)
  }

  /** The closed form Check writes: len (len - 1) / 2, the product taken in integers. */
  lemma {:induction false} TriangleClosedForm(len: nat)
    ensures Triangle(len) == ((len * (len - 1)) as real) / 2.0
  {
    if len > 0 {
      TriangleClosedForm(len - 1);
      var l := len as real;
      assert ((len * (len - 1)) as real) == l * (l - 1.0);
      assert (((len - 1) * (len - 2)) as real) == (l - 1.0) * (l - 2.0);
    }
  }

  /** The value Check forms for element i, with xlen (xlen - 1) taken in integers. */
  function CheckValue(alpha: real, beta: real, xlen: nat, i: nat): real
  {
    alpha * ((xlen * (xlen - 1)) as real) / 2.0 + 2.0 * beta * (i as real)
  }

  /** The value Check forms is the expected one. */
  lemma ExpectedAsWritten(alpha: real, beta: real, xlen: nat, i: nat)
    ensures CheckValue(alpha, beta, xlen, i) == Expected(alpha, beta, xlen, i)
  {
    TriangleClosedForm(xlen);
  }

  /** Row i of op(A) times 0, 1, ..., len - 1 is 0 + 1 + ... + (len - 1). */
  lemma {:induction false} GemvSumOfOnes(trans: bool, a: seq<real>, m: nat, n: nat, xs: seq<real>,
                                         i: nat, len: nat)
    requires IsOnes(a) && |a| == m * n
    requires len <= |xs| && (if trans then len <= m && i < n else len <= n && i < m)
    requires forall k | 0 <= k < len :: xs[k] == k as real
    ensures GemvSum(trans, a, m, xs, i, len) == Triangle(len)
    decreases len
  {
    if len > 0 {
      GemvSumOfOnes(trans, a, m, n, xs, i, len - 1);
      OpAtOfOnes(a, m, n, trans, i, len - 1);
    }
  }

  lemma SeedValue(alpha: real, t: real, beta: real, y: real, xlen: nat, i: nat)
    requires t == Triangle(xlen) && y == 2.0 * (i as real)
    ensures alpha * t + beta * y == Expected(alpha, beta, xlen, i)
  {
  }

  /** Element i of the seeded GEMV is the expected value. */
  lemma SeedAt(trans: bool, m: nat, n: nat, xlen: nat, ylen: nat, alpha: real, a: seq<real>, beta: real, i: nat)
    requires xlen == (if trans then m else n) && ylen == (if trans then n else m)
    requires IsOnes(a) && |a| == m * n && i < ylen
    ensures GemvValue(trans, alpha, a, m, Ramp(xlen, 1.0), xlen, beta, 2.0 * (i as real), i)
            == Expected(alpha, beta, xlen, i)
  {
    GemvSumOfOnes(trans, a, m, n, Ramp(xlen, 1.0), i, xlen);
    GemvValueOf(trans, alpha, a, m, Ramp(xlen, 1.0), xlen, beta, 2.0 * (i as real), i, Triangle(xlen));
  }

  /** On the seeded inputs GEMV computes the expected value at every logical element of y. */
  lemma GemvOfSeeds(trans: bool, m: nat, n: nat, xlen: nat, ylen: nat, alpha: real, a: seq<real>, beta: real)
    requires xlen == (if trans then m else n) && ylen == (if trans then n else m)
    requires IsOnes(a) && |a| == m * n
    ensures forall i | 0 <= i < ylen ::
      GemvValues(trans, alpha, a, m, Ramp(xlen, 1.0), xlen, beta, Ramp(ylen, 2.0))[i] == Expected(alpha, beta, xlen, i)
  {
    forall i | 0 <= i < ylen
      ensures GemvValues(trans, alpha, a, m, Ramp(xlen, 1.0), xlen, beta, Ramp(ylen, 2.0))[i]
              == Expected(alpha, beta, xlen, i)
    {
      SeedAt(trans, m, n, xlen, ylen, alpha, a, beta, i);
    }
  }

  /** Sets every element of A to one, column by column. */
  method FillOnes(a: Matrix)
    requires a.Valid()
    modifies a.buf.hostData
    ensures a.Valid() && IsOnes(a.Host())
  {
    var c := 0;
    ghost var base := 0;
    while c < a.nCols
      invariant 0 <= c <= a.nCols && base == c * a.nRows
      invariant forall k | 0 <= k < base :: a.buf.hostData[k] == 1.0
    {
      assert base + a.nRows <= a.buf.size by {
        MulLeMono(c + 1, a.nCols, a.nRows);
      }
      var r := 0;
      while r < a.nRows
        invariant 0 <= r <= a.nRows
        invariant forall k | 0 <= k < base + r :: a.buf.hostData[k] == 1.0
      {
        assert MatrixOffset(a.nRows, r, c) == base + r;
        a.buf.hostData[MatrixOffset(a.nRows, r, c)] := 1.0;
        r := r + 1;
      }
      base := base + a.nRows;
      assert base == (c + 1) * a.nRows;
      c := c + 1;
    }
  }

  class GemvTester {
    const ctx: LibraryContext
    const stream: HipStream
    const transA: bool
    const A: Matrix
    const x: Vector
    const y: Vector
    const alpha: real
    const beta: real

    /** The length of x: the row count of A when transposed, else its column count. */
    function XLen(): nat
    {
      if transA then A.nRows else A.nCols
    }

    function YLen(): nat
    {
      if transA then A.nCols else A.nRows
    }

    ghost predicate Valid()
      reads this, ctx, ctx.lib, stream, A.buf, x.buf, y.buf
    {
      && ctx.Valid() && Vendor.Bound(ctx.lib, ctx.handle.id, stream)
      && A.Valid() && x.Valid() && y.Valid() && x.n == XLen() && y.n == YLen()
      && Apart(A.buf, x.buf) && Apart(A.buf, y.buf) && Apart(x.buf, y.buf)
    }

    /** The constructor: A is m x n whatever transA is; x has n elements (m when
     *  transposed) and y has m (n when transposed). */
    constructor (ctx: LibraryContext, stream: HipStream, transA: bool, m: nat, n: nat,
                 alpha: real, incx: nat, beta: real, incy: nat)
      requires ctx.Valid() && Vendor.Bound(ctx.lib, ctx.handle.id, stream) && incx >= 1 && incy >= 1
      ensures Valid() && this.ctx == ctx && this.stream == stream && this.transA == transA
      ensures A.nRows == m && A.nCols == n && this.alpha == alpha && this.beta == beta
      ensures x.n == (if transA then m else n) && y.n == (if transA then n else m)
      ensures x.stride == incx && y.stride == incy
      ensures fresh(A.buf) && fresh(A.buf.hostData) && fresh(A.buf.devData)
      ensures fresh(x.buf) && fresh(x.buf.hostData) && fresh(x.buf.devData)
      ensures fresh(y.buf) && fresh(y.buf.hostData) && fresh(y.buf.devData)
    {
      this.ctx := ctx;
      this.stream := stream;
      this.transA := transA;
      var am := NewMatrix(m, n);
      var xv := NewVector(if transA then m else n, incx);
      var yv := NewVector(if transA then n else m, incy);
      A, x, y := am, xv, yv;
      this.alpha, this.beta := alpha, beta;
    }

    /** Init: A all ones, x[i] = i, y[i] = 2i, each queued to the device in turn, then the
     *  stream drained. */
    method Init()
      requires Valid() && stream.Idle()
      modifies A.buf.hostData, A.buf.devData, x.buf.hostData, x.buf.devData
      modifies y.buf.hostData, y.buf.devData, stream
      ensures Valid() && stream.Idle()
      ensures IsOnes(A.Host()) && x.Items() == Ramp(XLen(), 1.0) && y.Items() == Ramp(YLen(), 2.0)
      ensures A.Device() == A.Host() && x.Device() == x.Host() && y.Device() == y.Host()
    {
      FillOnes(A);
      ghost var ai := A.Host();
      A.buf.CopyHostToDeviceAsync(stream);
      FillScaled(x, 1.0);
      assert A.Host() == ai;
      ghost var xi := x.Items();
      x.buf.CopyHostToDeviceAsync(stream);
      FillScaled(y, 2.0);
      assert A.Host() == ai && x.Items() == xi;
      ghost var yi := y.Items();
      y.buf.CopyHostToDeviceAsync(stream);
      SynchronizeUploads(stream, A.buf, x.buf, y.buf);
      assert A.Host() == ai && x.Items() == xi && y.Items() == yi;
    }

    /** DoOperation: GEMV on the device with A's row count as its leading dimension, then y
     *  is copied back and the stream drained. */
    method DoOperation(status: Status) returns (o: Outcome)
      requires Valid()
      modifies ctx.lib, stream, stream.Targets(), y.buf.devData, y.buf.hostData
      ensures Valid() && stream.Idle()
      ensures ctx.lib.calls == old(ctx.lib.calls) +
        [GemvCall(ctx.handle.id, TransOp(transA), A.nRows, A.nCols, A.nRows, x.stride, y.stride)]
      ensures status.Success? ==>
        && o == Done && y.Device() == y.Host()
        && y.Host() == GemvRef(transA, A.nRows, A.nCols, alpha, old(stream.After(A.buf.devData)), A.nRows,
                               old(stream.After(x.buf.devData)), x.stride,
                               beta, old(stream.After(y.buf.devData)), y.stride)
      ensures status.Error? ==> o == Threw(status.code)
    {
      var st := Vendor.Gemv(ctx.lib, ctx.handle.id, stream, transA, A.nRows, A.nCols, alpha,
                            A.buf.devData, A.nRows, x.buf.devData, x.stride, beta,
                            y.buf.devData, y.stride, status);
      if st.Error? {
        return Threw(st.code);
      }
      y.buf.CopyDeviceToHostAsync(stream);
      ghost var q := stream.pending;
      stream.Synchronize();
      assert q[0].dst[..] == y.Host();
      o := Done;
    }

    /** Check: x and y must have the lengths transA implies, and every y[i] must be within
     *  the relative tolerance of the expected value; the first failure ends the check. */
    method Check(tol: real) returns (ok: bool)
      requires Valid()
      ensures ok <==>
        && x.n == XLen() && y.n == YLen()
        && forall i | 0 <= i < YLen() :: WithinRel(y.El(i), Expected(alpha, beta, XLen(), i), tol)
    {
      var xlen := if transA then A.nRows else A.nCols;
      var ylen := if transA then A.nCols else A.nRows;
      if x.n != xlen || y.n != ylen {
        return false;
      }
      var i := 0;
      while i < ylen
        invariant 0 <= i <= ylen
        invariant forall k | 0 <= k < i :: WithinRel(y.El(k), Expected(alpha, beta, xlen, k), tol)
      {
        var expVal := CheckValue(alpha, beta, xlen, i);
        ExpectedAsWritten(alpha, beta, xlen, i);
        if !WithinRel(y.El(i), expVal, tol) {
          return false;
        }
        i := i + 1;
      }
      return true;
    }
  }

  /** One section of the GEMV test case. With a library that computes GEMV, the section
   *  passes exactly when the context is built, the call reports success and the context
   *  is destroyed.
   *  The tester's base constructor builds the library context on the stream, and its
   *  destructor destroys it at the end of the section; a failure of either fails the
   *  section. */
  method TestSection(lib: Library, stream: HipStream, createStatus: Status, setStatus: Status,
                     m: nat, n: nat, incx: nat, incy: nat,
                     alpha: real, beta: real, transA: bool, tol: real, status: Status, destroyStatus: Status)
    returns (passed: bool)
    requires lib.Valid() && stream.Valid() && stream.Idle()
    requires incx >= 1 && incy >= 1 && tol >= 0.0
    modifies lib, stream
    ensures passed <==>
      Builds(stream.handle, createStatus, setStatus) && status.Success? && destroyStatus.Success?
  {
    var made := LibraryContext.Create(lib, stream, createStatus, setStatus);
    if made.Raised? {
      return false;
    }
    var ctx := made.value;
    var tester := new GemvTester(ctx, stream, transA, m, n, alpha, incx, beta, incy);
    tester.Init();
    ghost var aa, xs, ys := tester.A.Device(), tester.x.Device(), tester.y.Device();
    var o := tester.DoOperation(status);
    if o.Threw? {
      passed := false;
    } else {
      ghost var xlen, ylen := tester.XLen(), tester.YLen();
      GemvRefItems(transA, m, n, alpha, aa, m, xs, incx, beta, ys, incy, xlen, ylen);
      assert Gather(xs, incx, xlen) == Ramp(xlen, 1.0) && Gather(ys, incy, ylen) == Ramp(ylen, 2.0);
      GemvOfSeeds(transA, m, n, xlen, ylen, alpha, aa, beta);
      passed := tester.Check(tol);
      forall i | 0 <= i < tester.YLen()
        ensures WithinRel(tester.y.El(i), Expected(alpha, beta, tester.XLen(), i), tol)
      {
        WithinRelOfEqual(Expected(alpha, beta, tester.XLen(), i), tol);
      }
    }
    var gone := ctx.Destroy(destroyStatus);
    passed := passed && gone.Done?;
  }
}

=== FILE: gesv_tester.dfy ===
/** The GESV tester (tests/include/HipSOLVER/LinearSolve/GesvTester.h): A is n x n, B and
 *  X are n x nrhs, filled from generated values; the solver is asked for A X = B, and
 *  Check multiplies A by the returned X on the host and compares each element of A X
 *  with B. The pivot vector and the info code are integers on the device, held here as
 *  whole-valued reals. */
module GesvTester {
  import opened Runtime
  import opened Hip
  import opened Views
  import opened HipTester
  import opened Reference
  import opened Contexts
  import Vendor

  /** Element (r, c) of the product A X of two n-row column-major matrices. */
  function ProductAt(a: seq<real>, x: seq<real>, n: nat, r: nat, c: nat): real
  {
    GemmSum(false, a, n, false, x, n, r, c, n)
  }

  /** Every element of A X is within `tol` of the element of B at the same place. */
  predicate ResidualWithin(a: seq<real>, x: seq<real>, b: seq<real>, n: nat, nrhs: nat, tol: real)
  {
    forall r, c | 0 <= r < n && 0 <= c < nrhs :: WithinRel(ProductAt(a, x, n, r, c), MatAt(b, n, r, c), tol)
  }

  /** A product with an all-zero X is zero everywhere. */
  lemma {:induction false} ProductOfZeros(a: seq<real>, x: seq<real>, n: nat, r: nat, c: nat, len: nat)
    requires forall l | 0 <= l < len :: MatAt(x, n, l, c) == 0.0
    ensures GemmSum(false, a, n, false, x, n, r, c, len) == 0.0
    decreases len
  {
    if len > 0 {
      ProductOfZeros(a, x, n, r, c, len - 1);
    }
  }

  /** With a solution of A X = B the residual check passes for any tolerance. */
  lemma SolutionPasses(a: seq<real>, x: seq<real>, b: seq<real>, n: nat, nrhs: nat, tol: real)
    requires tol >= 0.0 && Solves(n, nrhs, a, x, b)
    ensures ResidualWithin(a, x, b, n, nrhs, tol)
  {
    forall r, c | 0 <= r < n && 0 <= c < nrhs
      ensures WithinRel(ProductAt(a, x, n, r, c), MatAt(b, n, r, c), tol)
    {
      WithinRelOfEqual(MatAt(b, n, r, c), tol);
    }
  }

  /** With X left at zero, the residual check (at a tolerance below one) passes exactly
   *  when B is zero. */
  lemma ZeroSolutionPasses(a: seq<real>, x: seq<real>, b: seq<real>, n: nat, nrhs: nat, tol: real)
    requires 0.0 <= tol < 1.0 && IsZeros(x) && |x| == n * nrhs
    ensures ResidualWithin(a, x, b, n, nrhs, tol) <==>
      forall r, c | 0 <= r < n && 0 <= c < nrhs :: MatAt(b, n, r, c) == 0.0
  {
    forall r, c | 0 <= r < n && 0 <= c < nrhs
      ensures ProductAt(a, x, n, r, c) == 0.0
    {
      forall l | 0 <= l < n
        ensures MatAt(x, n, l, c) == 0.0
      {
        MatrixOffsetInBounds(n, nrhs, l, c);
      }
      ProductOfZeros(a, x, n, r, c, n);
    }
    forall r, c | 0 <= r < n && 0 <= c < nrhs
      ensures WithinRel(ProductAt(a, x, n, r, c), MatAt(b, n, r, c), tol) <==> MatAt(b, n, r, c) == 0.0
    {
      var v := MatAt(b, n, r, c);
      assert Abs(0.0 - v) == Abs(v) && Max(Abs(0.0), Abs(v)) == Abs(v);
      WithinRelZeroTarget(v, tol);
      assert WithinRel(v, 0.0, tol) <==> Abs(v) <= tol * Abs(v);
    }
  }

  class GesvTester {
    const ctx: LibraryContext
    const stream: HipStream
    const n: nat
    const nrhs: nat
    const A: Matrix
    const ipiv: Vector
    const B: Matrix
    const X: Matrix
    var niters: int
    const info: Scalar

    ghost predicate Valid()
      reads this, ctx, ctx.lib, stream, A.buf, ipiv.buf, B.buf, X.buf, info.buf
    {
      ctx.Valid() && Vendor.Bound(ctx.lib, ctx.handle.id, stream) && Layout()
    }

    /** The shapes of the views, and no two of them share a region. */
    ghost predicate Layout()
      reads this, A.buf, ipiv.buf, B.buf, X.buf, info.buf
    {
      && A.Valid() && ipiv.Valid() && B.Valid() && X.Valid() && info.Valid()
      && A.nRows == n && A.nCols == n && ipiv.n == n && ipiv.stride == 1
      && B.nRows == n && B.nCols == nrhs && X.nRows == n && X.nCols == nrhs
      && Apart(A.buf, ipiv.buf) && Apart(A.buf, B.buf) && Apart(A.buf, X.buf) && Apart(A.buf, info.buf)
      && Apart(ipiv.buf, B.buf) && Apart(ipiv.buf, X.buf) && Apart(ipiv.buf, info.buf)
      && Apart(B.buf, X.buf) && Apart(B.buf, info.buf) && Apart(X.buf, info.buf)
    }

    /** The constructor: A is n x n, the pivots n long, B and X n x nrhs, all zero. */
    constructor (ctx: LibraryContext, stream: HipStream, n: nat, nrhs: nat)
      requires ctx.Valid() && Vendor.Bound(ctx.lib, ctx.handle.id, stream)
      ensures Valid() && this.ctx == ctx && this.stream == stream && this.n == n && this.nrhs == nrhs
      ensures IsZeros(A.Host()) && IsZeros(B.Host()) && IsZeros(X.Host()) && IsZeros(ipiv.Host())
      ensures fresh(A.buf) && fresh(A.buf.hostData) && fresh(A.buf.devData)
      ensures fresh(ipiv.buf) && fresh(ipiv.buf.hostData) && fresh(ipiv.buf.devData)
      ensures fresh(B.buf) && fresh(B.buf.hostData) && fresh(B.buf.devData)
      ensures fresh(X.buf) && fresh(X.buf.hostData) && fresh(X.buf.devData)
      ensures fresh(info.buf) && fresh(info.buf.hostData) && fresh(info.buf.devData)
    {
      this.ctx := ctx;
      this.stream := stream;
      this.n := n;
      this.nrhs := nrhs;
      var a := NewMatrix(n, n);
      var p := NewVector(n);
      var b := NewMatrix(n, nrhs);
      var x := NewMatrix(n, nrhs);
      var i := NewScalar();
      assert Apart(a.buf, p.buf) && Apart(a.buf, b.buf) && Apart(a.buf, x.buf) && Apart(a.buf, i.buf);
      assert Apart(p.buf, b.buf) && Apart(p.buf, x.buf) && Apart(p.buf, i.buf);
      assert Apart(b.buf, x.buf) && Apart(b.buf, i.buf) && Apart(x.buf, i.buf);
      A, ipiv, B, X, info := a, p, b, x, i;
    }

    /** Init: the generated values are copied over the whole host region of A and of B,
     *  both are uploaded and the stream is drained; X is left as it was. */
    method Init(avals: seq<real>, bvals: seq<real>)
      requires Valid() && stream.Idle() && |avals| == n * n && |bvals| == n * nrhs
      modifies A.buf.hostData, A.buf.devData, B.buf.hostData, B.buf.devData, stream
      ensures Valid() && stream.Idle()
      ensures A.Host() == avals && B.Host() == bvals && A.Device() == avals && B.Device() == bvals
    {
      CopyInto(A, avals);
      A.buf.CopyHostToDeviceAsync(stream);
      CopyInto(B, bvals);
      B.buf.CopyHostToDeviceAsync(stream);
      SynchronizeUploads2(stream, A.buf, B.buf);
    }

    /** DoOperation: the workspace size is queried, a workspace of that size is
     *  allocated, GESV is called with every leading dimension n, and the info code is
     *  copied back synchronously. Only when it is 0 are X and the pivots copied back;
     *  then the stream is drained. A failing library call raises its status. The solver's
     *  answer (solution, pivots, info code, iteration count) is a parameter. */
    method DoOperation(sizeStatus: Status, worksize: nat, status: Status,
                       solution: seq<real>, pivots: seq<real>, infoCode: int, iterations: int)
      returns (o: Outcome)
      requires Valid() && stream.Idle() && |solution| == n * nrhs && |pivots| == n
      modifies this, ctx.lib, stream, X.buf.devData, X.buf.hostData
      modifies ipiv.buf.devData, ipiv.buf.hostData, info.buf.devData, info.buf.hostData
      ensures Valid() && stream.Idle()
      ensures sizeStatus.Error? ==>
        o == Threw(sizeStatus.code)
        && ctx.lib.calls == old(ctx.lib.calls) + [GesvBufferSizeCall(ctx.handle.id, n, nrhs, n, n, n)]
      ensures sizeStatus.Success? ==>
        ctx.lib.calls == old(ctx.lib.calls) + [GesvBufferSizeCall(ctx.handle.id, n, nrhs, n, n, n),
                                               GesvCall(ctx.handle.id, n, nrhs, n, n, n, worksize)]
      ensures sizeStatus.Success? && status.Error? ==> o == Threw(status.code)
      ensures sizeStatus.Success? && status.Success? ==>
        && o == Done && niters == iterations && info.El() == infoCode as real
        && (infoCode == 0 ==> X.Host() == solution && ipiv.Host() == pivots)
        && (infoCode != 0 ==> X.Host() == old(X.Host()) && ipiv.Host() == old(ipiv.Host()))
    {
      var solved, it := SolveOnDevice(sizeStatus, worksize, status, solution, pivots, infoCode, iterations);
      if solved.Threw? {
        return solved;
      }
      FetchResults();
      niters := it;
      o := Done;
    }

    /** The device half of DoOperation: the workspace size query, the workspace and the
     *  GESV call. On success the solver's answer is in the device regions of X, the
     *  pivots and the info code, and its iteration count is returned. */
    method SolveOnDevice(sizeStatus: Status, worksize: nat, status: Status,
                         solution: seq<real>, pivots: seq<real>, infoCode: int, iterations: int)
      returns (o: Outcome, it: int)
      requires Valid() && stream.Idle() && |solution| == n * nrhs && |pivots| == n
      modifies ctx.lib, stream, X.buf.devData, ipiv.buf.devData, info.buf.devData
      ensures Valid() && stream.Idle()
      ensures sizeStatus.Error? ==>
        o == Threw(sizeStatus.code)
        && ctx.lib.calls == old(ctx.lib.calls) + [GesvBufferSizeCall(ctx.handle.id, n, nrhs, n, n, n)]
      ensures sizeStatus.Success? ==>
        ctx.lib.calls == old(ctx.lib.calls) + [GesvBufferSizeCall(ctx.handle.id, n, nrhs, n, n, n),
                                               GesvCall(ctx.handle.id, n, nrhs, n, n, n, worksize)]
      ensures sizeStatus.Success? && status.Error? ==> o == Threw(status.code)
      ensures sizeStatus.Success? && status.Success? ==>
        && o == Done && it == iterations && info.DeviceEl() == infoCode as real
        && X.Device() == solution && ipiv.Device() == pivots
    {
      var size := Vendor.GesvBufferSize(ctx.lib, ctx.handle.id, stream, n, nrhs, n, n, n, sizeStatus, worksize);
      if size.Raised? {
        return Threw(size.code), 0;
      }
      var workspace := new Buffer(size.value);
      var st;
      st, it := Vendor.Gesv(ctx.lib, ctx.handle.id, stream, n, nrhs, n, ipiv.buf.devData, n,
                            X.buf.devData, n, workspace.size, info.buf.devData, status,
                            solution, pivots, infoCode, iterations);
      if st.Error? {
        return Threw(st.code), it;
      }
      o := Done;
    }

    /** The end of DoOperation: the info code is copied back synchronously; only when it
     *  is 0 are X and the pivots copied back; then the stream is drained. */
    method FetchResults()
      requires Valid() && stream.Idle()
      modifies stream, X.buf.hostData, ipiv.buf.hostData, info.buf.hostData
      ensures Valid() && stream.Idle() && info.El() == info.DeviceEl()
      ensures info.El() == 0.0 ==> X.Host() == X.Device() && ipiv.Host() == ipiv.Device()
      ensures info.El() != 0.0 ==> X.Host() == old(X.Host()) && ipiv.Host() == old(ipiv.Host())
    {
      info.buf.CopyDeviceToHost();
      if info.El() == 0.0 {
        DownloadBothAndWait(stream, X.buf, ipiv.buf);
      } else {
        stream.Synchronize();
      }
    }

    /** Check: A X is formed on the host by the triple loop, then every element of it must
     *  be within the tolerance of B. */
    method Check(tol: real) returns (ok: bool)
      requires Valid()
      ensures ok <==> ResidualWithin(A.Host(), X.Host(), B.Host(), n, nrhs, tol)
    {
      var AX := MultiplyOnHost();
      ok := true;
      var r := 0;
      while r < n
        invariant 0 <= r <= n
        invariant ok <==> WithinUpTo(AX.Host(), B.Host(), n, nrhs, tol, r, 0)
      {
        var c := 0;
        while c < nrhs
          invariant 0 <= c <= nrhs
          invariant ok <==> WithinUpTo(AX.Host(), B.Host(), n, nrhs, tol, r, c)
        {
          var expVal := B.El(r, c);
          var compVal := AX.El(r, c);
          ok := ok && WithinRel(compVal, expVal, tol);
          c := c + 1;
        }
        r := r + 1;
      }
    }

    /** The first half of Check: a fresh n x nrhs host matrix holding A X. */
    method MultiplyOnHost() returns (AX: Matrix)
      requires Valid()
      ensures AX.Valid() && AX.nRows == n && AX.nCols == nrhs
      ensures fresh(AX.buf) && fresh(AX.buf.hostData) && fresh(AX.buf.devData)
      ensures forall r, c | 0 <= r < n && 0 <= c < nrhs ::
        MatAt(AX.Host(), n, r, c) == ProductAt(A.Host(), X.Host(), n, r, c)
    {
      AX := NewMatrix(n, nrhs);
      var r := 0;
      while r < n
        invariant 0 <= r <= n && AX.Valid() && AX.nRows == n && AX.nCols == nrhs
        invariant fresh(AX.buf) && fresh(AX.buf.hostData) && fresh(AX.buf.devData)
        invariant ProductUpTo(AX.Host(), A.Host(), X.Host(), n, nrhs, r, 0)
      {
        var c := 0;
        while c < nrhs
          invariant 0 <= c <= nrhs && AX.Valid() && AX.nRows == n && AX.nCols == nrhs
          invariant fresh(AX.buf) && fresh(AX.buf.hostData) && fresh(AX.buf.devData)
          invariant ProductUpTo(AX.Host(), A.Host(), X.Host(), n, nrhs, r, c)
        {
          var sum := RowTimesColumn(r, c);
          ghost var before := AX.Host();
          AX.Set(r, c, sum);
          ProductUpToStep(before, A.Host(), X.Host(), n, nrhs, r, c, sum);
          c := c + 1;
        }
        ProductUpToNextRow(AX.Host(), A.Host(), X.Host(), n, nrhs, r);
        r := r + 1;
      }
    }

    /** The innermost loop of Check: element (r, c) of A X. */
    method RowTimesColumn(r: nat, c: nat) returns (sum: real)
      requires Valid() && r < n && c < nrhs
      ensures sum == ProductAt(A.Host(), X.Host(), n, r, c)
    {
      sum := 0.0;
      var i := 0;
      while i < n
        invariant 0 <= i <= n
        invariant sum == GemmSum(false, A.Host(), n, false, X.Host(), n, r, c, i)
      {
        sum := sum + A.El(r, i) * X.El(i, c);
        i := i + 1;
      }
    }
  }

  /** The elements of the n x nrhs matrix `ax` before (r, c) in row-major visiting order
   *  (every earlier row, then the earlier columns of row r) hold A X. */
  ghost predicate ProductUpTo(ax: seq<real>, a: seq<real>, x: seq<real>, n: nat, nrhs: nat, r: nat, c: nat)
  {
    forall r', c' | 0 <= r' < n && 0 <= c' < nrhs && (r' < r || (r' == r && c' < c)) ::
      MatAt(ax, n, r', c') == ProductAt(a, x, n, r', c')
  }

  /** Storing element (r, c) of A X extends ProductUpTo by one element. */
  lemma ProductUpToStep(ax: seq<real>, a: seq<real>, x: seq<real>, n: nat, nrhs: nat, r: nat, c: nat, v: real)
    requires r < n && c < nrhs && MatrixOffset(n, r, c) < |ax|
    requires ProductUpTo(ax, a, x, n, nrhs, r, c) && v == ProductAt(a, x, n, r, c)
    ensures ProductUpTo(ax[MatrixOffset(n, r, c) := v], a, x, n, nrhs, r, c + 1)
  {
    var ax' := ax[MatrixOffset(n, r, c) := v];
    forall r', c' | 0 <= r' < n && 0 <= c' < nrhs && (r' < r || (r' == r && c' < c + 1))
      ensures MatAt(ax', n, r', c') == ProductAt(a, x, n, r', c')
    {
      if r' != r || c' != c {
        MatAtUpdateOther(ax, n, r, c, v, r', c');
      }
    }
  }

  /** A finished row moves ProductUpTo to the start of the next row. */
  lemma ProductUpToNextRow(ax: seq<real>, a: seq<real>, x: seq<real>, n: nat, nrhs: nat, r: nat)
    requires ProductUpTo(ax, a, x, n, nrhs, r, nrhs)
    ensures ProductUpTo(ax, a, x, n, nrhs, r + 1, 0)
  {
  }

  /** The elements of `ax` before (r, c) in row-major visiting order are within `tol` of
   *  those of B. */
  predicate WithinUpTo(ax: seq<real>, b: seq<real>, n: nat, nrhs: nat, tol: real, r: nat, c: nat)
  {
    forall r', c' | 0 <= r' < n && 0 <= c' < nrhs && (r' < r || (r' == r && c' < c)) ::
      WithinRel(MatAt(ax, n, r', c'), MatAt(b, n, r', c'), tol)
  }

  /** One section of the GESV test case. Init and DoOperation must not throw; then the
   *  residual check decides. When the solver returns info 0 with a true solution of
   *  A X = B, the section passes. When it returns a non-zero info, X is never copied
   *  back and stays zero, so (below a tolerance of one) the section passes exactly when
   *  B is zero: the failure is reported only through the residual.
   *  The tester's base constructor builds the library context on the stream, and its
   *  destructor destroys it at the end of the section; a failure of either fails the
   *  section. */
  method TestSection(lib: Library, stream: HipStream, createStatus: Status, setStatus: Status,
                     n: nat, nrhs: nat, avals: seq<real>, bvals: seq<real>, tol: real,
                     sizeStatus: Status, worksize: nat, status: Status,
                     solution: seq<real>, pivots: seq<real>, infoCode: int, iterations: int,
                     destroyStatus: Status)
    returns (passed: bool)
    requires lib.Valid() && stream.Valid() && stream.Idle()
    requires |avals| == n * n && |bvals| == n * nrhs && |solution| == n * nrhs && |pivots| == n
    requires tol >= 0.0
    requires infoCode == 0 ==> Solves(n, nrhs, avals, solution, bvals)
    modifies lib, stream
    ensures !Builds(stream.handle, createStatus, setStatus) || destroyStatus.Error? ==> !passed
    ensures sizeStatus.Error? || status.Error? ==> !passed
    ensures Builds(stream.handle, createStatus, setStatus) && destroyStatus.Success? ==>
      && (sizeStatus.Success? && status.Success? && infoCode == 0 ==> passed)
      && (sizeStatus.Success? && status.Success? && infoCode != 0 && tol < 1.0 ==>
            (passed <==> forall r, c | 0 <= r < n && 0 <= c < nrhs :: MatAt(bvals, n, r, c) == 0.0))
  {
    var made := LibraryContext.Create(lib, stream, createStatus, setStatus);
    if made.Raised? {
      return false;
    }
    var ctx := made.value;
    passed := RunOnContext(ctx, stream, n, nrhs, avals, bvals, tol, sizeStatus, worksize, status,
                           solution, pivots, infoCode, iterations);
    var gone := ctx.Destroy(destroyStatus);
    passed := passed && gone.Done?;
  }

  /** The section between building and destroying the context: the tester's Init,
   *  DoOperation and Check on a context bound to the stream. */
  method RunOnContext(ctx: LibraryContext, stream: HipStream, n: nat, nrhs: nat,
                      avals: seq<real>, bvals: seq<real>, tol: real,
                      sizeStatus: Status, worksize: nat, status: Status,
                      solution: seq<real>, pivots: seq<real>, infoCode: int, iterations: int)
    returns (passed: bool)
    requires ctx.Valid() && Vendor.Bound(ctx.lib, ctx.handle.id, stream) && stream.Idle()
    requires |avals| == n * n && |bvals| == n * nrhs && |solution| == n * nrhs && |pivots| == n
    requires tol >= 0.0
    requires infoCode == 0 ==> Solves(n, nrhs, avals, solution, bvals)
    modifies ctx.lib, stream
    ensures ctx.Valid()
    ensures sizeStatus.Error? || status.Error? ==> !passed
    ensures sizeStatus.Success? && status.Success? && infoCode == 0 ==> passed
    ensures sizeStatus.Success? && status.Success? && infoCode != 0 && tol < 1.0 ==>
      (passed <==> forall r, c | 0 <= r < n && 0 <= c < nrhs :: MatAt(bvals, n, r, c) == 0.0)
  {
    var tester := new GesvTester(ctx, stream, n, nrhs);
    ghost var x0 := tester.X.Host();
    tester.Init(avals, bvals);
    var o := tester.DoOperation(sizeStatus, worksize, status, solution, pivots, infoCode, iterations);
    if o.Threw? {
      return false;
    }
    passed := tester.Check(tol);
    if infoCode == 0 {
      SolutionPasses(avals, solution, bvals, n, nrhs, tol);
    } else if tol < 1.0 {
      ZeroSolutionPasses(avals, x0, bvals, n, nrhs, tol);
    }
  }
}

=== FILE: hip.dfy ===
/** Host/device memory and streams (tests/include/Buffer.h, tests/include/HipStream.h).
 *  A Buffer owns a host region and a device region of equal size; a stream queues
 *  asynchronous copies in order and applies them all at a barrier. */
module Hip {
  import opened Runtime

  /** One queued whole-region copy (hipMemcpyAsync): `dst` receives the contents of `src`. */
  datatype Transfer = Transfer(src: array<real>, dst: array<real>)
  /** No copy reads a region another one writes, and no two write the same region. */
  ghost predicate Independent(q: seq<Transfer>)
  {
    && (forall i, j | 0 <= i < |q| && 0 <= j < |q| :: q[i].dst != q[j].src)
    && (forall i, j | 0 <= i < j < |q| :: q[i].dst != q[j].dst)
  }

  /** The region the last copy of `q` into `a` reads from, or `a` itself when no copy of
   *  `q` writes `a`. */
  function SourceOf(q: seq<Transfer>, a: array<real>): array<real>
    decreases |q|
  {
    if q == [] then a
    else if q[|q| - 1].dst == a then q[|q| - 1].src
    else SourceOf(q[..|q| - 1], a)
  }

  /** In an independent queue, the copy that writes a region is the one it is read from. */
  lemma {:induction false} SourceOfWritten(q: seq<Transfer>, i: nat)
    requires Independent(q) && i < |q|
    ensures SourceOf(q, q[i].dst) == q[i].src
    decreases |q|
  {
    if i < |q| - 1 {
      var p := q[..|q| - 1];
      assert p[i] == q[i] && Independent(p);
      SourceOfWritten(p, i);
    }
  }

  lemma {:induction false} SourceOfUnwritten(q: seq<Transfer>, a: array<real>)
    requires forall i | 0 <= i < |q| :: q[i].dst != a
    ensures SourceOf(q, a) == a
    decreases |q|
  {
    if q != [] {
      SourceOfUnwritten(q[..|q| - 1], a);
    }
  }

  /** The region read for `a` is `a` itself or the source of one of the queued copies. */
  lemma {:induction false} SourceOfCases(q: seq<Transfer>, a: array<real>)
    ensures SourceOf(q, a) == a || exists i | 0 <= i < |q| :: q[i].src == SourceOf(q, a)
    decreases |q|
  {
    if q != [] && q[|q| - 1].dst != a {
      SourceOfCases(q[..|q| - 1], a);
      if SourceOf(q, a) != a {
        var i :| 0 <= i < |q| - 1 && q[..|q| - 1][i].src == SourceOf(q, a);
        assert q[i].src == SourceOf(q, a);
      }
    }
  }

  lemma {:induction false} SourceOfLength(q: seq<Transfer>, a: array<real>)
    requires forall i | 0 <= i < |q| :: q[i].src.Length == q[i].dst.Length
    ensures SourceOf(q, a).Length == a.Length
    decreases |q|
  {
    if q != [] {
      SourceOfLength(q[..|q| - 1], a);
    }
  }

  /** A host/device pair of equal-size regions; null pointers stand for released ones. */
  class Buffer {
    const size: nat
    var hostData: array?<real>
    var devData: array?<real>
    /** How often each region has been handed back to the runtime. */
    ghost var hostReleases: nat
    ghost var devReleases: nat

    /** A region is released at most once, and exactly when its pointer is null. */
    ghost predicate Owned()
      reads this
    {
      && (hostData == null <==> hostReleases == 1) && hostReleases <= 1
      && (devData == null <==> devReleases == 1) && devReleases <= 1
    }

    ghost predicate Valid()
      reads this
    {
      && Owned() && hostData != null && devData != null && hostData != devData
      && hostData.Length == size && devData.Length == size
    }

    ghost function Regions(): set<array<real>>
      reads this
      requires Valid()
    {
      {hostData, devData}
    }

    /** Both regions are allocated with `size` slots and filled with zeros. */
    constructor (size: nat)
      ensures Valid() && this.size == size && fresh(hostData) && fresh(devData)
      ensures forall i | 0 <= i < size :: hostData[i] == 0.0 && devData[i] == 0.0
    {
      this.size := size;
      hostData := new real[size](_ => 0.0);
      devData := new real[size](_ => 0.0);
      hostReleases := 0;
      devReleases := 0;
    }

    method CopyHostToDevice()
      requires Valid()
      modifies devData
      ensures devData[..] == hostData[..]
    {
      forall i | 0 <= i < size {
        devData[i] := hostData[i];
      }
    }

    method CopyDeviceToHost()
      requires Valid()
      modifies hostData
      ensures hostData[..] == devData[..]
    {
      forall i | 0 <= i < size {
        hostData[i] := devData[i];
      }
    }

    method CopyHostToDeviceAsync(stream: HipStream)
      requires Valid() && stream.Valid() && stream.Accepts(Transfer(hostData, devData))
      modifies stream
      ensures stream.Valid() && stream.pending == old(stream.pending) + [Transfer(hostData, devData)]
    {
      stream.Enqueue(Transfer(hostData, devData));
    }

    method CopyDeviceToHostAsync(stream: HipStream)
      requires Valid() && stream.Valid() && stream.Accepts(Transfer(devData, hostData))
      modifies stream
      ensures stream.Valid() && stream.pending == old(stream.pending) + [Transfer(devData, hostData)]
    {
      stream.Enqueue(Transfer(devData, hostData));
    }

    /** The destructor: each region is handed back only while its pointer is non-null,
     *  and the pointer is nulled, so a second call releases nothing. */
    method Release()
      requires Owned()
      modifies this
      ensures Owned() && hostData == null && devData == null
      ensures hostReleases == old(hostReleases) + (if old(hostData) != null then 1 else 0)
      ensures devReleases == old(devReleases) + (if old(devData) != null then 1 else 0)
    {
      if hostData != null {
        hostReleases := hostReleases + 1;
        hostData := null;
      }
      if devData != null {
        devReleases := devReleases + 1;
        devData := null;
      }
    }
  }

  /** The regions of two buffers are all different. */
  ghost predicate Apart(b1: Buffer, b2: Buffer)
    reads b1, b2
  {
    && b1.hostData != b2.hostData && b1.hostData != b2.devData
    && b1.devData != b2.hostData && b1.devData != b2.devData
  }

  /** Draining a stream whose queue holds exactly the uploads of three separate buffers:
   *  each device region ends up equal to its host region, and the hosts are untouched. */
  method SynchronizeUploads(stream: HipStream, b1: Buffer, b2: Buffer, b3: Buffer)
    requires stream.Valid() && b1.Valid() && b2.Valid() && b3.Valid()
    requires Apart(b1, b2) && Apart(b1, b3) && Apart(b2, b3)
    requires stream.pending == [Transfer(b1.hostData, b1.devData), Transfer(b2.hostData, b2.devData),
                                Transfer(b3.hostData, b3.devData)]
    modifies stream, b1.devData, b2.devData, b3.devData
    ensures stream.Valid() && stream.Idle()
    ensures b1.devData[..] == b1.hostData[..] && b2.devData[..] == b2.hostData[..]
    ensures b3.devData[..] == b3.hostData[..]
  {
    ghost var q := stream.pending;
    assert b1.hostData !in stream.Targets() && b2.hostData !in stream.Targets();
    assert b3.hostData !in stream.Targets();
    stream.Synchronize();
    assert q[0].dst[..] == q[0].src[..] && q[1].dst[..] == q[1].src[..] && q[2].dst[..] == q[2].src[..];
  }

  /** Draining a stream whose queue holds exactly the uploads of two separate buffers. */
  method SynchronizeUploads2(stream: HipStream, b1: Buffer, b2: Buffer)
    requires stream.Valid() && b1.Valid() && b2.Valid() && Apart(b1, b2)
    requires stream.pending == [Transfer(b1.hostData, b1.devData), Transfer(b2.hostData, b2.devData)]
    modifies stream, b1.devData, b2.devData
    ensures stream.Valid() && stream.Idle()
    ensures b1.devData[..] == b1.hostData[..] && b2.devData[..] == b2.hostData[..]
  {
    ghost var q := stream.pending;
    assert b1.hostData !in stream.Targets() && b2.hostData !in stream.Targets();
    stream.Synchronize();
    assert q[0].dst[..] == q[0].src[..] && q[1].dst[..] == q[1].src[..];
  }

  /** Draining a stream whose queue holds exactly the upload of one buffer. */
  method SynchronizeUpload(stream: HipStream, b: Buffer)
    requires stream.Valid() && b.Valid() && stream.pending == [Transfer(b.hostData, b.devData)]
    modifies stream, b.devData
    ensures stream.Valid() && stream.Idle() && b.devData[..] == b.hostData[..]
  {
    ghost var q := stream.pending;
    assert b.hostData !in stream.Targets();
    stream.Synchronize();
    assert q[0].dst[..] == q[0].src[..];
  }

  /** A region no queued copy writes keeps its contents once the queue has drained. */
  lemma AfterUntargeted(stream: HipStream, a: array<real>)
    requires stream.Valid() && a !in stream.Targets()
    ensures stream.After(a) == a[..]
  {
    forall i | 0 <= i < |stream.pending|
      ensures stream.pending[i].dst != a
    {
      assert stream.pending[i].dst in stream.Targets();
    }
    SourceOfUnwritten(stream.pending, a);
  }

  /** Draining a stream whose queue holds exactly the download of one buffer. */
  method SynchronizeDownload(stream: HipStream, b: Buffer)
    requires stream.Valid() && b.Valid() && stream.pending == [Transfer(b.devData, b.hostData)]
    modifies stream, b.hostData
    ensures stream.Valid() && stream.Idle() && b.hostData[..] == b.devData[..]
    ensures b.devData[..] == old(b.devData[..])
  {
    ghost var q := stream.pending;
    assert b.devData !in stream.Targets();
    stream.Synchronize();
    assert q[0].dst[..] == q[0].src[..];
  }

  /** Queueing the downloads of two separate buffers on an idle stream and draining it:
   *  each host region ends up equal to its device region, and the devices are untouched. */
  method DownloadBothAndWait(stream: HipStream, b1: Buffer, b2: Buffer)
    requires stream.Valid() && stream.Idle() && b1.Valid() && b2.Valid() && Apart(b1, b2)
    modifies stream, b1.hostData, b2.hostData
    ensures stream.Valid() && stream.Idle()
    ensures b1.hostData[..] == b1.devData[..] && b2.hostData[..] == b2.devData[..]
    ensures b1.devData[..] == old(b1.devData[..]) && b2.devData[..] == old(b2.devData[..])
  {
    b1.CopyDeviceToHostAsync(stream);
    b2.CopyDeviceToHostAsync(stream);
    ghost var q := stream.pending;
    assert b1.devData !in stream.Targets() && b2.devData !in stream.Targets();
    stream.Synchronize();
    assert q[0].dst[..] == q[0].src[..] && q[1].dst[..] == q[1].src[..];
  }

  /** A stream: the native handle (null for the default stream) and the copies queued
   *  on it that have not run yet. */
  class HipStream {
    const handle: Handle
    var pending: seq<Transfer>

    /** Queued copies join regions of equal size and do not depend on one another. */
    ghost predicate Valid()
      reads this
    {
      && (forall i | 0 <= i < |pending| :: pending[i].src.Length == pending[i].dst.Length)
      && Independent(pending)
    }

    ghost predicate Idle()
      reads this
    {
      pending == []
    }

    /** The regions queued copies will write. */
    ghost function Targets(): set<array<real>>
      reads this
    {
      set i | 0 <= i < |pending| :: pending[i].dst
    }

    /** A copy `t` may join the queue: it touches no region a queued copy writes and writes
     *  no region a queued copy reads. */
    ghost predicate Accepts(t: Transfer)
      reads this
    {
      && t.src != t.dst
      && forall i | 0 <= i < |pending| ::
           t.dst != pending[i].src && t.dst != pending[i].dst && t.src != pending[i].dst
    }

    /** The contents region `a` will have once every queued copy has run. */
    ghost function After(a: array<real>): (r: seq<real>)
      reads this, a, SourceOf(pending, a)
      requires Valid()
      ensures |r| == a.Length
    {
      SourceOfLength(pending, a);
      SourceOf(pending, a)[..]
    }

    constructor Wrap(h: Handle)
      ensures handle == h && pending == [] && Valid()
    {
      handle := h;
      pending := [];
    }

    /** The constructor: the default stream unless a custom one is asked for, in which
     *  case a new runtime stream is created (and a failure raises its code). */
    static method Create(rt: HipRuntime, createCustomStream: bool, status: Status)
      returns (r: Result<HipStream>)
      requires rt.Valid()
      modifies rt
      ensures rt.Valid()
      ensures r.Ok? ==> fresh(r.value) && r.value.Valid() && r.value.Idle()
      ensures !createCustomStream ==>
        r.Ok? && r.value.handle == Null && rt.liveStreams == old(rt.liveStreams)
      ensures createCustomStream && status.Success? ==>
        && r.Ok? && r.value.handle.Ref? && r.value.handle.id !in old(rt.liveStreams)
        && rt.liveStreams == old(rt.liveStreams) + {r.value.handle.id}
      ensures createCustomStream && status.Error? ==>
        r == Raised(status.code) && rt.liveStreams == old(rt.liveStreams)
    {
      if !createCustomStream {
        var s := new HipStream.Wrap(Null);
        return Ok(s);
      }
      var created := rt.StreamCreate(status);
      if created.Raised? {
        return Raised(created.code);
      }
      var s := new HipStream.Wrap(Ref(created.value));
      r := Ok(s);
    }

    /** The destructor: only a custom stream is handed back to the runtime. */
    method Destroy(rt: HipRuntime, status: Status) returns (st: Status)
      requires rt.Valid() && (handle.Ref? ==> handle.id in rt.liveStreams)
      modifies rt
      ensures rt.Valid()
      ensures handle.Null? ==> st == Success && rt.liveStreams == old(rt.liveStreams)
      ensures handle.Ref? ==> st == status
      ensures handle.Ref? && status.Success? ==> rt.liveStreams == old(rt.liveStreams) - {handle.id}
      ensures handle.Ref? && status.Error? ==> rt.liveStreams == old(rt.liveStreams)
    {
      st := Success;
      if handle.Ref? {
        st := rt.StreamDestroy(handle.id, status);
      }
    }

    method Enqueue(t: Transfer)
      requires Valid() && t.src.Length == t.dst.Length && Accepts(t)
      modifies this
      ensures Valid() && pending == old(pending) + [t]
    {
      pending := pending + [t];
    }

    /** hipStreamSynchronize: every queued copy runs, so each destination receives its
     *  source's contents. */
    method Synchronize()
      requires Valid()
      modifies this, Targets()
      ensures Valid() && Idle()
      ensures forall i | 0 <= i < |old(pending)| :: old(pending)[i].dst[..] == old(pending[i].src[..])
      ensures forall a | a in old(Targets()) :: a[..] == old(After(a))
    {
      var q := pending;
      var i := 0;
      while i < |q|
        invariant 0 <= i <= |q| && pending == q
        invariant forall k | 0 <= k < i :: q[k].dst[..] == old(q[k].src[..])
        invariant forall k | 0 <= k < |q| :: q[k].src[..] == old(q[k].src[..])
      {
        var t := q[i];
        assert t.dst in Targets();
        forall k | 0 <= k < t.dst.Length {
          t.dst[k] := t.src[k];
        }
        i := i + 1;
      }
      pending := [];
      forall a | a in old(Targets())
        ensures a[..] == old(After(a))
      {
        var k :| 0 <= k < |q| && q[k].dst == a;
        SourceOfWritten(q, k);
      }
    }
  }
}

=== FILE: hip_tester.dfy ===
/** The common part of every tester (tests/include/HipTester.h) and the comparison
 *  the Catch2 checks use. A tester is built, then Init seeds its operands, DoOperation
 *  runs the library routine, and Check judges the result against a tolerance. */
module HipTester {

  function Abs(x: real): real
  {
    if x < 0.0 then -x else x
  }

  function Max(a: real, b: real): real
  {
    if a < b then b else a
  }

  /** RelativeError(expected, computed): the difference relative to the expected value,
   *  or the plain difference when the expected value is zero. */
  function RelativeError(expVal: real, compVal: real): (e: real)
    ensures e >= 0.0
    ensures expVal != 0.0 ==> e * Abs(expVal) == Abs(compVal - expVal)
    ensures expVal == 0.0 ==> e == Abs(compVal - expVal)
  {
    var delta := compVal - expVal;
    var q := if expVal != 0.0 then delta / expVal else delta;
    assert expVal != 0.0 ==> q * expVal == delta;
    AbsMul(q, expVal);
    Abs(q)
  }

  lemma AbsMul(a: real, b: real)
    ensures Abs(a * b) == Abs(a) * Abs(b)
  {
  }

  /** The relative error is zero exactly when the computed value is the expected one. */
  lemma RelativeErrorZeroIff(expVal: real, compVal: real)
    ensures RelativeError(expVal, compVal) == 0.0 <==> compVal == expVal
  {
    if expVal != 0.0 && RelativeError(expVal, compVal) == 0.0 {
      assert Abs(compVal - expVal) == 0.0;
    }
  }

  lemma MulLeMonoReal(a: real, b: real, c: real)
    ensures 0.0 <= c && a <= b ==> a * c <= b * c
  {
  }

  /** Catch2's WithinRel(target, eps) matcher applied to `actual`: the difference is at
   *  most eps times the larger of the two magnitudes. */
  predicate WithinRel(actual: real, target: real, eps: real)
  {
    Abs(actual - target) <= eps * Max(Abs(actual), Abs(target))
  }

  /** A value always matches itself, whatever the (non-negative) tolerance. */
  lemma WithinRelOfEqual(v: real, eps: real)
    requires eps >= 0.0
    ensures WithinRel(v, v, eps)
  {
    assert Abs(v - v) == 0.0;
  }

  /** Against a zero target only zero matches, for any tolerance below one. */
  lemma WithinRelZeroTarget(actual: real, eps: real)
    requires 0.0 <= eps < 1.0
    ensures WithinRel(actual, 0.0, eps) <==> actual == 0.0
  {
    var m := Abs(actual);
    assert Abs(actual - 0.0) == m && Max(m, Abs(0.0)) == m;
    if actual != 0.0 {
      assert m > 0.0;
      MulLeMonoReal(eps, 1.0, m);
      assert eps * m < m by {
        assert (1.0 - eps) * m > 0.0;
      }
    }
  }

  /** A result within `tol` by RelativeError is also within `tol` by WithinRel. */
  lemma RelativeErrorImpliesWithinRel(expVal: real, compVal: real, tol: real)
    requires tol >= 0.0 && RelativeError(expVal, compVal) <= tol && expVal != 0.0
    ensures WithinRel(compVal, expVal, tol)
  {
    var e := RelativeError(expVal, compVal);
    var a := Abs(expVal);
    var m := Max(Abs(compVal), a);
    assert Abs(compVal - expVal) == e * a;
    MulLeMonoReal(e, tol, a);
    MulLeMonoReal(a, m, tol);
    calc {
      Abs(compVal - expVal);
    ==
      e * a;
    <=
      tol * a;
    ==
      a * tol;
    <=
      m * tol;
    ==
      tol * m;
    }
  }
}

=== FILE: hipblas_gemm_tester.dfy ===
/** The older hipBLAS GEMM tester (tests/include/HipBLAS/GemmTester.h) and the Catch2
 *  test that drives it (tests/HipBLAS/level3.cpp). The matrices are seeded as module
 *  GemmSeeds describes, by the constructor; every DoOperation builds its own library
 *  context on the tester's stream, and Check counts the elements of C that differ from
 *  alpha + beta r c exactly. */
module HipblasGemmTester {
  import opened Runtime
  import opened Hip
  import opened Views
  import opened HipTester
  import opened Reference
  import opened Contexts
  import opened GemmSeeds
  import Vendor

  class GemmTester {
    const lib: Library
    const stream: HipStream
    const A: Matrix
    const B: Matrix
    const C: Matrix
    const alpha: real
    const beta: real
    const transB: bool

    ghost predicate Valid()
      reads this, lib, stream, A.buf, B.buf, C.buf
    {
      && lib.Valid() && stream.Valid()
      && A.Valid() && B.Valid() && C.Valid()
      && Apart(A.buf, B.buf) && Apart(A.buf, C.buf) && Apart(B.buf, C.buf)
    }

    /** The constructor: A is m x k, B is k x n (n x k when transB), C is m x n; the
     *  matrices are seeded and their uploads queued, with nothing waiting for them. */
    constructor (lib: Library, stream: HipStream, m: nat, n: nat, k: nat,
                 alpha: real, beta: real, transB: bool)
      requires lib.Valid() && stream.Valid() && stream.Idle()
      requires (m == 0 || k >= 1) && (n == 0 || k >= 1)
      modifies stream
      ensures Valid() && this.lib == lib && this.stream == stream
      ensures this.alpha == alpha && this.beta == beta && this.transB == transB
      ensures A.nRows == m && A.nCols == k && C.nRows == m && C.nCols == n
      ensures B.nRows == (if transB then n else k) && B.nCols == (if transB then k else n)
      ensures stream.pending == [Transfer(A.buf.hostData, A.buf.devData), Transfer(B.buf.hostData, B.buf.devData),
                                 Transfer(C.buf.hostData, C.buf.devData)]
      ensures IsSeedA(A.Host(), m, k) && IsSeedB(B.Host(), transB, B.nRows, B.nCols) && IsSeedC(C.Host(), m, n)
      ensures fresh(A.buf) && fresh(A.buf.hostData) && fresh(A.buf.devData)
      ensures fresh(B.buf) && fresh(B.buf.hostData) && fresh(B.buf.devData)
      ensures fresh(C.buf) && fresh(C.buf.hostData) && fresh(C.buf.devData)
    {
      this.lib := lib;
      this.stream := stream;
      this.alpha := alpha;
      this.beta := beta;
      this.transB := transB;
      var a := NewMatrix(m, k);
      var b := NewMatrix(if transB then n else k, if transB then k else n);
      var c := NewMatrix(m, n);
      A, B, C := a, b, c;
      new;
      InitMatrices();
    }

    /** InitMatrices: ones in column 0 of A and in logical row 0 of op(B), r c at C(r, c),
     *  each matrix's upload queued right after it is written. */
    method InitMatrices()
      requires Valid() && stream.Idle()
      requires A.nRows == 0 || A.nCols >= 1
      requires if transB then B.nRows == 0 || B.nCols >= 1 else B.nCols == 0 || B.nRows >= 1
      requires IsZeros(A.Host()) && IsZeros(B.Host())
      modifies A.buf.hostData, B.buf.hostData, C.buf.hostData, stream
      ensures Valid()
      ensures stream.pending == [Transfer(A.buf.hostData, A.buf.devData), Transfer(B.buf.hostData, B.buf.devData),
                                 Transfer(C.buf.hostData, C.buf.devData)]
      ensures IsSeedA(A.Host(), A.nRows, A.nCols) && IsSeedB(B.Host(), transB, B.nRows, B.nCols)
      ensures IsSeedC(C.Host(), C.nRows, C.nCols)
    {
      FillSeedA(A);
      ghost var a := A.Host();
      assert IsSeedA(a, A.nRows, A.nCols);
      A.buf.CopyHostToDeviceAsync(stream);
      FillSeedB(B, transB);
      assert A.Host() == a;
      ghost var b := B.Host();
      assert IsSeedB(b, transB, B.nRows, B.nCols);
      B.buf.CopyHostToDeviceAsync(stream);
      FillSeedC(C);
      assert A.Host() == a && B.Host() == b;
      C.buf.CopyHostToDeviceAsync(stream);
    }

    /** DoOperation: a library context is built on the tester's stream (its failures are
     *  raised), GEMM is called with m = rows of A, n = columns of C, k = columns of A and
     *  each row count as leading dimension, the stream is drained, the copy of C back to
     *  the host is queued without waiting, and GEMM's own status is returned whether or
     *  not it succeeded. The context's destructor runs on the way out; when its destroy
     *  fails, that code is raised instead of the return. A failure to build the context
     *  leaves every region as it was. */
    method DoOperation(createStatus: Status, setStatus: Status, gemmStatus: Status, destroyStatus: Status)
      returns (r: Result<Status>)
      requires Valid()
      modifies lib, stream, stream.Targets(), C.buf.devData
      ensures Valid()
      ensures createStatus.Error? ==>
        && r == Raised(createStatus.code) && lib.live == old(lib.live)
        && unchanged(stream, C.buf.devData, C.buf.hostData) && unchanged(stream.Targets())
      ensures createStatus.Success? && stream.handle.Ref? && setStatus.Error? ==>
        && r == Raised(setStatus.code)
        && unchanged(stream, C.buf.devData, C.buf.hostData) && unchanged(stream.Targets())
      ensures Builds(stream.handle, createStatus, setStatus) ==>
        && r == (if destroyStatus.Success? then Ok(gemmStatus) else Raised(destroyStatus.code))
        && (destroyStatus.Success? ==> lib.live == old(lib.live))
        && |lib.calls| == |old(lib.calls)| + 1 && lib.calls[..|old(lib.calls)|] == old(lib.calls)
        && lib.calls[|old(lib.calls)|]
           == GemmCall(lib.calls[|old(lib.calls)|].handle, OpN, TransOp(transB),
                       A.nRows, C.nCols, A.nCols, A.nRows, B.nRows, C.nRows)
        && stream.pending == [Transfer(C.buf.devData, C.buf.hostData)]
        && C.Host() == old(stream.After(C.buf.hostData))
        && C.Device() == (if gemmStatus.Success?
                          then GemmRef(false, transB, A.nRows, C.nCols, A.nCols, alpha,
                                       old(stream.After(A.buf.devData)), A.nRows,
                                       old(stream.After(B.buf.devData)), B.nRows,
                                       beta, old(stream.After(C.buf.devData)), C.nRows)
                          else old(stream.After(C.buf.devData)))
    {
      SourceOfCases(stream.pending, A.buf.devData);
      SourceOfCases(stream.pending, B.buf.devData);
      SourceOfCases(stream.pending, C.buf.devData);
      SourceOfCases(stream.pending, C.buf.hostData);
      var made := LibraryContext.Create(lib, stream, createStatus, setStatus);
      if made.Raised? {
        return Raised(made.code);
      }
      var ctx := made.value;
      ghost var calls0 := lib.calls;
      ghost var aIn, bIn := stream.After(A.buf.devData), stream.After(B.buf.devData);
      ghost var cIn, hostIn := stream.After(C.buf.devData), stream.After(C.buf.hostData);
      assert aIn == old(stream.After(A.buf.devData));
      assert bIn == old(stream.After(B.buf.devData));
      assert cIn == old(stream.After(C.buf.devData));
      assert hostIn == old(stream.After(C.buf.hostData));
      var ret := GemmThenReadBack(ctx.handle.id, gemmStatus);
      ghost var device, host := C.Device(), C.Host();
      var gone := ctx.Destroy(destroyStatus);
      assert C.Device() == device && C.Host() == host;
      r := if gone.Done? then Ok(ret) else Raised(gone.code);
    }

    /** The middle of DoOperation, once the context exists: GEMM on handle `h`, a wait on
     *  the stream, and the copy of C back to the host queued without waiting. */
    method GemmThenReadBack(h: nat, gemmStatus: Status) returns (ret: Status)
      requires Valid() && Vendor.Bound(lib, h, stream)
      modifies lib, stream, stream.Targets(), C.buf.devData
      ensures Valid() && Vendor.Bound(lib, h, stream) && ret == gemmStatus
      ensures lib.live == old(lib.live) && lib.streamOf == old(lib.streamOf)
      ensures lib.calls == old(lib.calls) +
        [GemmCall(h, OpN, TransOp(transB), A.nRows, C.nCols, A.nCols, A.nRows, B.nRows, C.nRows)]
      ensures stream.pending == [Transfer(C.buf.devData, C.buf.hostData)]
      ensures C.Host() == old(stream.After(C.buf.hostData))
      ensures C.Device() == if gemmStatus.Success?
                            then GemmRef(false, transB, A.nRows, C.nCols, A.nCols, alpha,
                                         old(stream.After(A.buf.devData)), A.nRows,
                                         old(stream.After(B.buf.devData)), B.nRows,
                                         beta, old(stream.After(C.buf.devData)), C.nRows)
                            else old(stream.After(C.buf.devData))
    {
      if C.buf.hostData !in stream.Targets() {
        forall i | 0 <= i < |stream.pending|
          ensures stream.pending[i].dst != C.buf.hostData
        {
          assert stream.pending[i].dst in stream.Targets();
        }
        SourceOfUnwritten(stream.pending, C.buf.hostData);
      }
      ret := Vendor.Gemm(lib, h, stream, false, transB, A.nRows, C.nCols, A.nCols,
                         alpha, A.buf.devData, A.nRows, B.buf.devData, B.nRows, beta,
                         C.buf.devData, C.nRows, gemmStatus);
      stream.Synchronize();
      C.buf.CopyDeviceToHostAsync(stream);
    }

    /** Check: the number of elements of C that differ from alpha + beta r c. */
    method Check() returns (nMismatches: nat)
      requires Valid()
      ensures nMismatches == Mismatches(C.Host(), C.nRows, alpha, beta, 0.0, C.nCols)
      ensures nMismatches == 0 <==>
        forall r, c | 0 <= r < C.nRows && 0 <= c < C.nCols :: C.El(r, c) == Expected(alpha, beta, r, c)
    {
      nMismatches := CountExact(C.Host(), C.nRows, C.nCols, alpha, beta);
      MismatchesZeroIff(C.Host(), C.nRows, alpha, beta, 0.0, C.nCols);
      forall r, c | 0 <= r < C.nRows && 0 <= c < C.nCols
        ensures Mismatch(C.Host(), C.nRows, alpha, beta, 0.0, r, c) <==> C.El(r, c) != Expected(alpha, beta, r, c)
      {
        MismatchExact(C.Host(), C.nRows, alpha, beta, r, c);
      }
    }
  }

  /** One section of the GEMM test case for any shape and scalars: build the tester,
   *  run DoOperation, wait on the stream, require success and then no mismatch. An
   *  exception out of DoOperation fails the section. With a library that computes GEMM,
   *  it passes exactly when the context is built, the GEMM call succeeds and the context
   *  is destroyed. */
  method RunSection(lib: Library, stream: HipStream, m: nat, n: nat, k: nat, alpha: real, beta: real,
                    transB: bool, createStatus: Status, setStatus: Status, gemmStatus: Status,
                    destroyStatus: Status)
    returns (passed: bool)
    requires lib.Valid() && stream.Valid() && stream.Idle() && k >= 1
    modifies lib, stream
    ensures lib.Valid()
    ensures passed <==>
      Builds(stream.handle, createStatus, setStatus) && gemmStatus.Success? && destroyStatus.Success?
  {
    var tester := new GemmTester(lib, stream, m, n, k, alpha, beta, transB);
    ghost var a, b, c := tester.A.Host(), tester.B.Host(), tester.C.Host();
    SourceOfWritten(stream.pending, 0);
    SourceOfWritten(stream.pending, 1);
    SourceOfWritten(stream.pending, 2);
    var opStatus := tester.DoOperation(createStatus, setStatus, gemmStatus, destroyStatus);
    if opStatus.Raised? {
      return false;
    }
    SynchronizeDownload(stream, tester.C.buf);
    if opStatus.value.Error? {
      return false;
    }
    GemmOfSeeds(transB, m, n, k, alpha, a, b, beta, c);
    var nMismatches := tester.Check();
    passed := nMismatches == 0;
  }

  /** One section of the GEMM test case as level3.cpp runs it: A is 100 x 150, B is
   *  150 x 50 (stored 50 x 150 when transB), alpha = 0.5, beta = 0.75. */
  method GemmTestSection(lib: Library, stream: HipStream, transB: bool,
                         createStatus: Status, setStatus: Status, gemmStatus: Status, destroyStatus: Status)
    returns (passed: bool)
    requires lib.Valid() && stream.Valid() && stream.Idle()
    modifies lib, stream
    ensures lib.Valid()
    ensures passed <==>
      Builds(stream.handle, createStatus, setStatus) && gemmStatus.Success? && destroyStatus.Success?
  {
    passed := RunSection(lib, stream, 100, 50, 150, 0.5, 0.75, transB, createStatus, setStatus, gemmStatus,
                         destroyStatus);
  }

  /** The GEMM test case: a default stream, then the section without and with transB
   *  (the single- and double-precision runs are the same on reals). */
  method GemmTestCase(lib: Library, createStatus: Status, gemmStatus: Status, destroyStatus: Status)
    returns (noTransPassed: bool, transPassed: bool)
    requires lib.Valid()
    modifies lib
    ensures noTransPassed <==> createStatus.Success? && gemmStatus.Success? && destroyStatus.Success?
    ensures transPassed <==> createStatus.Success? && gemmStatus.Success? && destroyStatus.Success?
  {
    var stream := new HipStream.Wrap(Null);
    noTransPassed := GemmTestSection(lib, stream, false, createStatus, Success, gemmStatus, destroyStatus);
    var stream2 := new HipStream.Wrap(Null);
    transPassed := GemmTestSection(lib, stream2, true, createStatus, Success, gemmStatus, destroyStatus);
  }
}

=== FILE: ixamax_tester.dfy ===
/** The I_AMAX tester (tests/include/HipBLAS/Level1/IXamaxTester.h): x holds generated
 *  values; the host scans for the first element of largest magnitude and expects the
 *  library's 1-based index to be one more than the host's 0-based one. */
module IXamaxTester {
  import opened Runtime
  import opened Hip
  import opened Views
  import opened HipTester
  import opened Extrema
  import opened Reference
  import opened Contexts
  import Vendor

  class IXamaxTester {
    const ctx: LibraryContext
    const stream: HipStream
    const n: nat
    const x: Vector
    var result: int

    ghost predicate Valid()
      reads this, ctx, ctx.lib, stream, x.buf
    {
      && ctx.Valid() && Vendor.Bound(ctx.lib, ctx.handle.id, stream) && x.Valid() && x.n == n
    }

    /** The constructor: x holds n elements at stride incx; result starts at -1. */
    constructor (ctx: LibraryContext, stream: HipStream, n: nat, incx: nat)
      requires ctx.Valid() && Vendor.Bound(ctx.lib, ctx.handle.id, stream) && incx >= 1
      ensures Valid() && this.ctx == ctx && this.stream == stream && this.n == n
      ensures x.stride == incx && result == -1
      ensures fresh(x.buf) && fresh(x.buf.hostData) && fresh(x.buf.devData)
    {
      this.ctx := ctx;
      this.stream := stream;
      this.n := n;
      var xv := NewVector(n, incx);
      x := xv;
      result := -1;
    }

    /** Init: the generated values are written one by one into the strided slots of x,
     *  queued to the device, and the stream drained. */
    method Init(xvals: seq<real>)
      requires Valid() && stream.Idle() && |xvals| == n
      modifies x.buf.hostData, x.buf.devData, stream
      ensures Valid() && stream.Idle() && result == old(result)
      ensures x.Items() == xvals && x.Device() == x.Host()
      ensures forall j | 0 <= j < x.buf.size && j % x.stride != 0 :: x.buf.hostData[j] == old(x.buf.hostData[j])
    {
      FillFrom(x, xvals);
      x.buf.CopyHostToDeviceAsync(stream);
      SynchronizeUpload(stream, x.buf);
    }

    /** DoOperation: I_AMAX on the device, its index returned into `result`, then the
     *  stream drained. */
    method DoOperation(status: Status) returns (o: Outcome)
      requires Valid()
      modifies this, ctx.lib, stream, stream.Targets()
      ensures Valid() && stream.Idle()
      ensures status.Success? ==>
        o == Done && result == IamaxRef(n, old(stream.After(x.buf.devData)), x.stride)
      ensures status.Error? ==> o == Threw(status.code) && result == old(result)
    {
      var st, index := Vendor.Iamax(ctx.lib, ctx.handle.id, stream, n, x.buf.devData, x.stride, status);
      if st.Error? {
        return Threw(st.code);
      }
      result := index;
      stream.Synchronize();
      o := Done;
    }

    /** Check: the host scan keeps the first index of largest |x[i]| (a later element
     *  replaces it only when strictly larger), and the library's answer must be that
     *  index plus one. The tolerance is not used. */
    method Check(relErrTolerance: real) returns (ok: bool)
      requires Valid() && n >= 1
      ensures ok <==> result == FirstMax(Magnitudes(x.Items())) + 1
      ensures ok <==> result == IamaxRef(n, x.Host(), x.stride)
    {
      ghost var s := Magnitudes(x.Items());
      var maxValueIdx := 0;
      var maxValue := Abs(x.El(maxValueIdx));
      var i := 0;
      while i < n
        invariant 0 <= i <= n && 0 <= maxValueIdx < n && maxValueIdx < i + 1
        invariant maxValue == s[maxValueIdx]
        invariant i >= 1 ==> maxValueIdx == FirstMax(s[..i])
      {
        var testVal := Abs(x.El(i));
        if testVal > maxValue {
          maxValue := testVal;
          maxValueIdx := i;
        }
        assert s[..i + 1][..i] == s[..i];
        i := i + 1;
      }
      assert s[..n] == s;
      ok := result == maxValueIdx + 1;
    }
  }

  /** One section of the I_AMAX test case, with the generated values as a parameter and
   *  tolerance 0. With a library that computes I_AMAX, the section passes exactly when
   *  the context is built, the call reports success and the context is destroyed.
   *  The tester's base constructor builds the library context on the stream, and its
   *  destructor destroys it at the end of the section; a failure of either fails the
   *  section. */
  method TestSection(lib: Library, stream: HipStream, createStatus: Status, setStatus: Status,
                     n: nat, incx: nat, xvals: seq<real>,
                     status: Status, destroyStatus: Status)
    returns (passed: bool)
    requires lib.Valid() && stream.Valid() && stream.Idle()
    requires n >= 1 && incx >= 1 && |xvals| == n
    modifies lib, stream
    ensures passed <==>
      Builds(stream.handle, createStatus, setStatus) && status.Success? && destroyStatus.Success?
  {
    var made := LibraryContext.Create(lib, stream, createStatus, setStatus);
    if made.Raised? {
      return false;
    }
    var ctx := made.value;
    var tester := new IXamaxTester(ctx, stream, n, incx);
    tester.Init(xvals);
    var o := tester.DoOperation(status);
    if o.Threw? {
      passed := false;
    } else {
      passed := tester.Check(0.0);
    }
    var gone := ctx.Destroy(destroyStatus);
    passed := passed && gone.Done?;
  }
}

=== FILE: ixamin_tester.dfy ===
/** The I_AMIN tester (tests/include/HipBLAS/Level1/IXaminTester.h): x holds generated
 *  values; the host scans for the first element of smallest magnitude and expects the
 *  library's 1-based index to be one more than the host's 0-based one. */
module IXaminTester {
  import opened Runtime
  import opened Hip
  import opened Views
  import opened HipTester
  import opened Extrema
  import opened Reference
  import opened Contexts
  import Vendor

  class IXaminTester {
    const ctx: LibraryContext
    const stream: HipStream
    const n: nat
    const x: Vector
    var result: int

    ghost predicate Valid()
      reads this, ctx, ctx.lib, stream, x.buf
    {
      && ctx.Valid() && Vendor.Bound(ctx.lib, ctx.handle.id, stream) && x.Valid() && x.n == n
    }

    /** The constructor: x holds n elements at stride incx; result starts at -1. */
    constructor (ctx: LibraryContext, stream: HipStream, n: nat, incx: nat)
      requires ctx.Valid() && Vendor.Bound(ctx.lib, ctx.handle.id, stream) && incx >= 1
      ensures Valid() && this.ctx == ctx && this.stream == stream && this.n == n
      ensures x.stride == incx && result == -1
      ensures fresh(x.buf) && fresh(x.buf.hostData) && fresh(x.buf.devData)
    {
      this.ctx := ctx;
      this.stream := stream;
      this.n := n;
      var xv := NewVector(n, incx);
      x := xv;
      result := -1;
    }

    /** Init: the generated values are written one by one into the strided slots of x,
     *  queued to the device, and the stream drained. */
    method Init(xvals: seq<real>)
      requires Valid() && stream.Idle() && |xvals| == n
      modifies x.buf.hostData, x.buf.devData, stream
      ensures Valid() && stream.Idle() && result == old(result)
      ensures x.Items() == xvals && x.Device() == x.Host()
      ensures forall j | 0 <= j < x.buf.size && j % x.stride != 0 :: x.buf.hostData[j] == old(x.buf.hostData[j])
    {
      FillFrom(x, xvals);
      x.buf.CopyHostToDeviceAsync(stream);
      SynchronizeUpload(stream, x.buf);
    }

    /** DoOperation: I_AMIN on the device, its index returned into `result`, then the
     *  stream drained. */
    method DoOperation(status: Status) returns (o: Outcome)
      requires Valid()
      modifies this, ctx.lib, stream, stream.Targets()
      ensures Valid() && stream.Idle()
      ensures status.Success? ==>
        o == Done && result == IaminRef(n, old(stream.After(x.buf.devData)), x.stride)
      ensures status.Error? ==> o == Threw(status.code) && result == old(result)
    {
      var st, index := Vendor.Iamin(ctx.lib, ctx.handle.id, stream, n, x.buf.devData, x.stride, status);
      if st.Error? {
        return Threw(st.code);
      }
      result := index;
      stream.Synchronize();
      o := Done;
    }

    /** Check: the host scan keeps the first index of smallest |x[i]| (a later element
     *  replaces it only when strictly smaller), and the library's answer must be that
     *  index plus one. */
    method Check() returns (ok: bool)
      requires Valid() && n >= 1
      ensures ok <==> result == FirstMin(Magnitudes(x.Items())) + 1
      ensures ok <==> result == IaminRef(n, x.Host(), x.stride)
    {
      ghost var s := Magnitudes(x.Items());
      var minValueIdx := 0;
      var minValue := Abs(x.El(minValueIdx));
      var i := 0;
      while i < n
        invariant 0 <= i <= n && 0 <= minValueIdx < n && minValueIdx < i + 1
        invariant minValue == s[minValueIdx]
        invariant i >= 1 ==> minValueIdx == FirstMin(s[..i])
      {
        var testVal := Abs(x.El(i));
        if testVal < minValue {
          minValue := testVal;
          minValueIdx := i;
        }
        assert s[..i + 1][..i] == s[..i];
        i := i + 1;
      }
      assert s[..n] == s;
      ok := result == minValueIdx + 1;
    }
  }

  /** One section of the I_AMIN test case, with the generated values as a parameter. With a
   *  library that computes I_AMIN, the section passes exactly when the context is built,
   *  the call reports success and the context is destroyed.
   *  The tester's base constructor builds the library context on the stream, and its
   *  destructor destroys it at the end of the section; a failure of either fails the
   *  section. */
  method TestSection(lib: Library, stream: HipStream, createStatus: Status, setStatus: Status,
                     n: nat, incx: nat, xvals: seq<real>,
                     status: Status, destroyStatus: Status)
    returns (passed: bool)
    requires lib.Valid() && stream.Valid() && stream.Idle()
    requires n >= 1 && incx >= 1 && |xvals| == n
    modifies lib, stream
    ensures passed <==>
      Builds(stream.handle, createStatus, setStatus) && status.Success? && destroyStatus.Success?
  {
    var made := LibraryContext.Create(lib, stream, createStatus, setStatus);
    if made.Raised? {
      return false;
    }
    var ctx := made.value;
    var tester := new IXaminTester(ctx, stream, n, incx);
    tester.Init(xvals);
    var o := tester.DoOperation(status);
    if o.Threw? {
      passed := false;
    } else {
      passed := tester.Check();
    }
    var gone := ctx.Destroy(destroyStatus);
    passed := passed && gone.Done?;
  }
}

=== FILE: level1_drivers.dfy ===
/** The stand-alone Level-1 drivers of the older harness (src/HipBLAS/Level-1/amax.cpp,
 *  amin.cpp, copy.cpp). Each one creates a library handle bound to the default stream,
 *  fills a host array with generated values, copies it to the device with a blocking
 *  copy, calls the library through a wrapper that always passes stride 1, and compares
 *  against a host computation; a failed handle destroy also fails the test. Raw host and
 *  device pointers are plain arrays here. */
module Level1Drivers {
  import opened Runtime
  import opened Hip
  import opened Views
  import opened HipTester
  import opened Extrema
  import opened Reference
  import Vendor

  /** hipMemcpy: a blocking copy of a whole region. */
  method Memcpy(dst: array<real>, src: array<real>)
    requires dst.Length == src.Length
    modifies dst
    ensures dst[..] == old(src[..])
  {
    ghost var s := src[..];
    forall i | 0 <= i < dst.Length {
      dst[i] := src[i];
    }
    assert dst[..] == s;
  }

  /** Reading all n elements with stride 1 gives the sequence itself. */
  lemma GatherUnitStride(s: seq<real>)
    ensures Gather(s, 1, |s|) == s
  {
  }

  /** A unit-stride COPY of a whole region makes the destination equal to the source. */
  lemma CopyWholeRegion(x: seq<real>, y: seq<real>)
    requires |x| == |y|
    ensures CopyRef(|x|, x, 1, y, 1) == x
  {
    var n := |x|;
    var r := CopyRef(n, x, 1, y, 1);
    GatherScatter(y, 1, n, Gather(x, 1, n));
    GatherUnitStride(x);
    GatherUnitStride(r);
  }

  // ---------------------------------------------------------------- host index scans

  /** std::distance(ptr, std::max_element(ptr, ptr + size)): the position of the first
   *  element of largest SIGNED value, and 0 for an empty range (max_element then returns
   *  the end iterator, which is also the start). */
  function FindIdxMaxElement(s: seq<real>): (id: nat)
    ensures |s| == 0 ==> id == 0
    ensures |s| >= 1 ==> id < |s|
    ensures forall j | 0 <= j < |s| :: s[j] <= s[id]
    ensures forall j | 0 <= j < id :: s[j] < s[id]
  {
    if |s| == 0 then 0 else FirstMax(s)
  }

  /** std::distance(ptr, std::min_element(ptr, ptr + size)). */
  function FindIdxMinElement(s: seq<real>): (id: nat)
    ensures |s| == 0 ==> id == 0
    ensures |s| >= 1 ==> id < |s|
    ensures forall j | 0 <= j < |s| :: s[id] <= s[j]
    ensures forall j | 0 <= j < id :: s[id] < s[j]
  {
    if |s| == 0 then 0 else FirstMin(s)
  }

  /** The host index the comparison evidently means: the 1-based position of the first
   *  element of largest magnitude, 0 for an empty range (the I_AMAX convention). */
  function ExpectedAmaxIndex(s: seq<real>): (id: nat)
    ensures |s| == 0 ==> id == 0
    ensures |s| >= 1 ==> 1 <= id <= |s|
    ensures |s| >= 1 ==> forall j | 0 <= j < |s| :: Abs(s[j]) <= Abs(s[id - 1])
    ensures |s| >= 1 ==> forall j | 0 <= j < id - 1 :: Abs(s[j]) < Abs(s[id - 1])
  {
    if |s| == 0 then 0 else FirstMax(Magnitudes(s)) + 1
  }

  /** The 1-based position of the first element of smallest magnitude. */
  function ExpectedAminIndex(s: seq<real>): (id: nat)
    ensures |s| == 0 ==> id == 0
    ensures |s| >= 1 ==> 1 <= id <= |s|
    ensures |s| >= 1 ==> forall j | 0 <= j < |s| :: Abs(s[id - 1]) <= Abs(s[j])
    ensures |s| >= 1 ==> forall j | 0 <= j < id - 1 :: Abs(s[id - 1]) < Abs(s[j])
  {
    if |s| == 0 then 0 else FirstMin(Magnitudes(s)) + 1
  }

  /** The corrected host indices are what a correct library returns for a whole
   *  unit-stride vector. */
  lemma ExpectedIndicesMatchLibrary(s: seq<real>)
    ensures ExpectedAmaxIndex(s) == IamaxRef(|s|, s, 1)
    ensures ExpectedAminIndex(s) == IaminRef(|s|, s, 1)
  {
    GatherUnitStride(s);
  }

  // ---------------------------------------------------------------- library wrappers

  /** hipblasamax: whatever its incx, the library is called with stride 1; `result` is
   *  written only when the call succeeds. */
  method HipblasAmax(lib: Library, h: nat, stream: HipStream, n: nat, x: array<real>, incx: int,
                     status: Status, resultIn: int)
    returns (result: int)
    requires Vendor.Bound(lib, h, stream) && stream.Idle()
    modifies lib, stream
    ensures Vendor.Bound(lib, h, stream) && stream.Idle()
    ensures lib.calls == old(lib.calls) + [IamaxCall(h, n, 1)]
    ensures lib.live == old(lib.live) && lib.streamOf == old(lib.streamOf)
    ensures result == if status.Success? then IamaxRef(n, x[..], 1) else resultIn
  {
    AfterUntargeted(stream, x);
    var st, index := Vendor.Iamax(lib, h, stream, n, x, 1, status);
    result := resultIn;
    if st.Success? {
      result := index;
    }
  }

  /** hipblasamin: the same, for I_AMIN. */
  method HipblasAmin(lib: Library, h: nat, stream: HipStream, n: nat, x: array<real>, incx: int,
                     status: Status, resultIn: int)
    returns (result: int)
    requires Vendor.Bound(lib, h, stream) && stream.Idle()
    modifies lib, stream
    ensures Vendor.Bound(lib, h, stream) && stream.Idle()
    ensures lib.calls == old(lib.calls) + [IaminCall(h, n, 1)]
    ensures lib.live == old(lib.live) && lib.streamOf == old(lib.streamOf)
    ensures result == if status.Success? then IaminRef(n, x[..], 1) else resultIn
  {
    AfterUntargeted(stream, x);
    var st, index := Vendor.Iamin(lib, h, stream, n, x, 1, status);
    result := resultIn;
    if st.Success? {
      result := index;
    }
  }

  /** hipblascopy: whatever its incx and incy, the library is called with stride 1. */
  method HipblasCopy(lib: Library, h: nat, stream: HipStream, n: nat, x: array<real>, incx: int,
                     y: array<real>, incy: int, status: Status)
    requires Vendor.Bound(lib, h, stream) && stream.Idle()
    modifies lib, stream, y
    ensures Vendor.Bound(lib, h, stream) && stream.Idle()
    ensures lib.calls == old(lib.calls) + [CopyCall(h, n, 1, 1)]
    ensures lib.live == old(lib.live) && lib.streamOf == old(lib.streamOf)
    ensures y[..] == if status.Success? then CopyRef(n, old(x[..]), 1, old(y[..]), 1) else old(y[..])
  {
    AfterUntargeted(stream, x);
    AfterUntargeted(stream, y);
    var _ := Vendor.Copy(lib, h, stream, n, x, 1, y, 1, status);
  }

  // ---------------------------------------------------------------- the tests

  /** The one new entry of the call log. */
  ghost predicate OneCallAdded(before: seq<Call>, after: seq<Call>)
  {
    |after| == |before| + 1 && after[..|before|] == before
  }

  /** The part of amax_test / amin_test between handle creation and destroy: allocate,
   *  upload the generated values, ask the library, and return its answer (0 when the
   *  call fails, the value `result` was initialised with). */
  method LibraryIndex(lib: Library, h: nat, xvals: seq<real>, largest: bool, status: Status)
    returns (result: int)
    requires lib.Valid() && h in lib.live && lib.streamOf[h] == Null
    modifies lib
    ensures lib.Valid() && h in lib.live && lib.streamOf == old(lib.streamOf)
    ensures lib.live == old(lib.live)
    ensures largest ==> lib.calls == old(lib.calls) + [IamaxCall(h, |xvals|, 1)]
    ensures !largest ==> lib.calls == old(lib.calls) + [IaminCall(h, |xvals|, 1)]
    ensures status.Error? ==> result == 0
    ensures status.Success? && largest ==> result == IamaxRef(|xvals|, xvals, 1)
    ensures status.Success? && !largest ==> result == IaminRef(|xvals|, xvals, 1)
  {
    var stream := new HipStream.Wrap(Null);
    var devPtr := new real[|xvals|];
    var hostPtr := new real[|xvals|](i requires 0 <= i < |xvals| => xvals[i]);
    assert hostPtr[..] == xvals;
    Memcpy(devPtr, hostPtr);
    if largest {
      result := HipblasAmax(lib, h, stream, |xvals|, devPtr, 1, status, 0);
    } else {
      result := HipblasAmin(lib, h, stream, |xvals|, devPtr, 1, status, 0);
    }
  }

  /** amax_test, as written: the host's 0-based position of the largest signed value is
   *  compared with the library's 1-based position of the largest magnitude. */
  method AmaxTest(lib: Library, xvals: seq<real>, createStatus: Status, amaxStatus: Status,
                  destroyStatus: Status)
    returns (testResult: bool)
    requires lib.Valid()
    modifies lib
    ensures lib.Valid()
    ensures createStatus.Error? ==> !testResult && lib.calls == old(lib.calls) && lib.live == old(lib.live)
    ensures createStatus.Success? ==> OneCallAdded(old(lib.calls), lib.calls)
    ensures createStatus.Success? ==>
      lib.calls[|old(lib.calls)|].IamaxCall? && lib.calls[|old(lib.calls)|].n == |xvals|
      && lib.calls[|old(lib.calls)|].incx == 1
    ensures createStatus.Success? && destroyStatus.Success? ==> lib.live == old(lib.live)
    ensures testResult <==>
      && createStatus.Success? && destroyStatus.Success?
      && FindIdxMaxElement(xvals) == (if amaxStatus.Success? then IamaxRef(|xvals|, xvals, 1) else 0)
  {
    var handle := lib.Create(createStatus);
    if handle.Raised? {
      return false;
    }
    var result := LibraryIndex(lib, handle.value, xvals, true, amaxStatus);
    var cpuIdx := FindIdxMaxElement(xvals);
    testResult := true;
    if cpuIdx != result {
      testResult := false;
    }
    var st := lib.Destroy(handle.value, destroyStatus);
    if st.Error? {
      testResult := false;
    }
  }

  /** amin_test, as written. */
  method AminTest(lib: Library, xvals: seq<real>, createStatus: Status, aminStatus: Status,
                  destroyStatus: Status)
    returns (testResult: bool)
    requires lib.Valid()
    modifies lib
    ensures lib.Valid()
    ensures createStatus.Error? ==> !testResult && lib.calls == old(lib.calls) && lib.live == old(lib.live)
    ensures createStatus.Success? ==> OneCallAdded(old(lib.calls), lib.calls)
    ensures createStatus.Success? ==>
      lib.calls[|old(lib.calls)|].IaminCall? && lib.calls[|old(lib.calls)|].n == |xvals|
      && lib.calls[|old(lib.calls)|].incx == 1
    ensures createStatus.Success? && destroyStatus.Success? ==> lib.live == old(lib.live)
    ensures testResult <==>
      && createStatus.Success? && destroyStatus.Success?
      && FindIdxMinElement(xvals) == (if aminStatus.Success? then IaminRef(|xvals|, xvals, 1) else 0)
  {
    var handle := lib.Create(createStatus);
    if handle.Raised? {
      return false;
    }
    var result := LibraryIndex(lib, handle.value, xvals, false, aminStatus);
    var cpuIdx := FindIdxMinElement(xvals);
    testResult := true;
    if cpuIdx != result {
      testResult := false;
    }
    var st := lib.Destroy(handle.value, destroyStatus);
    if st.Error? {
      testResult := false;
    }
  }

  /** The generated values are rand() * 1.0, never negative. On such data the host's
   *  0-based index and a correct library's 1-based index of the same element always
   *  differ, so amax_test fails a correct library on every non-empty input. */
  lemma {:induction false} AmaxRejectsCorrectLibrary(xvals: seq<real>)
    requires |xvals| >= 1 && forall i | 0 <= i < |xvals| :: xvals[i] >= 0.0
    ensures FindIdxMaxElement(xvals) + 1 == IamaxRef(|xvals|, xvals, 1)
    ensures FindIdxMaxElement(xvals) != IamaxRef(|xvals|, xvals, 1)
  {
    GatherUnitStride(xvals);
    ExtremaOfNonNegative(xvals);
  }

  lemma {:induction false} AminRejectsCorrectLibrary(xvals: seq<real>)
    requires |xvals| >= 1 && forall i | 0 <= i < |xvals| :: xvals[i] >= 0.0
    ensures FindIdxMinElement(xvals) + 1 == IaminRef(|xvals|, xvals, 1)
    ensures FindIdxMinElement(xvals) != IaminRef(|xvals|, xvals, 1)
  {
    GatherUnitStride(xvals);
    ExtremaOfNonNegative(xvals);
  }

  /** An illustration of the I_AMAX finding beyond the generated data, which is never
   *  negative: adding the missing +1 alone does not repair the comparison, because the
   *  signed scan can pick a different element. For [-2, 1] the host scan gives 1 (+1 = 2)
   *  while the element of largest magnitude is the first. The general statement is
   *  AmaxRejectsCorrectLibrary. */
  lemma SignedScanDiffers()
    ensures FindIdxMaxElement([-2.0, 1.0]) + 1 == 2
    ensures IamaxRef(2, [-2.0, 1.0], 1) == 1
  {
  }

  /** amax_test with the evidently intended comparison: the library's answer against the
   *  1-based position of the largest magnitude. A correct library then passes exactly
   *  when every call succeeds (or, for an empty range, whatever the call reports, since
   *  `result` keeps its initial 0). */
  method AmaxTestCorrected(lib: Library, xvals: seq<real>, createStatus: Status, amaxStatus: Status,
                           destroyStatus: Status)
    returns (testResult: bool)
    requires lib.Valid()
    modifies lib
    ensures lib.Valid()
    ensures createStatus.Success? ==> OneCallAdded(old(lib.calls), lib.calls)
    ensures testResult <==>
      createStatus.Success? && destroyStatus.Success? && (amaxStatus.Success? || |xvals| == 0)
  {
    var handle := lib.Create(createStatus);
    if handle.Raised? {
      return false;
    }
    var result := LibraryIndex(lib, handle.value, xvals, true, amaxStatus);
    var cpuIdx := ExpectedAmaxIndex(xvals);
    ExpectedIndicesMatchLibrary(xvals);
    testResult := cpuIdx == result;
    var st := lib.Destroy(handle.value, destroyStatus);
    if st.Error? {
      testResult := false;
    }
  }

  /** amin_test with the evidently intended comparison. */
  method AminTestCorrected(lib: Library, xvals: seq<real>, createStatus: Status, aminStatus: Status,
                           destroyStatus: Status)
    returns (testResult: bool)
    requires lib.Valid()
    modifies lib
    ensures lib.Valid()
    ensures createStatus.Success? ==> OneCallAdded(old(lib.calls), lib.calls)
    ensures testResult <==>
      createStatus.Success? && destroyStatus.Success? && (aminStatus.Success? || |xvals| == 0)
  {
    var handle := lib.Create(createStatus);
    if handle.Raised? {
      return false;
    }
    var result := LibraryIndex(lib, handle.value, xvals, false, aminStatus);
    var cpuIdx := ExpectedAminIndex(xvals);
    ExpectedIndicesMatchLibrary(xvals);
    testResult := cpuIdx == result;
    var st := lib.Destroy(handle.value, destroyStatus);
    if st.Error? {
      testResult := false;
    }
  }

  /** The comparison loop of copy_test: it stops at the first differing element, and
   *  reports equality exactly when a full scan would. */
  method SameElements(a: array<real>, b: array<real>) returns (same: bool)
    requires a.Length == b.Length
    ensures same <==> a[..] == b[..]
  {
    same := true;
    var i := 0;
    while i < a.Length
      invariant 0 <= i <= a.Length
      invariant forall j | 0 <= j < i :: a[j] == b[j]
    {
      if a[i] != b[i] {
        same := false;
        break;
      }
      i := i + 1;
    }
    if same {
      assert a[..] == b[..];
    }
  }

  /** copy_test. The device region for y comes from hipMalloc and is not initialised;
   *  its contents are the parameter `yGarbage`. The copy's status is not examined, so a
   *  failed copy leaves y as it was and the comparison then reads that. */
  method CopyTest(lib: Library, xvals: seq<real>, yGarbage: seq<real>, createStatus: Status,
                  copyStatus: Status, destroyStatus: Status)
    returns (testResult: bool)
    requires lib.Valid() && |yGarbage| == |xvals|
    modifies lib
    ensures lib.Valid()
    ensures createStatus.Error? ==> !testResult && lib.calls == old(lib.calls) && lib.live == old(lib.live)
    ensures createStatus.Success? ==> OneCallAdded(old(lib.calls), lib.calls)
    ensures createStatus.Success? ==>
      lib.calls[|old(lib.calls)|].CopyCall? && lib.calls[|old(lib.calls)|].n == |xvals|
      && lib.calls[|old(lib.calls)|].incx == 1 && lib.calls[|old(lib.calls)|].incy == 1
    ensures createStatus.Success? && destroyStatus.Success? ==> lib.live == old(lib.live)
    ensures testResult <==>
      createStatus.Success? && destroyStatus.Success? && (copyStatus.Success? || yGarbage == xvals)
  {
    var handle := lib.Create(createStatus);
    if handle.Raised? {
      return false;
    }
    var copied := CopyOnDevice(lib, handle.value, xvals, yGarbage, copyStatus);
    testResult := copied;
    var st := lib.Destroy(handle.value, destroyStatus);
    if st.Error? {
      testResult := false;
    }
  }

  /** The part of copy_test between handle creation and destroy. */
  method CopyOnDevice(lib: Library, h: nat, xvals: seq<real>, yGarbage: seq<real>, status: Status)
    returns (same: bool)
    requires lib.Valid() && h in lib.live && lib.streamOf[h] == Null && |yGarbage| == |xvals|
    modifies lib
    ensures lib.Valid() && h in lib.live && lib.streamOf == old(lib.streamOf)
    ensures lib.live == old(lib.live)
    ensures lib.calls == old(lib.calls) + [CopyCall(h, |xvals|, 1, 1)]
    ensures same <==> status.Success? || yGarbage == xvals
  {
    var n := |xvals|;
    var stream := new HipStream.Wrap(Null);
    var devX := new real[n];
    var devY := new real[n](i requires 0 <= i < n => yGarbage[i]);
    var host1 := new real[n](i requires 0 <= i < n => xvals[i]);
    assert host1[..] == xvals && devY[..] == yGarbage;
    Memcpy(devX, host1);
    HipblasCopy(lib, h, stream, n, devX, 1, devY, 1, status);
    if status.Success? {
      CopyWholeRegion(xvals, yGarbage);
    }
    var host2 := new real[n];
    Memcpy(host2, devY);
    same := SameElements(host2, host1);
  }
}

=== FILE: level3_gemm_tester.dfy ===
/** The Level-3 GEMM tester (tests/include/HipBLAS/Level3/GemmTester.h): A is m x k, B is
 *  k x n (stored n x k when transB), C is m x n, seeded as module GemmSeeds describes.
 *  Init queues the three uploads and returns without waiting; DoOperation runs GEMM,
 *  waits, then queues the copy of C back to the host and returns without waiting. Check
 *  reads the host copy of C.
 *  No test includes this header, and DoOperation names a context member (`blasContext`)
 *  that its base class does not have (the base's member is `libContext`), so the class
 *  is never instantiated as written. The model takes the call to be on the tester's
 *  library context. */
module Level3GemmTester {
  import opened Runtime
  import opened Hip
  import opened Views
  import opened HipTester
  import opened Reference
  import opened Contexts
  import opened GemmSeeds
  import Vendor

  /** A zero where a non-zero value is expected is off by exactly 100%. */
  lemma RelativeErrorOfZero(expVal: real)
    requires expVal != 0.0
    ensures RelativeError(expVal, 0.0) == 1.0
  {
    assert (0.0 - expVal) / expVal == -1.0;
  }

  class GemmTester {
    const ctx: LibraryContext
    const stream: HipStream
    const A: Matrix
    const B: Matrix
    const C: Matrix
    const alpha: real
    const beta: real
    const transB: bool

    ghost predicate Valid()
      reads this, ctx, ctx.lib, stream, A.buf, B.buf, C.buf
    {
      && ctx.Valid() && Vendor.Bound(ctx.lib, ctx.handle.id, stream)
      && A.Valid() && B.Valid() && C.Valid()
      && Apart(A.buf, B.buf) && Apart(A.buf, C.buf) && Apart(B.buf, C.buf)
    }

    /** The number of columns of op(B), which C must have. */
    function ExpNumCols(): nat
      reads this
    {
      if transB then B.nRows else B.nCols
    }

    /** The constructor: A is m x k, B is k x n or n x k, C is m x n, all zero. */
    constructor (ctx: LibraryContext, stream: HipStream, m: nat, n: nat, k: nat,
                 alpha: real, beta: real, transB: bool)
      requires ctx.Valid() && Vendor.Bound(ctx.lib, ctx.handle.id, stream)
      ensures Valid() && this.ctx == ctx && this.stream == stream
      ensures this.alpha == alpha && this.beta == beta && this.transB == transB
      ensures A.nRows == m && A.nCols == k && C.nRows == m && C.nCols == n
      ensures B.nRows == (if transB then n else k) && B.nCols == (if transB then k else n)
      ensures IsZeros(A.Host()) && IsZeros(B.Host()) && IsZeros(C.Host())
      ensures fresh(A.buf) && fresh(A.buf.hostData) && fresh(A.buf.devData)
      ensures fresh(B.buf) && fresh(B.buf.hostData) && fresh(B.buf.devData)
      ensures fresh(C.buf) && fresh(C.buf.hostData) && fresh(C.buf.devData)
    {
      this.ctx := ctx;
      this.stream := stream;
      this.alpha := alpha;
      this.beta := beta;
      this.transB := transB;
      var a := NewMatrix(m, k);
      var b := NewMatrix(if transB then n else k, if transB then k else n);
      var c := NewMatrix(m, n);
      A, B, C := a, b, c;
    }

    /** Init: ones in column 0 of A and in logical row 0 of op(B), r c at C(r, c); each
     *  matrix's upload is queued after it is written, and nothing waits for them. */
    method Init()
      requires Valid() && stream.Idle()
      requires A.nRows == 0 || A.nCols >= 1
      requires if transB then B.nRows == 0 || B.nCols >= 1 else B.nCols == 0 || B.nRows >= 1
      modifies A.buf.hostData, B.buf.hostData, C.buf.hostData, stream
      ensures Valid()
      ensures stream.pending == [Transfer(A.buf.hostData, A.buf.devData), Transfer(B.buf.hostData, B.buf.devData),
                                 Transfer(C.buf.hostData, C.buf.devData)]
      ensures forall r, c | 0 <= r < A.nRows && 0 <= c < A.nCols ::
        MatAt(A.Host(), A.nRows, r, c) == if c == 0 then 1.0 else MatAt(old(A.Host()), A.nRows, r, c)
      ensures forall r, c | 0 <= r < B.nRows && 0 <= c < B.nCols ::
        MatAt(B.Host(), B.nRows, r, c)
        == if InRowZeroOfOp(transB, r, c) then 1.0 else MatAt(old(B.Host()), B.nRows, r, c)
      ensures IsSeedC(C.Host(), C.nRows, C.nCols)
    {
      FillSeedA(A);
      ghost var a := A.Host();
      A.buf.CopyHostToDeviceAsync(stream);
      FillSeedB(B, transB);
      assert A.Host() == a;
      B.buf.CopyHostToDeviceAsync(stream);
      ghost var b := B.Host();
      FillSeedC(C);
      assert A.Host() == a && B.Host() == b;
      C.buf.CopyHostToDeviceAsync(stream);
    }

    /** DoOperation as written: GEMM with m = rows of A, n = columns of C, k = columns of
     *  A and each matrix's row count as its leading dimension; the stream is drained; then
     *  the copy of C to the host is queued and NOT waited for, so the host copy of C still
     *  holds what it held before. A failing GEMM raises its status. */
    method DoOperation(status: Status) returns (o: Outcome)
      requires Valid()
      modifies ctx.lib, stream, stream.Targets(), C.buf.devData
      ensures Valid()
      ensures ctx.lib.calls == old(ctx.lib.calls) +
        [GemmCall(ctx.handle.id, OpN, TransOp(transB), A.nRows, C.nCols, A.nCols, A.nRows, B.nRows, C.nRows)]
      ensures C.Host() == old(stream.After(C.buf.hostData))
      ensures status.Success? ==>
        && o == Done && stream.pending == [Transfer(C.buf.devData, C.buf.hostData)]
        && C.Device() == GemmRef(false, transB, A.nRows, C.nCols, A.nCols, alpha,
                                 old(stream.After(A.buf.devData)), A.nRows,
                                 old(stream.After(B.buf.devData)), B.nRows,
                                 beta, old(stream.After(C.buf.devData)), C.nRows)
      ensures status.Error? ==> o == Threw(status.code) && stream.Idle()
    {
      ghost var hostAfter := stream.After(C.buf.hostData);
      if C.buf.hostData !in stream.Targets() {
        forall i | 0 <= i < |stream.pending|
          ensures stream.pending[i].dst != C.buf.hostData
        {
          assert stream.pending[i].dst in stream.Targets();
        }
        SourceOfUnwritten(stream.pending, C.buf.hostData);
      }
      var st := Vendor.Gemm(ctx.lib, ctx.handle.id, stream, false, transB, A.nRows, C.nCols, A.nCols,
                            alpha, A.buf.devData, A.nRows, B.buf.devData, B.nRows, beta,
                            C.buf.devData, C.nRows, status);
      if st.Error? {
        return Threw(st.code);
      }
      stream.Synchronize();
      C.buf.CopyDeviceToHostAsync(stream);
      o := Done;
    }

    /** DoOperation with the missing wait added after the copy of C back to the host. */
    method DoOperationSynced(status: Status) returns (o: Outcome)
      requires Valid()
      modifies ctx.lib, stream, stream.Targets(), C.buf.devData, C.buf.hostData
      ensures Valid() && stream.Idle()
      ensures ctx.lib.calls == old(ctx.lib.calls) +
        [GemmCall(ctx.handle.id, OpN, TransOp(transB), A.nRows, C.nCols, A.nCols, A.nRows, B.nRows, C.nRows)]
      ensures status.Success? ==>
        && o == Done && C.Host() == C.Device()
        && C.Device() == GemmRef(false, transB, A.nRows, C.nCols, A.nCols, alpha,
                                 old(stream.After(A.buf.devData)), A.nRows,
                                 old(stream.After(B.buf.devData)), B.nRows,
                                 beta, old(stream.After(C.buf.devData)), C.nRows)
      ensures status.Error? ==> o == Threw(status.code)
    {
      var st := Vendor.Gemm(ctx.lib, ctx.handle.id, stream, false, transB, A.nRows, C.nCols, A.nCols,
                            alpha, A.buf.devData, A.nRows, B.buf.devData, B.nRows, beta,
                            C.buf.devData, C.nRows, status);
      if st.Error? {
        return Threw(st.code);
      }
      stream.Synchronize();
      C.buf.CopyDeviceToHostAsync(stream);
      ghost var q := stream.pending;
      stream.Synchronize();
      assert q[0].dst[..] == C.Host();
      o := Done;
    }

    /** Check: when C has the shape of op(A) op(B), every element's relative error against
     *  alpha + beta r c must be within the tolerance; otherwise every expected element
     *  counts as a mismatch, so the check passes only if there are none. */
    method Check(relErrTolerance: real) returns (ok: bool)
      requires Valid()
      ensures ok <==>
        if C.nRows == A.nRows && C.nCols == ExpNumCols()
        then forall r, c | 0 <= r < C.nRows && 0 <= c < C.nCols ::
               RelativeError(Expected(alpha, beta, r, c), C.El(r, c)) <= relErrTolerance
        else A.nRows * ExpNumCols() == 0
    {
      var nMismatches := 0;
      var expNumRows := A.nRows;
      var expNumCols := if transB then B.nRows else B.nCols;
      if C.nRows == expNumRows && C.nCols == expNumCols {
        var c := 0;
        while c < C.nCols
          invariant 0 <= c <= C.nCols
          invariant nMismatches == Mismatches(C.Host(), C.nRows, alpha, beta, relErrTolerance, c)
        {
          var r := 0;
          while r < C.nRows
            invariant 0 <= r <= C.nRows
            invariant nMismatches == Mismatches(C.Host(), C.nRows, alpha, beta, relErrTolerance, c)
                                     + ColumnMismatches(C.Host(), C.nRows, alpha, beta, relErrTolerance, c, r)
          {
            var expVal := Expected(alpha, beta, r, c);
            var compVal := C.El(r, c);
            var err := RelativeError(expVal, compVal);
            if err > relErrTolerance {
              nMismatches := nMismatches + 1;
            }
            r := r + 1;
          }
          c := c + 1;
        }
        MismatchesZeroIff(C.Host(), C.nRows, alpha, beta, relErrTolerance, C.nCols);
        assert forall r, c | 0 <= r < C.nRows && 0 <= c < C.nCols ::
          Mismatch(C.Host(), C.nRows, alpha, beta, relErrTolerance, r, c)
          <==> RelativeError(Expected(alpha, beta, r, c), C.El(r, c)) > relErrTolerance;
      } else {
        nMismatches := expNumRows * expNumCols;
      }
      ok := nMismatches == 0;
    }
  }

  /** Init, DoOperation and Check in a row on a fresh tester, as the class is written,
   *  with the library context built first and destroyed at the end. */
  method RunAsWritten(lib: Library, stream: HipStream, createStatus: Status, setStatus: Status,
                      m: nat, n: nat, k: nat, alpha: real, beta: real, transB: bool, tol: real,
                      status: Status, destroyStatus: Status)
    returns (passed: bool)
    requires lib.Valid() && stream.Valid() && stream.Idle()
    requires (m == 0 || k >= 1) && (n == 0 || k >= 1)
    modifies lib, stream
    ensures status.Success? && m >= 1 && n >= 1 && alpha != 0.0 && tol < 1.0 ==> !passed
  {
    var made := LibraryContext.Create(lib, stream, createStatus, setStatus);
    if made.Raised? {
      return false;
    }
    var ctx := made.value;
    passed := SectionAsWritten(ctx, stream, m, n, k, alpha, beta, transB, tol, status);
    var gone := ctx.Destroy(destroyStatus);
    passed := passed && gone.Done?;
  }

  /** The part of RunAsWritten on the built context. Nothing waits for the copy of C to
   *  the host, so on the GPU that copy races with Check's reads of the (pinned) host
   *  region. The model runs queued copies only when the stream is drained, which is the
   *  interleaving where Check reads C before the copy lands: it reads C as Init left it,
   *  r c, and with a non-zero alpha the element (0, 0) is off by 100%, so the check fails
   *  although the library computed the right answer. Other interleavings may read part
   *  or all of the result. */
  method SectionAsWritten(ctx: LibraryContext, stream: HipStream, m: nat, n: nat, k: nat,
                          alpha: real, beta: real, transB: bool, tol: real, status: Status)
    returns (passed: bool)
    requires ctx.Valid() && Vendor.Bound(ctx.lib, ctx.handle.id, stream) && stream.Idle()
    requires (m == 0 || k >= 1) && (n == 0 || k >= 1)
    modifies ctx.lib, stream
    ensures ctx.Valid()
    ensures status.Success? && m >= 1 && n >= 1 && alpha != 0.0 && tol < 1.0 ==> !passed
  {
    var tester := new GemmTester(ctx, stream, m, n, k, alpha, beta, transB);
    tester.Init();
    ghost var seededC := tester.C.Host();
    ghost var targets := stream.Targets();
    assert tester.C.buf.hostData !in targets;
    var o := tester.DoOperation(status);
    if o.Threw? {
      return false;
    }
    passed := tester.Check(tol);
    if m >= 1 && n >= 1 && alpha != 0.0 {
      assert tester.C.El(0, 0) == 0.0 by {
        SourceOfUnwritten(old(stream.pending), tester.C.buf.hostData);
        assert MatAt(seededC, m, 0, 0) == SeedC(0, 0);
      }
      RelativeErrorOfZero(Expected(alpha, beta, 0, 0));
    }
  }

  /** A GEMM of the seeds, read back exactly, is within any non-negative tolerance of
   *  alpha + beta r c everywhere. */
  lemma SeededGemmWithin(transB: bool, m: nat, n: nat, k: nat, alpha: real, a: seq<real>,
                         b: seq<real>, beta: real, c: seq<real>, out: seq<real>, tol: real)
    requires k >= 1 && tol >= 0.0
    requires IsSeedA(a, m, k) && IsSeedB(b, transB, if transB then n else k, if transB then k else n)
    requires |c| == m * n && IsSeedC(c, m, n)
    requires out == GemmRef(false, transB, m, n, k, alpha, a, m, b, if transB then n else k, beta, c, m)
    ensures forall r, cc | 0 <= r < m && 0 <= cc < n ::
      RelativeError(Expected(alpha, beta, r, cc), MatAt(out, m, r, cc)) <= tol
  {
    GemmOfSeeds(transB, m, n, k, alpha, a, b, beta, c);
    forall r, cc | 0 <= r < m && 0 <= cc < n
      ensures RelativeError(Expected(alpha, beta, r, cc), MatAt(out, m, r, cc)) <= tol
    {
      RelativeErrorZeroIff(Expected(alpha, beta, r, cc), MatAt(out, m, r, cc));
    }
  }

  /** The same run with the wait added after the copy back: with a library that computes
   *  GEMM the section passes exactly when the context is built, the call reports success
   *  and the context is destroyed. */
  method RunSynced(lib: Library, stream: HipStream, createStatus: Status, setStatus: Status,
                   m: nat, n: nat, k: nat, alpha: real, beta: real, transB: bool, tol: real,
                   status: Status, destroyStatus: Status)
    returns (passed: bool)
    requires lib.Valid() && stream.Valid() && stream.Idle()
    requires k >= 1 && tol >= 0.0
    modifies lib, stream
    ensures passed <==>
      Builds(stream.handle, createStatus, setStatus) && status.Success? && destroyStatus.Success?
  {
    var made := LibraryContext.Create(lib, stream, createStatus, setStatus);
    if made.Raised? {
      return false;
    }
    var ctx := made.value;
    passed := SectionSynced(ctx, stream, m, n, k, alpha, beta, transB, tol, status);
    var gone := ctx.Destroy(destroyStatus);
    passed := passed && gone.Done?;
  }

  /** The part of RunSynced on the built context: the check passes exactly when the call
   *  reports success. */
  method SectionSynced(ctx: LibraryContext, stream: HipStream, m: nat, n: nat, k: nat,
                       alpha: real, beta: real, transB: bool, tol: real, status: Status)
    returns (passed: bool)
    requires ctx.Valid() && Vendor.Bound(ctx.lib, ctx.handle.id, stream) && stream.Idle()
    requires k >= 1 && tol >= 0.0
    modifies ctx.lib, stream
    ensures ctx.Valid()
    ensures passed <==> status.Success?
  {
    var tester := new GemmTester(ctx, stream, m, n, k, alpha, beta, transB);
    tester.Init();
    ghost var a, b, c := tester.A.Host(), tester.B.Host(), tester.C.Host();
    assert IsSeedA(a, m, k) && IsSeedB(b, transB, tester.B.nRows, tester.B.nCols);
    SourceOfWritten(stream.pending, 0);
    SourceOfWritten(stream.pending, 1);
    SourceOfWritten(stream.pending, 2);
    var o := tester.DoOperationSynced(status);
    if o.Threw? {
      return false;
    }
    SeededGemmWithin(transB, m, n, k, alpha, a, b, beta, c, tester.C.Host(), tol);
    passed := tester.Check(tol);
  }
}

=== FILE: reference.dfy ===
/** The reference BLAS and LAPACK definitions of the routines the harness calls, on the
 *  contents of device regions. Vectors are strided (increment >= 1), matrices are
 *  column-major with a leading dimension. These definitions are what a correct library
 *  computes; the library itself is not part of this model. */
module Reference {
  import opened Views
  import opened Extrema

  /** `y` with v[i] written to logical element i (stride `inc`), for every i < n. */
  function Scatter(y: seq<real>, inc: nat, n: nat, v: seq<real>): (r: seq<real>)
    requires |v| >= n
    ensures |r| == |y|
    decreases n
  {
    if n == 0 then y
    else
      var r := Scatter(y, inc, n - 1, v);
      var j := VectorOffset(inc, n - 1);
      if j < |r| then r[j := v[n - 1]] else r
  }

  lemma {:induction false} ScatterAt(y: seq<real>, inc: nat, n: nat, v: seq<real>, i: nat)
    requires inc >= 1 && |v| >= n && i < n && VectorOffset(inc, i) < |y|
    ensures Scatter(y, inc, n, v)[VectorOffset(inc, i)] == v[i]
    decreases n
  {
    if i < n - 1 {
      ScatterAt(y, inc, n - 1, v, i);
      VectorOffsetStrict(inc, i, n - 1);
    }
  }

  /** Slots that are not among the first n logical elements are left alone. */
  lemma {:induction false} ScatterOther(y: seq<real>, inc: nat, n: nat, v: seq<real>, j: nat)
    requires |v| >= n && j < |y| && forall i | 0 <= i < n :: VectorOffset(inc, i) != j
    ensures Scatter(y, inc, n, v)[j] == y[j]
    decreases n
  {
    if n > 0 {
      ScatterOther(y, inc, n - 1, v, j);
    }
  }

  /** Reading the logical elements back gives what was written. */
  lemma GatherScatter(y: seq<real>, inc: nat, n: nat, v: seq<real>)
    requires inc >= 1 && |v| == n && n * inc <= |y|
    ensures Gather(Scatter(y, inc, n, v), inc, n) == v
  {
    forall i | 0 <= i < n
      ensures Gather(Scatter(y, inc, n, v), inc, n)[i] == v[i]
    {
      VectorOffsetInBounds(n, inc, i);
      ScatterAt(y, inc, n, v, i);
    }
  }

  /** AXPY: y[i] := alpha * x[i] + y[i]. */
  function AxpyRef(n: nat, alpha: real, x: seq<real>, incx: nat, y: seq<real>, incy: nat): seq<real>
  {
    var gx, gy := Gather(x, incx, n), Gather(y, incy, n);
    Scatter(y, incy, n, seq(n, i requires 0 <= i < n => alpha * gx[i] + gy[i]))
  }

  /** COPY: y[i] := x[i]. */
  function CopyRef(n: nat, x: seq<real>, incx: nat, y: seq<real>, incy: nat): seq<real>
  {
    Scatter(y, incy, n, Gather(x, incx, n))
  }

  /** The sum of the products of corresponding elements. */
  function Dot(a: seq<real>, b: seq<real>): real
    requires |a| == |b|
    decreases |a|
  {
    if |a| == 0 then 0.0 else Dot(a[..|a| - 1], b[..|b| - 1]) + a[|a| - 1] * b[|b| - 1]
  }

  /** DOT: the sum over i < n of x[i] * y[i]. */
  function DotRef(n: nat, x: seq<real>, incx: nat, y: seq<real>, incy: nat): real
  {
    Dot(Gather(x, incx, n), Gather(y, incy, n))
  }

  /** I_AMAX: the 1-based position of the first element of largest magnitude; 0 when n = 0. */
  function IamaxRef(n: nat, x: seq<real>, incx: nat): int
  {
    if n == 0 then 0 else FirstMax(Magnitudes(Gather(x, incx, n))) + 1
  }

  /** I_AMIN: the 1-based position of the first element of smallest magnitude; 0 when n = 0. */
  function IaminRef(n: nat, x: seq<real>, incx: nat): int
  {
    if n == 0 then 0 else FirstMin(Magnitudes(Gather(x, incx, n))) + 1
  }

  /** Element (r, c) of op(A): A itself, or its transpose. */
  function OpAt(a: seq<real>, ld: nat, trans: bool, r: nat, c: nat): real
  {
    if trans then MatAt(a, ld, c, r) else MatAt(a, ld, r, c)
  }

  /** The sum over k < len of op(A)(i, k) * xs[k]. */
  function GemvSum(trans: bool, a: seq<real>, lda: nat, xs: seq<real>, i: nat, len: nat): real
    requires len <= |xs|
    decreases len
  {
    if len == 0 then 0.0
    else GemvSum(trans, a, lda, xs, i, len - 1) + OpAt(a, lda, trans, i, len - 1) * xs[len - 1]
  }

  /** Element i of y after GEMV: alpha * (op(A) x)[i] + beta * y, with y the old y[i]. */
  function GemvValue(trans: bool, alpha: real, a: seq<real>, lda: nat, xs: seq<real>, xlen: nat,
                     beta: real, y: real, i: nat): real
    requires xlen <= |xs|
  {
    alpha * GemvSum(trans, a, lda, xs, i, xlen) + beta * y
  }

  /** GemvValue in terms of a known row sum. */
  lemma GemvValueOf(trans: bool, alpha: real, a: seq<real>, lda: nat, xs: seq<real>, xlen: nat,
                    beta: real, y: real, i: nat, t: real)
    requires xlen <= |xs| && GemvSum(trans, a, lda, xs, i, xlen) == t
    ensures GemvValue(trans, alpha, a, lda, xs, xlen, beta, y, i) == alpha * t + beta * y
  {
  }

  /** The new logical elements of y: alpha * (op(A) x)[i] + beta * ys[i]. */
  function GemvValues(trans: bool, alpha: real, a: seq<real>, lda: nat, xs: seq<real>, xlen: nat,
                      beta: real, ys: seq<real>): (v: seq<real>)
    requires xlen <= |xs|
    ensures |v| == |ys|
  {
    seq(|ys|, i requires 0 <= i < |ys| => GemvValue(trans, alpha, a, lda, xs, xlen, beta, ys[i], i))
  }

  /** GEMV: y := alpha * op(A) * x + beta * y, with A stored m x n. */
  function GemvRef(trans: bool, m: nat, n: nat, alpha: real, a: seq<real>, lda: nat,
                   x: seq<real>, incx: nat, beta: real, y: seq<real>, incy: nat): seq<real>
  {
    var xlen, ylen := if trans then m else n, if trans then n else m;
    Scatter(y, incy, ylen, GemvValues(trans, alpha, a, lda, Gather(x, incx, xlen), xlen, beta, Gather(y, incy, ylen)))
  }

  /** The logical elements of y after GEMV are alpha times op(A) times x, plus beta times
   *  the old ones. */
  lemma GemvRefItems(trans: bool, m: nat, n: nat, alpha: real, a: seq<real>, lda: nat,
                     x: seq<real>, incx: nat, beta: real, y: seq<real>, incy: nat, xlen: nat, ylen: nat)
    requires xlen == (if trans then m else n) && ylen == (if trans then n else m)
    requires incy >= 1 && ylen * incy <= |y|
    ensures Gather(GemvRef(trans, m, n, alpha, a, lda, x, incx, beta, y, incy), incy, ylen)
      == GemvValues(trans, alpha, a, lda, Gather(x, incx, xlen), xlen, beta, Gather(y, incy, ylen))
  {
    GatherScatter(y, incy, ylen, GemvValues(trans, alpha, a, lda, Gather(x, incx, xlen), xlen, beta, Gather(y, incy, ylen)));
  }

  /** The sum over l < len of op(A)(i, l) * op(B)(l, j). */
  function GemmSum(transA: bool, a: seq<real>, lda: nat, transB: bool, b: seq<real>, ldb: nat,
                   i: nat, j: nat, len: nat): real
    decreases len
  {
    if len == 0 then 0.0
    else GemmSum(transA, a, lda, transB, b, ldb, i, j, len - 1)
         + OpAt(a, lda, transA, i, len - 1) * OpAt(b, ldb, transB, len - 1, j)
  }

  /** GEMM at slot p of C: inside the m x n block the updated value, elsewhere unchanged. */
  function GemmSlot(transA: bool, transB: bool, m: nat, n: nat, k: nat, alpha: real,
                    a: seq<real>, lda: nat, b: seq<real>, ldb: nat, beta: real,
                    cp: real, ldc: nat, row: nat, col: nat): real
  {
    if row < m && col < n
    then alpha * GemmSum(transA, a, lda, transB, b, ldb, row, col, k) + beta * cp
    else cp
  }

  /** GemmSlot inside the block in terms of a known inner product. */
  lemma GemmSlotOf(transA: bool, transB: bool, m: nat, n: nat, k: nat, alpha: real,
                   a: seq<real>, lda: nat, b: seq<real>, ldb: nat, beta: real,
                   cp: real, ldc: nat, row: nat, col: nat, t: real)
    requires row < m && col < n && GemmSum(transA, a, lda, transB, b, ldb, row, col, k) == t
    ensures GemmSlot(transA, transB, m, n, k, alpha, a, lda, b, ldb, beta, cp, ldc, row, col) == alpha * t + beta * cp
  {
  }

  /** GEMM: C := alpha * op(A) * op(B) + beta * C on the m x n block of C; k is the inner
   *  dimension. */
  function GemmRef(transA: bool, transB: bool, m: nat, n: nat, k: nat, alpha: real,
                   a: seq<real>, lda: nat, b: seq<real>, ldb: nat, beta: real,
                   c: seq<real>, ldc: nat): (r: seq<real>)
    ensures |r| == |c|
  {
    if ldc == 0 then c
    else
      seq(|c|, p requires 0 <= p < |c| =>
        GemmSlot(transA, transB, m, n, k, alpha, a, lda, b, ldb, beta, c[p], ldc, p % ldc, p / ldc))
  }

  /** Inside the m x n block, element (i, j) of the result is alpha * (op(A) op(B))(i, j)
   *  + beta * C(i, j). */
  lemma GemmRefAt(transA: bool, transB: bool, m: nat, n: nat, k: nat, alpha: real,
                  a: seq<real>, lda: nat, b: seq<real>, ldb: nat, beta: real,
                  c: seq<real>, ldc: nat, i: nat, j: nat)
    requires i < m <= ldc && j < n && MatrixOffset(ldc, i, j) < |c|
    ensures MatAt(GemmRef(transA, transB, m, n, k, alpha, a, lda, b, ldb, beta, c, ldc), ldc, i, j)
         == GemmSlot(transA, transB, m, n, k, alpha, a, lda, b, ldb, beta, MatAt(c, ldc, i, j), ldc, i, j)
  {
    var p := MatrixOffset(ldc, i, j);
    MatrixOffsetDivMod(ldc, i, j);
    var r := GemmRef(transA, transB, m, n, k, alpha, a, lda, b, ldb, beta, c, ldc);
    assert r[p] == GemmSlot(transA, transB, m, n, k, alpha, a, lda, b, ldb, beta, c[p], ldc, i, j);
    assert MatAt(r, ldc, i, j) == r[p];
  }

  /** X solves A * X = B, for n x n A and n x nrhs X and B, all with leading dimension n. */
  ghost predicate Solves(n: nat, nrhs: nat, a: seq<real>, x: seq<real>, b: seq<real>)
  {
    forall r: nat, c: nat | r < n && c < nrhs :: GemmSum(false, a, n, false, x, n, r, c, n) == MatAt(b, n, r, c)
  }
}

=== FILE: runtime.dfy ===
/** The state of the HIP runtime and of the vendor libraries (hipBLAS, hipSOLVER)
 *  that the harness can observe: which native handles are live, which stream each
 *  library handle issues its work on, and the library calls the harness made.
 *  Every call takes the status code it returns as a parameter, because that code
 *  comes from outside the harness. */
module Runtime {

  /** A native handle: a stream (hipStream_t) or a library handle. `Null` is the
   *  null pointer; as a stream it names the default stream. */
  datatype Handle = Null | Ref(id: nat)

  /** The code a runtime or library call returns (hipError_t, hipblasStatus_t,
   *  hipsolverStatus_t). */
  datatype Status = Success | Error(code: int)

  /** What a harness operation that may raise an exception gives back: a value, or
   *  the code the exception carries. */
  datatype Result<T> = Ok(value: T) | Raised(code: int)

  /** The same for an operation without a value. `Terminated`: an exception left a
   *  destructor that may not throw, so std::terminate ends the process. */
  datatype Outcome = Done | Threw(code: int) | Terminated

  /** hipblasOperation_t, as far as the harness uses it. */
  datatype Operation = OpN | OpT

  function TransOp(trans: bool): Operation { if trans then OpT else OpN }

  /** The shape arguments of one library call, as the harness passed them. */
  datatype Call =
    | AxpyCall(handle: nat, n: nat, incx: nat, incy: nat)
    | DotCall(handle: nat, n: nat, incx: nat, incy: nat)
    | CopyCall(handle: nat, n: nat, incx: nat, incy: nat)
    | IamaxCall(handle: nat, n: nat, incx: nat)
    | IaminCall(handle: nat, n: nat, incx: nat)
    | GemvCall(handle: nat, trans: Operation, m: nat, n: nat, lda: nat, incx: nat, incy: nat)
    | GemmCall(handle: nat, transA: Operation, transB: Operation, m: nat, n: nat, k: nat,
               lda: nat, ldb: nat, ldc: nat)
    | GesvBufferSizeCall(handle: nat, n: nat, nrhs: nat, lda: nat, ldb: nat, ldx: nat)
    | GesvCall(handle: nat, n: nat, nrhs: nat, lda: nat, ldb: nat, ldx: nat, lwork: nat)

  /** The HIP runtime's table of streams created with hipStreamCreate. */
  class HipRuntime {
    var liveStreams: set<nat>
    var next: nat

    ghost predicate Valid()
      reads this
    {
      forall s | s in liveStreams :: s < next
    }

    constructor ()
      ensures Valid() && liveStreams == {}
    {
      liveStreams := {};
      next := 0;
    }

    /** hipStreamCreate: on success a stream that was not live before becomes live. */
    method StreamCreate(status: Status) returns (r: Result<nat>)
      requires Valid()
      modifies this
      ensures Valid()
      ensures status.Success? ==>
        r.Ok? && r.value !in old(liveStreams) && liveStreams == old(liveStreams) + {r.value}
      ensures status.Error? ==> r == Raised(status.code) && liveStreams == old(liveStreams)
    {
      if status.Error? {
        return Raised(status.code);
      }
      r := Ok(next);
      liveStreams := liveStreams + {next};
      next := next + 1;
    }

    /** hipStreamDestroy; destroying a stream that is not live is not allowed. */
    method StreamDestroy(id: nat, status: Status) returns (st: Status)
      requires Valid() && id in liveStreams
      modifies this
      ensures Valid() && st == status
      ensures status.Success? ==> liveStreams == old(liveStreams) - {id}
      ensures status.Error? ==> liveStreams == old(liveStreams)
    {
      st := status;
      if status.Success? {
        liveStreams := liveStreams - {id};
      }
    }
  }

  /** The handle table of one vendor library (hipBLAS or hipSOLVER), the stream each
   *  live handle is bound to, and the log of calls made through it. */
  class Library {
    var live: set<nat>
    var next: nat
    var streamOf: map<nat, Handle>
    var calls: seq<Call>

    ghost predicate Valid()
      reads this
    {
      live <= streamOf.Keys && forall h | h in live :: h < next
    }

    constructor ()
      ensures Valid() && live == {} && calls == []
    {
      live := {};
      next := 0;
      streamOf := map[];
      calls := [];
    }

    /** hipblasCreate / hipsolverCreate: a new handle, bound to the default stream. */
    method Create(status: Status) returns (r: Result<nat>)
      requires Valid()
      modifies this
      ensures Valid() && calls == old(calls)
      ensures status.Success? ==>
        && r.Ok? && r.value !in old(live)
        && live == old(live) + {r.value}
        && streamOf == old(streamOf)[r.value := Null]
      ensures status.Error? ==>
        r == Raised(status.code) && live == old(live) && streamOf == old(streamOf)
    {
      if status.Error? {
        return Raised(status.code);
      }
      r := Ok(next);
      live := live + {next};
      streamOf := streamOf[next := Null];
      next := next + 1;
    }

    /** hipblasSetStream / hipsolverSetStream: later work of `h` goes to stream `s`. */
    method SetStream(h: nat, s: Handle, status: Status) returns (st: Status)
      requires Valid() && h in live
      modifies this
      ensures Valid() && st == status && live == old(live) && calls == old(calls)
      ensures status.Success? ==> streamOf == old(streamOf)[h := s]
      ensures status.Error? ==> streamOf == old(streamOf)
    {
      st := status;
      if status.Success? {
        streamOf := streamOf[h := s];
      }
    }

    /** hipblasDestroy / hipsolverDestroy; destroying a handle that is not live is not allowed. */
    method Destroy(h: nat, status: Status) returns (st: Status)
      requires Valid() && h in live
      modifies this
      ensures Valid() && st == status && streamOf == old(streamOf) && calls == old(calls)
      ensures status.Success? ==> live == old(live) - {h}
      ensures status.Error? ==> live == old(live)
    {
      st := status;
      if status.Success? {
        live := live - {h};
      }
    }

    /** Appends one call to the log; used by the routines of module Vendor. */
    method Record(c: Call)
      modifies this
      ensures calls == old(calls) + [c]
      ensures live == old(live) && streamOf == old(streamOf) && next == old(next)
    {
      calls := calls + [c];
    }
  }
}

=== FILE: sgemm_tester.dfy ===
/** The GEMM testers of the older stand-alone drivers (src/HipBLAS/Common/SgemmTester.h,
 *  src/HipBLAS/Common/GemmExTester.h) and their hipBLAS variant
 *  (src/HipBLAS/Sgemm/Common/HipblasSgemmTester.h), on the self-owning matrices of
 *  module CommonMatrix. The operands are seeded as module GemmSeeds describes; a fourth
 *  matrix D is allocated but never written, and the check counts the elements of the
 *  output matrix (D when the library writes a separate output, else C) that differ from
 *  alpha + beta r c. GemmExTester differs from SgemmTester only in its element types,
 *  which are all real here, so one class stands for both. */
module SgemmTester {
  import opened Runtime
  import opened Hip
  import opened Views
  import opened Reference
  import opened Contexts
  import opened GemmSeeds
  import CommonMatrix
  import Vendor

  /** Writes one to every element of column 0 of the zero-filled A, which then holds
   *  the seed. */
  method WriteSeedA(a: CommonMatrix.Matrix)
    requires a.Valid() && (a.nRows == 0 || a.nCols >= 1) && IsZeros(a.Host())
    modifies a.hostData
    ensures a.Valid() && a.Device() == old(a.Device()) && IsSeedA(a.Host(), a.nRows, a.nCols)
  {
    var r := 0;
    while r < a.nRows
      invariant 0 <= r <= a.nRows && a.Valid() && a.Device() == old(a.Device())
      invariant forall r', c | 0 <= r' < a.nRows && 0 <= c < a.nCols ::
        MatAt(a.Host(), a.nRows, r', c) == if c == 0 && r' < r then 1.0 else MatAt(old(a.Host()), a.nRows, r', c)
    {
      ghost var before := a.Host();
      a.SetEl(r, 0, 1.0);
      forall r', c | 0 <= r' < a.nRows && 0 <= c < a.nCols && (r' != r || c != 0)
        ensures MatAt(a.Host(), a.nRows, r', c) == MatAt(before, a.nRows, r', c)
      {
        MatAtUpdateOther(before, a.nRows, r, 0, 1.0, r', c);
      }
      r := r + 1;
    }
    forall r, c | 0 <= r < a.nRows && 0 <= c < a.nCols
      ensures MatAt(a.Host(), a.nRows, r, c) == (if c == 0 then 1.0 else 0.0)
    {
      MatrixOffsetInBounds(a.nRows, a.nCols, r, c);
    }
  }

  /** Writes one to every element of logical row 0 of op(B) in the zero-filled B: B(c, 0)
   *  when B is stored transposed, B(0, c) otherwise. B then holds the seed. */
  method WriteSeedB(b: CommonMatrix.Matrix, transpose: bool)
    requires b.Valid() && IsZeros(b.Host())
    requires if transpose then b.nRows == 0 || b.nCols >= 1 else b.nCols == 0 || b.nRows >= 1
    modifies b.hostData
    ensures b.Valid() && b.Device() == old(b.Device()) && IsSeedB(b.Host(), transpose, b.nRows, b.nCols)
  {
    var len := if transpose then b.nRows else b.nCols;
    var c := 0;
    while c < len
      invariant 0 <= c <= len && b.Valid() && b.Device() == old(b.Device())
      invariant forall r', c' | 0 <= r' < b.nRows && 0 <= c' < b.nCols ::
        MatAt(b.Host(), b.nRows, r', c')
        == if InRowZeroOfOp(transpose, r', c') && (if transpose then r' else c') < c then 1.0
           else MatAt(old(b.Host()), b.nRows, r', c')
    {
      ghost var before := b.Host();
      var r0, c0 := if transpose then c else 0, if transpose then 0 else c;
      b.SetEl(r0, c0, 1.0);
      forall r', c' | 0 <= r' < b.nRows && 0 <= c' < b.nCols && (r' != r0 || c' != c0)
        ensures MatAt(b.Host(), b.nRows, r', c') == MatAt(before, b.nRows, r', c')
      {
        MatAtUpdateOther(before, b.nRows, r0, c0, 1.0, r', c');
      }
      c := c + 1;
    }
    forall r, c | 0 <= r < b.nRows && 0 <= c < b.nCols
      ensures MatAt(b.Host(), b.nRows, r, c) == (if InRowZeroOfOp(transpose, r, c) then 1.0 else 0.0)
    {
      MatrixOffsetInBounds(b.nRows, b.nCols, r, c);
    }
  }

  /** Writes r c to every element (r, c) of C, column by column. */
  method WriteSeedC(cm: CommonMatrix.Matrix)
    requires cm.Valid()
    modifies cm.hostData
    ensures cm.Valid() && cm.Device() == old(cm.Device()) && IsSeedC(cm.Host(), cm.nRows, cm.nCols)
  {
    var c := 0;
    while c < cm.nCols
      invariant 0 <= c <= cm.nCols && cm.Valid() && cm.Device() == old(cm.Device())
      invariant forall r', c' | 0 <= r' < cm.nRows && 0 <= c' < c :: MatAt(cm.Host(), cm.nRows, r', c') == SeedC(r', c')
    {
      var r := 0;
      while r < cm.nRows
        invariant 0 <= r <= cm.nRows && cm.Valid() && cm.Device() == old(cm.Device())
        invariant forall r', c' | 0 <= r' < cm.nRows && 0 <= c' < c :: MatAt(cm.Host(), cm.nRows, r', c') == SeedC(r', c')
        invariant forall r' | 0 <= r' < r :: MatAt(cm.Host(), cm.nRows, r', c) == SeedC(r', c)
      {
        ghost var before := cm.Host();
        cm.SetEl(r, c, SeedC(r, c));
        forall r', c' | 0 <= r' < cm.nRows && 0 <= c' < cm.nCols && (r' != r || c' != c)
          ensures MatAt(cm.Host(), cm.nRows, r', c') == MatAt(before, cm.nRows, r', c')
        {
          MatAtUpdateOther(before, cm.nRows, r, c, SeedC(r, c), r', c');
        }
        r := r + 1;
      }
      c := c + 1;
    }
  }

  class SgemmTester {
    const A: CommonMatrix.Matrix
    const B: CommonMatrix.Matrix
    const C: CommonMatrix.Matrix
    const D: CommonMatrix.Matrix
    const alpha: real
    const beta: real
    const stream: HipStream
    /** The Transpose template flag: B is stored transposed. */
    const transpose: bool
    /** UsesD() of the concrete tester: whether the library writes its result to D. */
    const usesD: bool

    ghost predicate Valid()
      reads this, A, B, C, D, stream
    {
      && stream.Valid() && A.Valid() && B.Valid() && C.Valid() && D.Valid()
      && C.nRows == A.nRows && D.nRows == A.nRows && D.nCols == C.nCols
      && B.nRows == (if transpose then C.nCols else A.nCols)
      && B.nCols == (if transpose then A.nCols else C.nCols)
      && CommonMatrix.Apart(A, B) && CommonMatrix.Apart(A, C) && CommonMatrix.Apart(A, D)
      && CommonMatrix.Apart(B, C) && CommonMatrix.Apart(B, D) && CommonMatrix.Apart(C, D)
    }

    /** The constructor: A is m x k, B is k x n (n x k when transposed), C and D are
     *  m x n; then InitMatrices seeds A, B and C and queues their uploads. D stays zero. */
    constructor (m: nat, n: nat, k: nat, alpha: real, beta: real, stream: HipStream,
                 transpose: bool, usesD: bool)
      requires stream.Valid() && stream.Idle() && (m == 0 || k >= 1) && (n == 0 || k >= 1)
      modifies stream
      ensures Valid() && this.stream == stream && this.alpha == alpha && this.beta == beta
      ensures this.transpose == transpose && this.usesD == usesD
      ensures A.nRows == m && A.nCols == k && C.nCols == n
      ensures stream.pending ==
        [Transfer(A.hostData, A.devData), Transfer(B.hostData, B.devData), Transfer(C.hostData, C.devData)]
      ensures IsSeedA(A.Host(), m, k) && IsSeedB(B.Host(), transpose, B.nRows, B.nCols)
      ensures IsSeedC(C.Host(), m, n) && IsZeros(D.Host()) && IsZeros(D.Device())
      ensures fresh(A) && fresh(A.hostData) && fresh(A.devData) && fresh(B) && fresh(B.hostData) && fresh(B.devData)
      ensures fresh(C) && fresh(C.hostData) && fresh(C.devData) && fresh(D) && fresh(D.hostData) && fresh(D.devData)
    {
      A := new CommonMatrix.Matrix(m, k);
      B := new CommonMatrix.Matrix(if transpose then n else k, if transpose then k else n);
      C := new CommonMatrix.Matrix(m, n);
      D := new CommonMatrix.Matrix(m, n);
      this.alpha := alpha;
      this.beta := beta;
      this.stream := stream;
      this.transpose := transpose;
      this.usesD := usesD;
      new;
      InitMatrices();
    }

    /** InitMatrices: ones in column 0 of A and in logical row 0 of op(B), r c at C(r, c),
     *  each matrix's upload queued right after it is written; D is not touched. */
    method InitMatrices()
      requires Valid() && IsZeros(A.Host()) && IsZeros(B.Host())
      requires A.nRows == 0 || A.nCols >= 1
      requires if transpose then B.nRows == 0 || B.nCols >= 1 else B.nCols == 0 || B.nRows >= 1
      requires stream.Idle()
      modifies A.hostData, B.hostData, C.hostData, stream
      ensures Valid()
      ensures stream.pending ==
        [Transfer(A.hostData, A.devData), Transfer(B.hostData, B.devData), Transfer(C.hostData, C.devData)]
      ensures IsSeedA(A.Host(), A.nRows, A.nCols) && IsSeedB(B.Host(), transpose, B.nRows, B.nCols)
      ensures IsSeedC(C.Host(), C.nRows, C.nCols)
    {
      SeedA();
      ghost var a := A.Host();
      SeedB();
      ghost var b := B.Host();
      SeedC();
      assert A.Host() == a && B.Host() == b;
    }

    /** The first step of InitMatrices: A is seeded and its upload queued. */
    method SeedA()
      requires Valid() && stream.Idle() && IsZeros(A.Host()) && (A.nRows == 0 || A.nCols >= 1)
      modifies A.hostData, stream
      ensures Valid() && IsSeedA(A.Host(), A.nRows, A.nCols)
      ensures stream.pending == [Transfer(A.hostData, A.devData)]
    {
      WriteSeedA(A);
      A.CopyHostToDeviceAsync(stream);
    }

    /** The second step of InitMatrices: B is seeded and its upload queued behind A's. */
    method SeedB()
      requires Valid() && stream.pending == [Transfer(A.hostData, A.devData)] && IsZeros(B.Host())
      requires if transpose then B.nRows == 0 || B.nCols >= 1 else B.nCols == 0 || B.nRows >= 1
      modifies B.hostData, stream
      ensures Valid() && IsSeedB(B.Host(), transpose, B.nRows, B.nCols)
      ensures stream.pending == [Transfer(A.hostData, A.devData), Transfer(B.hostData, B.devData)]
    {
      WriteSeedB(B, transpose);
      B.CopyHostToDeviceAsync(stream);
    }

    /** The last step of InitMatrices: C is seeded and its upload queued behind B's. */
    method SeedC()
      requires Valid() && stream.pending == [Transfer(A.hostData, A.devData), Transfer(B.hostData, B.devData)]
      modifies C.hostData, stream
      ensures Valid() && IsSeedC(C.Host(), C.nRows, C.nCols)
      ensures stream.pending ==
        [Transfer(A.hostData, A.devData), Transfer(B.hostData, B.devData), Transfer(C.hostData, C.devData)]
    {
      WriteSeedC(C);
      C.CopyHostToDeviceAsync(stream);
    }

    /** The matrix CheckComputation inspects: D when the library writes a separate output,
     *  C otherwise. */
    function Output(): (out: CommonMatrix.Matrix)
      reads this
      ensures out == (if usesD then D else C)
    {
      if usesD then D else C
    }

    /** CheckComputation: the number of elements of the output matrix that differ from
     *  alpha + beta r c; it is zero exactly when every element matches. No matrix
     *  changes. */
    method CheckComputation() returns (nMismatches: nat)
      requires Valid()
      ensures nMismatches == Mismatches(Output().Host(), C.nRows, alpha, beta, 0.0, C.nCols)
      ensures nMismatches <= C.nRows * C.nCols
      ensures nMismatches == 0 <==>
        forall r, c | 0 <= r < C.nRows && 0 <= c < C.nCols :: Output().El(r, c) == Expected(alpha, beta, r, c)
    {
      var out := if usesD then D else C;
      nMismatches := CountExact(out.Host(), out.nRows, out.nCols, alpha, beta);
      MismatchesZeroIff(out.Host(), out.nRows, alpha, beta, 0.0, out.nCols);
      MismatchesBound(out.Host(), out.nRows, alpha, beta, 0.0, out.nCols);
      forall r, c | 0 <= r < C.nRows && 0 <= c < C.nCols
        ensures Mismatch(out.Host(), out.nRows, alpha, beta, 0.0, r, c) <==> out.El(r, c) != Expected(alpha, beta, r, c)
      {
        MismatchExact(out.Host(), out.nRows, alpha, beta, r, c);
      }
    }

    /** DoSgemm of the hipBLAS tester: a library context is built and bound to the
     *  tester's stream (its failures raise), SGEMM is called with A untransposed, B
     *  transposed exactly when the tester is, m = rows of A, n = columns of C, k = columns
     *  of A and each matrix's row count as its leading dimension; a failing call raises;
     *  otherwise the stream is drained and the copy of C back to the host is queued. The
     *  context is destroyed on the way out either way. Its destructor may not throw, so a
     *  failing destroy, whether on the normal way out or while the SGEMM error unwinds,
     *  terminates the process. */
    method DoSgemm(lib: Library, createStatus: Status, setStatus: Status, gemmStatus: Status,
                   destroyStatus: Status)
      returns (o: Outcome)
      requires Valid() && lib.Valid() && stream.Idle()
      modifies lib, stream, C.devData
      ensures Valid() && lib.Valid()
      ensures createStatus.Error? ==>
        o == Threw(createStatus.code) && C.Device() == old(C.Device()) && unchanged(stream)
      ensures createStatus.Success? && setStatus.Error? ==>
        o == Threw(setStatus.code) && C.Device() == old(C.Device()) && unchanged(stream)
      ensures createStatus.Success? && setStatus.Success? ==>
        && |lib.calls| == |old(lib.calls)| + 1 && lib.calls[..|old(lib.calls)|] == old(lib.calls)
        && lib.calls[|old(lib.calls)|]
           == GemmCall(lib.calls[|old(lib.calls)|].handle, OpN, TransOp(transpose),
                       A.nRows, C.nCols, A.nCols, A.nRows, B.nRows, C.nRows)
        && (destroyStatus.Error? ==> o == Terminated)
        && (destroyStatus.Success? ==> lib.live == old(lib.live))
        && (gemmStatus.Error? ==> C.Device() == old(C.Device()))
        && (gemmStatus.Error? && destroyStatus.Success? ==> o == Threw(gemmStatus.code))
        && (gemmStatus.Success? ==>
              && stream.pending == [Transfer(C.devData, C.hostData)]
              && C.Device() == GemmRef(false, transpose, A.nRows, C.nCols, A.nCols, alpha,
                                       A.Device(), A.nRows, B.Device(), B.nRows,
                                       beta, old(C.Device()), C.nRows))
        && (gemmStatus.Success? && destroyStatus.Success? ==> o == Done)
      ensures A.Device() == old(A.Device()) && B.Device() == old(B.Device())
    {
      var made := LibraryContext.CreateBound(lib, stream, createStatus, setStatus);
      if made.Raised? {
        return Threw(made.code);
      }
      var ctx := made.value;
      o := SgemmOnDevice(lib, ctx.handle.id, gemmStatus);
      ghost var device := C.Device();
      var gone := ctx.Destroy(destroyStatus);
      assert C.Device() == device;
      if gone.Threw? {
        o := Terminated;
      }
    }

    /** The body of DoSgemm once the context exists, on handle `h`. */
    method SgemmOnDevice(lib: Library, h: nat, gemmStatus: Status) returns (o: Outcome)
      requires Valid() && Vendor.Bound(lib, h, stream) && stream.Idle()
      modifies lib, stream, C.devData
      ensures Valid() && Vendor.Bound(lib, h, stream)
      ensures lib.live == old(lib.live) && lib.streamOf == old(lib.streamOf)
      ensures lib.calls == old(lib.calls) +
        [GemmCall(h, OpN, TransOp(transpose), A.nRows, C.nCols, A.nCols, A.nRows, B.nRows, C.nRows)]
      ensures gemmStatus.Error? ==> o == Threw(gemmStatus.code) && C.Device() == old(C.Device())
      ensures gemmStatus.Success? ==>
        && o == Done && stream.pending == [Transfer(C.devData, C.hostData)]
        && C.Device() == GemmRef(false, transpose, A.nRows, C.nCols, A.nCols, alpha,
                                 A.Device(), A.nRows, B.Device(), B.nRows,
                                 beta, old(C.Device()), C.nRows)
    {
      AfterUntargeted(stream, A.devData);
      AfterUntargeted(stream, B.devData);
      AfterUntargeted(stream, C.devData);
      var st := Vendor.Gemm(lib, h, stream, false, transpose, A.nRows, C.nCols, A.nCols,
                            alpha, A.devData, A.nRows, B.devData, B.nRows, beta,
                            C.devData, C.nRows, gemmStatus);
      if st.Error? {
        return Threw(st.code);
      }
      stream.Synchronize();
      C.CopyDeviceToHostAsync(stream);
      o := Done;
    }
  }

  /** The hipBLAS tester: an SgemmTester whose UsesD() is false, so C is checked. */
  method NewHipblasSgemmTester(m: nat, n: nat, k: nat, alpha: real, beta: real,
                               stream: HipStream, transpose: bool)
    returns (t: SgemmTester)
    requires stream.Valid() && stream.Idle() && (m == 0 || k >= 1) && (n == 0 || k >= 1)
    modifies stream
    ensures t.Valid() && !t.usesD && t.Output() == t.C && fresh(t) && t.stream == stream
    ensures t.alpha == alpha && t.beta == beta && t.transpose == transpose
    ensures t.A.nRows == m && t.A.nCols == k && t.C.nCols == n
    ensures stream.pending ==
      [Transfer(t.A.hostData, t.A.devData), Transfer(t.B.hostData, t.B.devData), Transfer(t.C.hostData, t.C.devData)]
    ensures IsSeedA(t.A.Host(), m, k) && IsSeedB(t.B.Host(), transpose, t.B.nRows, t.B.nCols)
    ensures IsSeedC(t.C.Host(), m, n)
    ensures fresh(t.A.devData) && fresh(t.B.devData) && fresh(t.C.devData) && fresh(t.C.hostData)
  {
    t := new SgemmTester(m, n, k, alpha, beta, stream, transpose, false);
  }

  /** Draining a stream that holds exactly the three uploads InitMatrices queued. */
  method WaitForUploads(t: SgemmTester)
    requires t.Valid()
    requires t.stream.pending ==
      [Transfer(t.A.hostData, t.A.devData), Transfer(t.B.hostData, t.B.devData), Transfer(t.C.hostData, t.C.devData)]
    modifies t.stream, t.A.devData, t.B.devData, t.C.devData
    ensures t.Valid() && t.stream.Idle()
    ensures t.A.Device() == t.A.Host() && t.B.Device() == t.B.Host() && t.C.Device() == t.C.Host()
  {
    ghost var q := t.stream.pending;
    assert t.A.hostData !in t.stream.Targets() && t.B.hostData !in t.stream.Targets();
    assert t.C.hostData !in t.stream.Targets();
    t.stream.Synchronize();
    assert q[0].dst[..] == q[0].src[..] && q[1].dst[..] == q[1].src[..] && q[2].dst[..] == q[2].src[..];
  }

  /** Draining a stream that holds exactly the download of C that DoSgemm queued. */
  method WaitForResult(t: SgemmTester)
    requires t.Valid() && t.stream.pending == [Transfer(t.C.devData, t.C.hostData)]
    modifies t.stream, t.C.hostData
    ensures t.Valid() && t.stream.Idle() && t.C.Host() == t.C.Device() && t.C.Device() == old(t.C.Device())
  {
    ghost var q := t.stream.pending;
    assert t.C.devData !in t.stream.Targets();
    t.stream.Synchronize();
    assert q[0].dst[..] == q[0].src[..];
  }

  /** How a driver run ends: the exit code main returns, or an abort by std::terminate. */
  datatype Exit = Returned(code: int) | Aborted

  /** The run of the hipBLAS SGEMM driver on an m x n x k problem, after its command line
   *  is read: build the tester on a new stream, wait for the uploads, run DoSgemm, wait
   *  again and count the mismatches. Any raised error gives exit code 1; otherwise the
   *  exit code is 0 whatever the count, which is only printed. A failing destroy of the
   *  context aborts the run. With a library that computes GEMM and k >= 1, the count
   *  is 0. */
  method RunHipblasSgemm(lib: Library, stream: HipStream, m: nat, n: nat, k: nat,
                         alpha: real, beta: real, transpose: bool,
                         createStatus: Status, setStatus: Status, gemmStatus: Status,
                         destroyStatus: Status)
    returns (exit: Exit, nMismatches: nat)
    requires lib.Valid() && stream.Valid() && stream.Idle() && (m == 0 || k >= 1) && (n == 0 || k >= 1)
    modifies lib, stream
    ensures exit == Returned(0) <==>
      createStatus.Success? && setStatus.Success? && gemmStatus.Success? && destroyStatus.Success?
    ensures exit == Aborted <==> createStatus.Success? && setStatus.Success? && destroyStatus.Error?
    ensures exit.Returned? ==> exit.code == 0 || exit.code == 1
    ensures exit == Returned(0) && k >= 1 ==> nMismatches == 0
  {
    var t := NewHipblasSgemmTester(m, n, k, alpha, beta, stream, transpose);
    WaitForUploads(t);
    ghost var c0 := t.C.Host();
    var o := t.DoSgemm(lib, createStatus, setStatus, gemmStatus, destroyStatus);
    if o.Terminated? {
      return Aborted, 0;
    }
    if o.Threw? {
      return Returned(1), 0;
    }
    nMismatches := CheckAfterWait(t, c0);
    exit := Returned(0);
  }

  /** The end of the driver's run once DoSgemm has succeeded: wait for the copy of C and
   *  count the mismatches, which are none when the seeded GEMM was computed. */
  method CheckAfterWait(t: SgemmTester, ghost c0: seq<real>) returns (nMismatches: nat)
    requires t.Valid() && !t.usesD && t.stream.pending == [Transfer(t.C.devData, t.C.hostData)]
    requires IsSeedA(t.A.Device(), t.A.nRows, t.A.nCols)
    requires IsSeedB(t.B.Device(), t.transpose, t.B.nRows, t.B.nCols)
    requires |c0| == t.C.nRows * t.C.nCols && IsSeedC(c0, t.C.nRows, t.C.nCols)
    requires t.C.Device() == GemmRef(false, t.transpose, t.A.nRows, t.C.nCols, t.A.nCols, t.alpha,
                                     t.A.Device(), t.A.nRows, t.B.Device(), t.B.nRows,
                                     t.beta, c0, t.C.nRows)
    modifies t.stream, t.C.hostData
    ensures t.A.nCols >= 1 ==> nMismatches == 0
  {
    WaitForResult(t);
    nMismatches := t.CheckComputation();
    if t.A.nCols >= 1 {
      GemmOfSeeds(t.transpose, t.A.nRows, t.C.nCols, t.A.nCols, t.alpha, t.A.Device(), t.B.Device(), t.beta, c0);
    }
  }
}

=== FILE: vendor.dfy ===
/** The vendor routines the testers call (hipBLAS level 1-3, hipSOLVER GESV), as a
 *  correct library performs them: the call is queued behind the work already on the
 *  handle's stream, so it sees every earlier copy, and it writes the reference result
 *  (module Reference) into the device regions it was given. The status each call
 *  returns is a parameter; on an error status nothing is written. */
module Vendor {
  import opened Runtime
  import opened Hip
  import opened Views
  import opened Reference

  /** `h` is a live handle of `lib` whose work goes to `stream`. */
  ghost predicate Bound(lib: Library, h: nat, stream: HipStream)
    reads lib, stream
  {
    lib.Valid() && h in lib.live && lib.streamOf[h] == stream.handle && stream.Valid()
  }

  /** Logs the call and runs everything queued before it. Every region in `ins` then
   *  holds what it was going to hold once the queue had drained. */
  method Issue(lib: Library, h: nat, stream: HipStream, c: Call, ins: set<array<real>>)
    requires Bound(lib, h, stream)
    modifies lib, stream, stream.Targets()
    ensures Bound(lib, h, stream) && stream.Idle()
    ensures lib.calls == old(lib.calls) + [c] && lib.live == old(lib.live) && lib.streamOf == old(lib.streamOf)
    ensures forall a | a in old(stream.Targets()) :: a[..] == old(stream.After(a))
    ensures forall a | a in ins :: a[..] == old(stream.After(a))
  {
    forall a | a in ins && a !in stream.Targets()
      ensures stream.After(a) == a[..]
    {
      forall k | 0 <= k < |stream.pending|
        ensures stream.pending[k].dst != a
      {
        assert stream.pending[k].dst in stream.Targets();
      }
      SourceOfUnwritten(stream.pending, a);
    }
    stream.Synchronize();
    lib.Record(c);
  }

  /** Writes `r` over the whole of region `y`. */
  method Store(y: array<real>, r: seq<real>)
    requires |r| == y.Length
    modifies y
    ensures y[..] == r
  {
    forall k | 0 <= k < y.Length {
      y[k] := r[k];
    }
  }

  /** hipblasSaxpy / hipblasDaxpy, alpha read from device region `alpha`. */
  method Axpy(lib: Library, h: nat, stream: HipStream, n: nat, alpha: array<real>,
              x: array<real>, incx: nat, y: array<real>, incy: nat, status: Status)
    returns (st: Status)
    requires Bound(lib, h, stream)
    modifies lib, stream, stream.Targets(), y
    ensures Bound(lib, h, stream) && stream.Idle() && st == status
    ensures lib.calls == old(lib.calls) + [AxpyCall(h, n, incx, incy)]
    ensures lib.live == old(lib.live) && lib.streamOf == old(lib.streamOf)
    ensures forall a | a in old(stream.Targets()) && a != y :: a[..] == old(stream.After(a))
    ensures status.Success? ==>
      y[..] == AxpyRef(n, At(old(stream.After(alpha)), 0), old(stream.After(x)), incx, old(stream.After(y)), incy)
    ensures status.Error? ==> y[..] == old(stream.After(y))
  {
    Issue(lib, h, stream, AxpyCall(h, n, incx, incy), {alpha, x, y});
    if status.Success? {
      Store(y, AxpyRef(n, At(alpha[..], 0), x[..], incx, y[..], incy));
    }
    st := status;
  }

  /** hipblasScopy / hipblasDcopy. */
  method Copy(lib: Library, h: nat, stream: HipStream, n: nat,
              x: array<real>, incx: nat, y: array<real>, incy: nat, status: Status)
    returns (st: Status)
    requires Bound(lib, h, stream)
    modifies lib, stream, stream.Targets(), y
    ensures Bound(lib, h, stream) && stream.Idle() && st == status
    ensures lib.calls == old(lib.calls) + [CopyCall(h, n, incx, incy)]
    ensures lib.live == old(lib.live) && lib.streamOf == old(lib.streamOf)
    ensures forall a | a in old(stream.Targets()) && a != y :: a[..] == old(stream.After(a))
    ensures status.Success? ==> y[..] == CopyRef(n, old(stream.After(x)), incx, old(stream.After(y)), incy)
    ensures status.Error? ==> y[..] == old(stream.After(y))
  {
    Issue(lib, h, stream, CopyCall(h, n, incx, incy), {x, y});
    if status.Success? {
      Store(y, CopyRef(n, x[..], incx, y[..], incy));
    }
    st := status;
  }

  /** hipblasSdot / hipblasDdot, the result written to element 0 of device region `result`. */
  method Dot(lib: Library, h: nat, stream: HipStream, n: nat,
             x: array<real>, incx: nat, y: array<real>, incy: nat, result: array<real>, status: Status)
    returns (st: Status)
    requires Bound(lib, h, stream) && result.Length >= 1
    modifies lib, stream, stream.Targets(), result
    ensures Bound(lib, h, stream) && stream.Idle() && st == status
    ensures lib.calls == old(lib.calls) + [DotCall(h, n, incx, incy)]
    ensures lib.live == old(lib.live) && lib.streamOf == old(lib.streamOf)
    ensures forall a | a in old(stream.Targets()) && a != result :: a[..] == old(stream.After(a))
    ensures status.Success? ==>
      result[..] == old(stream.After(result))[0 := DotRef(n, old(stream.After(x)), incx, old(stream.After(y)), incy)]
    ensures status.Error? ==> result[..] == old(stream.After(result))
  {
    Issue(lib, h, stream, DotCall(h, n, incx, incy), {x, y, result});
    if status.Success? {
      result[0] := DotRef(n, x[..], incx, y[..], incy);
    }
    st := status;
  }

  /** hipblasIsamax / hipblasIdamax: the 1-based index is returned to a host integer. */
  method Iamax(lib: Library, h: nat, stream: HipStream, n: nat, x: array<real>, incx: nat, status: Status)
    returns (st: Status, index: int)
    requires Bound(lib, h, stream)
    modifies lib, stream, stream.Targets()
    ensures Bound(lib, h, stream) && stream.Idle() && st == status
    ensures lib.calls == old(lib.calls) + [IamaxCall(h, n, incx)]
    ensures lib.live == old(lib.live) && lib.streamOf == old(lib.streamOf)
    ensures forall a | a in old(stream.Targets()) :: a[..] == old(stream.After(a))
    ensures status.Success? ==> index == IamaxRef(n, old(stream.After(x)), incx)
  {
    Issue(lib, h, stream, IamaxCall(h, n, incx), {x});
    index := 0;
    if status.Success? {
      index := IamaxRef(n, x[..], incx);
    }
    st := status;
  }

  /** hipblasIsamin / hipblasIdamin. */
  method Iamin(lib: Library, h: nat, stream: HipStream, n: nat, x: array<real>, incx: nat, status: Status)
    returns (st: Status, index: int)
    requires Bound(lib, h, stream)
    modifies lib, stream, stream.Targets()
    ensures Bound(lib, h, stream) && stream.Idle() && st == status
    ensures lib.calls == old(lib.calls) + [IaminCall(h, n, incx)]
    ensures lib.live == old(lib.live) && lib.streamOf == old(lib.streamOf)
    ensures forall a | a in old(stream.Targets()) :: a[..] == old(stream.After(a))
    ensures status.Success? ==> index == IaminRef(n, old(stream.After(x)), incx)
  {
    Issue(lib, h, stream, IaminCall(h, n, incx), {x});
    index := 0;
    if status.Success? {
      index := IaminRef(n, x[..], incx);
    }
    st := status;
  }

  /** hipblasSgemv / hipblasDgemv with host alpha and beta; A is stored m x n. */
  method Gemv(lib: Library, h: nat, stream: HipStream, trans: bool, m: nat, n: nat, alpha: real,
              a: array<real>, lda: nat, x: array<real>, incx: nat, beta: real,
              y: array<real>, incy: nat, status: Status)
    returns (st: Status)
    requires Bound(lib, h, stream)
    modifies lib, stream, stream.Targets(), y
    ensures Bound(lib, h, stream) && stream.Idle() && st == status
    ensures lib.calls == old(lib.calls) + [GemvCall(h, TransOp(trans), m, n, lda, incx, incy)]
    ensures lib.live == old(lib.live) && lib.streamOf == old(lib.streamOf)
    ensures forall r | r in old(stream.Targets()) && r != y :: r[..] == old(stream.After(r))
    ensures status.Success? ==>
      y[..] == GemvRef(trans, m, n, alpha, old(stream.After(a)), lda, old(stream.After(x)), incx,
                       beta, old(stream.After(y)), incy)
    ensures status.Error? ==> y[..] == old(stream.After(y))
  {
    Issue(lib, h, stream, GemvCall(h, TransOp(trans), m, n, lda, incx, incy), {a, x, y});
    if status.Success? {
      Store(y, GemvRef(trans, m, n, alpha, a[..], lda, x[..], incx, beta, y[..], incy));
    }
    st := status;
  }

  /** hipblasSgemm / hipblasDgemm with host alpha and beta; C is m x n, k the inner dimension. */
  method Gemm(lib: Library, h: nat, stream: HipStream, transA: bool, transB: bool,
              m: nat, n: nat, k: nat, alpha: real, a: array<real>, lda: nat,
              b: array<real>, ldb: nat, beta: real, c: array<real>, ldc: nat, status: Status)
    returns (st: Status)
    requires Bound(lib, h, stream)
    modifies lib, stream, stream.Targets(), c
    ensures Bound(lib, h, stream) && stream.Idle() && st == status
    ensures lib.calls == old(lib.calls) + [GemmCall(h, TransOp(transA), TransOp(transB), m, n, k, lda, ldb, ldc)]
    ensures lib.live == old(lib.live) && lib.streamOf == old(lib.streamOf)
    ensures forall r | r in old(stream.Targets()) && r != c :: r[..] == old(stream.After(r))
    ensures status.Success? ==>
      c[..] == GemmRef(transA, transB, m, n, k, alpha, old(stream.After(a)), lda,
                       old(stream.After(b)), ldb, beta, old(stream.After(c)), ldc)
    ensures status.Error? ==> c[..] == old(stream.After(c))
  {
    Issue(lib, h, stream, GemmCall(h, TransOp(transA), TransOp(transB), m, n, k, lda, ldb, ldc), {a, b, c});
    if status.Success? {
      Store(c, GemmRef(transA, transB, m, n, k, alpha, a[..], lda, b[..], ldb, beta, c[..], ldc));
    }
    st := status;
  }

  /** hipsolverSSgesv_bufferSize / hipsolverDDgesv_bufferSize: the workspace size in bytes,
   *  which the library chooses (`size`). */
  method GesvBufferSize(lib: Library, h: nat, stream: HipStream, n: nat, nrhs: nat,
                        lda: nat, ldb: nat, ldx: nat, status: Status, size: nat)
    returns (r: Result<nat>)
    requires Bound(lib, h, stream)
    modifies lib, stream, stream.Targets()
    ensures Bound(lib, h, stream) && stream.Idle()
    ensures lib.calls == old(lib.calls) + [GesvBufferSizeCall(h, n, nrhs, lda, ldb, ldx)]
    ensures lib.live == old(lib.live) && lib.streamOf == old(lib.streamOf)
    ensures forall a | a in old(stream.Targets()) :: a[..] == old(stream.After(a))
    ensures status.Success? ==> r == Ok(size)
    ensures status.Error? ==> r == Raised(status.code)
  {
    Issue(lib, h, stream, GesvBufferSizeCall(h, n, nrhs, lda, ldb, ldx), {});
    if status.Error? {
      return Raised(status.code);
    }
    r := Ok(size);
  }

  /** hipsolverSSgesv / hipsolverDDgesv. The solver's answer is a parameter: the
   *  solution X, the pivots and the info code (0 on success), which it writes to the
   *  device regions `x`, `ipiv` and element 0 of `info`; the iteration count goes to a
   *  host integer. */
  method Gesv(lib: Library, h: nat, stream: HipStream, n: nat, nrhs: nat,
              lda: nat, ipiv: array<real>, ldb: nat, x: array<real>, ldx: nat, lwork: nat,
              info: array<real>, status: Status,
              solution: seq<real>, pivots: seq<real>, infoCode: int, iterations: int)
    returns (st: Status, niters: int)
    requires Bound(lib, h, stream)
    requires |solution| == x.Length && |pivots| == ipiv.Length && info.Length >= 1
    requires x != ipiv && x != info && ipiv != info
    modifies lib, stream, stream.Targets(), x, ipiv, info
    ensures Bound(lib, h, stream) && stream.Idle() && st == status
    ensures lib.calls == old(lib.calls) + [GesvCall(h, n, nrhs, lda, ldb, ldx, lwork)]
    ensures lib.live == old(lib.live) && lib.streamOf == old(lib.streamOf)
    ensures forall a | a in old(stream.Targets()) && a != x && a != ipiv && a != info ::
      a[..] == old(stream.After(a))
    ensures status.Success? ==>
      && x[..] == solution && ipiv[..] == pivots
      && info[..] == old(stream.After(info))[0 := infoCode as real] && niters == iterations
    ensures status.Error? ==>
      x[..] == old(stream.After(x)) && ipiv[..] == old(stream.After(ipiv)) && info[..] == old(stream.After(info))
  {
    Issue(lib, h, stream, GesvCall(h, n, nrhs, lda, ldb, ldx, lwork), {x, ipiv, info});
    niters := 0;
    if status.Success? {
      Store(x, solution);
      Store(ipiv, pivots);
      info[0] := infoCode as real;
      niters := iterations;
    }
    st := status;
  }
}

=== FILE: views.dfy ===
/** Typed views of a Buffer (tests/include/Matrix.h, Vector.h, Scalar.h): a column-major
 *  matrix, a strided vector and a single scalar. Each view is a Buffer plus shape; its
 *  element accessors address the host region only. */
module Views {
  import opened Hip

  /** Slot of element (r, c) of a column-major matrix with `nRows` rows. */
  function MatrixOffset(nRows: nat, r: nat, c: nat): nat
  {
    c * nRows + r
  }

  /** Slot of logical element `i` of a vector with the given stride. */
  function VectorOffset(stride: nat, i: nat): nat
  {
    stride * i
  }

  lemma MulLeMono(a: int, b: int, k: int)
    ensures 0 <= k && a <= b ==> a * k <= b * k
  {
  }

  lemma MatrixOffsetInBounds(nRows: nat, nCols: nat, r: nat, c: nat)
    requires r < nRows && c < nCols
    ensures MatrixOffset(nRows, r, c) < nRows * nCols
  {
    calc {
      c * nRows + r;
    <
      c * nRows + nRows;
    ==
      (c + 1) * nRows;
    <= { MulLeMono(c + 1, nCols, nRows); }
      nCols * nRows;
    }
  }

  /** Row and column can be read back from a slot. */
  lemma MatrixOffsetDivMod(nRows: nat, r: nat, c: nat)
    requires r < nRows
    ensures MatrixOffset(nRows, r, c) / nRows == c && MatrixOffset(nRows, r, c) % nRows == r
  {
    var q, t := MatrixOffset(nRows, r, c) / nRows, MatrixOffset(nRows, r, c) % nRows;
    assert q * nRows + t == c * nRows + r;
    MulLeMono(q + 1, c, nRows);
    MulLeMono(c + 1, q, nRows);
    assert (q + 1) * nRows == q * nRows + nRows;
    assert (c + 1) * nRows == c * nRows + nRows;
  }

  /** Distinct elements of a matrix occupy distinct slots. */
  lemma MatrixOffsetInjective(nRows: nat, r1: nat, c1: nat, r2: nat, c2: nat)
    requires r1 < nRows && r2 < nRows
    requires MatrixOffset(nRows, r1, c1) == MatrixOffset(nRows, r2, c2)
    ensures r1 == r2 && c1 == c2
  {
    MatrixOffsetDivMod(nRows, r1, c1);
    MatrixOffsetDivMod(nRows, r2, c2);
  }

  lemma MatrixOffsetDistinct(nRows: nat, r1: nat, c1: nat, r2: nat, c2: nat)
    requires r1 < nRows && r2 < nRows && (r1 != r2 || c1 != c2)
    ensures MatrixOffset(nRows, r1, c1) != MatrixOffset(nRows, r2, c2)
  {
    MatrixOffsetDivMod(nRows, r1, c1);
    MatrixOffsetDivMod(nRows, r2, c2);
  }

  lemma VectorOffsetInBounds(n: nat, stride: nat, i: nat)
    requires stride >= 1 && i < n
    ensures VectorOffset(stride, i) < n * stride
  {
    MulLeMono(i + 1, n, stride);
  }

  lemma VectorOffsetInjective(stride: nat, i: nat, j: nat)
    requires stride >= 1 && VectorOffset(stride, i) == VectorOffset(stride, j)
    ensures i == j
  {
    MulLeMono(i + 1, j, stride);
    MulLeMono(j + 1, i, stride);
  }

  /** Larger logical indices sit at larger slots. */
  lemma VectorOffsetStrict(stride: nat, i: nat, j: nat)
    requires stride >= 1 && i < j
    ensures VectorOffset(stride, i) < VectorOffset(stride, j)
  {
    MulLeMono(i + 1, j, stride);
  }

  /** Logical elements sit at multiples of the stride. */
  lemma VectorOffsetResidue(stride: nat, i: nat)
    requires stride >= 1
    ensures VectorOffset(stride, i) % stride == 0 && VectorOffset(stride, i) / stride == i
  {
    var q, r := VectorOffset(stride, i) / stride, VectorOffset(stride, i) % stride;
    assert q * stride + r == i * stride;
    MulLeMono(q + 1, i, stride);
    MulLeMono(i + 1, q, stride);
    assert (q + 1) * stride == q * stride + stride;
    assert (i + 1) * stride == i * stride + stride;
  }

  /** Slot `j` of a region, or zero when `j` is outside it. */
  function At(s: seq<real>, j: int): real
  {
    if 0 <= j < |s| then s[j] else 0.0
  }

  /** The `n` logical elements of a strided vector stored in `s`. */
  function Gather(s: seq<real>, stride: nat, n: nat): (g: seq<real>)
    ensures |g| == n
  {
    seq(n, i requires 0 <= i < n => At(s, VectorOffset(stride, i)))
  }

  /** Element (r, c) of a column-major matrix stored in `s` with leading dimension `ld`. */
  function MatAt(s: seq<real>, ld: nat, r: nat, c: nat): real
  {
    At(s, MatrixOffset(ld, r, c))
  }

  ghost predicate IsZeros(s: seq<real>)
  {
    forall k | 0 <= k < |s| :: s[k] == 0.0
  }

  datatype Matrix = Matrix(buf: Buffer, nRows: nat, nCols: nat)
  {
    ghost predicate Valid()
      reads buf
    {
      buf.Valid() && buf.size == nRows * nCols
    }

    function NumItems(): nat
    {
      nRows * nCols
    }

    function Host(): seq<real>
      reads buf, buf.hostData
      requires Valid()
    {
      buf.hostData[..]
    }

    function Device(): seq<real>
      reads buf, buf.devData
      requires Valid()
    {
      buf.devData[..]
    }

    /** El(r, c): the host element at row r, column c. */
    function El(r: nat, c: nat): (v: real)
      reads buf, buf.hostData
      requires Valid() && r < nRows && c < nCols
      ensures v == MatAt(Host(), nRows, r, c)
    {
      MatrixOffsetInBounds(nRows, nCols, r, c);
      buf.hostData[MatrixOffset(nRows, r, c)]
    }

    method Set(r: nat, c: nat, v: real)
      requires Valid() && r < nRows && c < nCols
      modifies buf.hostData
      ensures Valid() && MatrixOffset(nRows, r, c) < buf.size
      ensures Host() == old(Host())[MatrixOffset(nRows, r, c) := v]
      ensures El(r, c) == v
    {
      MatrixOffsetInBounds(nRows, nCols, r, c);
      buf.hostData[MatrixOffset(nRows, r, c)] := v;
    }
  }

  /** Writing one element of a matrix leaves every other element as it was. */
  lemma MatAtUpdateOther(s: seq<real>, ld: nat, r: nat, c: nat, v: real, r': nat, c': nat)
    requires r < ld && r' < ld && (r' != r || c' != c) && MatrixOffset(ld, r, c) < |s|
    ensures MatAt(s[MatrixOffset(ld, r, c) := v], ld, r', c') == MatAt(s, ld, r', c')
  {
    MatrixOffsetDistinct(ld, r', c', r, c);
  }

  datatype Vector = Vector(buf: Buffer, n: nat, stride: nat)
  {
    ghost predicate Valid()
      reads buf
    {
      buf.Valid() && stride >= 1 && buf.size == n * stride
    }

    function Host(): seq<real>
      reads buf, buf.hostData
      requires Valid()
    {
      buf.hostData[..]
    }

    function Device(): seq<real>
      reads buf, buf.devData
      requires Valid()
    {
      buf.devData[..]
    }

    /** The logical elements as seen on the host. */
    function Items(): seq<real>
      reads buf, buf.hostData
      requires Valid()
    {
      Gather(Host(), stride, n)
    }

    function El(i: nat): (v: real)
      reads buf, buf.hostData
      requires Valid() && i < n
      ensures v == Items()[i]
    {
      VectorOffsetInBounds(n, stride, i);
      buf.hostData[VectorOffset(stride, i)]
    }
  }

  datatype Scalar = Scalar(buf: Buffer)
  {
    ghost predicate Valid()
      reads buf
    {
      buf.Valid() && buf.size == 1
    }

    function El(): real
      reads buf, buf.hostData
      requires Valid()
    {
      buf.hostData[0]
    }

    function DeviceEl(): real
      reads buf, buf.devData
      requires Valid()
    {
      buf.devData[0]
    }
  }

  /** Matrix(nRows, nCols): a zero-filled buffer of nRows * nCols elements. */
  method NewMatrix(nRows: nat, nCols: nat) returns (m: Matrix)
    ensures m.Valid() && m.nRows == nRows && m.nCols == nCols
    ensures fresh(m.buf) && fresh(m.buf.hostData) && fresh(m.buf.devData)
    ensures IsZeros(m.Host()) && IsZeros(m.Device())
  {
    var b := new Buffer(nRows * nCols);
    m := Matrix(b, nRows, nCols);
  }

  /** The constructor taking the dimensions as a pair. */
  method NewMatrixOfShape(dims: (nat, nat)) returns (m: Matrix)
    ensures m.Valid() && m.nRows == dims.0 && m.nCols == dims.1
    ensures fresh(m.buf) && fresh(m.buf.hostData) && fresh(m.buf.devData)
    ensures IsZeros(m.Host()) && IsZeros(m.Device())
  {
    m := NewMatrix(dims.0, dims.1);
  }

  /** Vector(n, stride): a zero-filled buffer of n * stride elements. */
  method NewVector(n: nat, stride: nat := 1) returns (v: Vector)
    requires stride >= 1
    ensures v.Valid() && v.n == n && v.stride == stride
    ensures fresh(v.buf) && fresh(v.buf.hostData) && fresh(v.buf.devData)
    ensures IsZeros(v.Host()) && IsZeros(v.Device())
  {
    var b := new Buffer(n * stride);
    v := Vector(b, n, stride);
  }

  /** Scalar(initialHostVal): one element, host set to the initial value, device zero. */
  method NewScalar(initialHostVal: real := 0.0) returns (s: Scalar)
    ensures s.Valid() && s.El() == initialHostVal && s.DeviceEl() == 0.0
    ensures fresh(s.buf) && fresh(s.buf.hostData) && fresh(s.buf.devData)
  {
    var b := new Buffer(1);
    b.hostData[0] := initialHostVal;
    s := Scalar(b);
  }

  /** The sequence 0, scale, 2 * scale, ... of length n. */
  function Ramp(n: nat, scale: real): (r: seq<real>)
    ensures |r| == n
  {
    seq(n, i requires 0 <= i < n => scale * (i as real))
  }

  /** Writes scale * i to logical element i of `v`, for every i; the slots between the
   *  logical elements keep their contents. */
  method FillScaled(v: Vector, scale: real)
    requires v.Valid()
    modifies v.buf.hostData
    ensures v.Valid()
    ensures v.Items() == Ramp(v.n, scale)
    ensures forall j | 0 <= j < v.buf.size && j % v.stride != 0 :: v.buf.hostData[j] == old(v.buf.hostData[j])
  {
    var i := 0;
    while i < v.n
      invariant 0 <= i <= v.n
      invariant forall k | 0 <= k < i :: At(v.Host(), VectorOffset(v.stride, k)) == scale * (k as real)
      invariant forall j | 0 <= j < v.buf.size && j % v.stride != 0 :: v.buf.hostData[j] == old(v.buf.hostData[j])
    {
      VectorOffsetInBounds(v.n, v.stride, i);
      VectorOffsetResidue(v.stride, i);
      ghost var before := v.Host();
      v.buf.hostData[VectorOffset(v.stride, i)] := scale * (i as real);
      assert v.Host() == before[VectorOffset(v.stride, i) := scale * (i as real)];
      forall k | 0 <= k < i
        ensures VectorOffset(v.stride, k) != VectorOffset(v.stride, i)
      {
        VectorOffsetStrict(v.stride, k, i);
      }
      i := i + 1;
    }
    assert forall k | 0 <= k < v.n :: v.Items()[k] == Ramp(v.n, scale)[k];
  }

  /** A bulk copy (memcpy) of `vals` over the whole host region of `m`. */
  method CopyInto(m: Matrix, vals: seq<real>)
    requires m.Valid() && |vals| == m.NumItems()
    modifies m.buf.hostData
    ensures m.Valid() && m.Host() == vals
  {
    forall k | 0 <= k < m.buf.size {
      m.buf.hostData[k] := vals[k];
    }
  }

  /** Writes vals[i] to logical element i of `v`, for every i; the slots between the
   *  logical elements keep their contents. */
  method FillFrom(v: Vector, vals: seq<real>)
    requires v.Valid() && |vals| == v.n
    modifies v.buf.hostData
    ensures v.Valid() && v.Items() == vals
    ensures forall j | 0 <= j < v.buf.size && j % v.stride != 0 :: v.buf.hostData[j] == old(v.buf.hostData[j])
  {
    var i := 0;
    while i < v.n
      invariant 0 <= i <= v.n
      invariant forall k | 0 <= k < i :: At(v.Host(), VectorOffset(v.stride, k)) == vals[k]
      invariant forall j | 0 <= j < v.buf.size && j % v.stride != 0 :: v.buf.hostData[j] == old(v.buf.hostData[j])
    {
      VectorOffsetInBounds(v.n, v.stride, i);
      VectorOffsetResidue(v.stride, i);
      ghost var before := v.Host();
      v.buf.hostData[VectorOffset(v.stride, i)] := vals[i];
      assert v.Host() == before[VectorOffset(v.stride, i) := vals[i]];
      forall k | 0 <= k < i
        ensures VectorOffset(v.stride, k) != VectorOffset(v.stride, i)
      {
        VectorOffsetStrict(v.stride, k, i);
      }
      i := i + 1;
    }
    assert forall k | 0 <= k < v.n :: v.Items()[k] == vals[k];
  }
}
